=== FILE: README.md ===
# IPTV playlist tools and servers, modelled in Dafny

The repository keeps a US television playlist (`playlist1.m3u`, in the
extended M3U format: a `#EXTM3U` header line, then for each channel an
`#EXTINF` line carrying `tvg-id`, `tvg-logo`, `group-title` and the name after
the last comma, followed by the stream URL) and a set of tools around it:

- `merge_playlists.py` merges a main playlist with a master list. It keeps
  popular channels from one IP host and everything from three other hosts, and
  drops two excluded hosts. It files every channel under one of fourteen
  categories, rebuilding the `#EXTINF` line of known channels from a logo
  table, and writes the sections in a fixed order.
- `scripts/check_and_fix_logos.py` checks every `tvg-logo` URL and finds an
  alternative for each broken one: a known logo whose keyword occurs in the
  channel's first word, or a placeholder image carrying the cleaned-up name.
  It rewrites the affected lines and produces a report.
- `test_channels.py`, `quick_test.py`, `test_epg.py` and `check_epg_ids.py`
  probe streams and the XMLTV programme guide (EPG). They reconcile the
  playlist's `tvg-id`s with the guide's channel ids.
- `fix_epg.py` replaces the header's `url-tvg` guide address.
- `server/server.js` (Node and Express) serves the playlist. It checks
  credentials and expiry, opens a session under a random hex token, and
  rewrites every `.m3u8` address into a `/stream/<token>/<base64 of the
  address>` link, which it redirects back to the address. It also answers
  the Xtream Codes `player_api.php` actions.
- `server/get.php` is the PHP variant. It appends `#token=` and the base64 of
  `username:password` to every address.

The model has one Dafny module per source file:

- `Merge`, `Logos`, `ChannelTester`, `QuickTest`, `EpgCoverage`, `EpgIds`,
  `FixEpg`, `NodeServer` and `PhpServer`.
- Modules for what they share:
  - `Text`: Python's string operations;
  - `M3u`: the attribute and name regexes, and the `#EXTINF`/URL pairing loop;
  - `Output`: the section writer;
  - `Epg`: guide records and the id-to-name dictionary;
  - `UrlMatch`: the address regexes and global replace;
  - `Base64` and `Utf8`.

Each model follows the form of its source:

- Loops that fill lists and dictionaries are methods, proved against reference
  functions.
- The logo checker's object is a class whose methods update its three fields.
- The Node server's session table is a field of a class.
- Regular expressions are explicit leftmost, greedy search functions.
- The network, the clock, randomness, files and the console are parameters:
  - probe results are functions from URL to outcome;
  - the clock is a number;
  - the random token is its bytes;
  - file contents are strings.

## Model

| member | source | states |
|---|---|---|
| Text.ContainsIff | merge_playlists.py:32 | `sub in s` holds exactly when `sub` occurs at some position of `s` |
| Text.ContainsAnyIff | merge_playlists.py:46 | `any(p in s for p in subs)` holds exactly when some listed candidate occurs in `s` |
| Text.LStrip | merge_playlists.py:17-18 | `lstrip` never lengthens the text |
| Text.LStripSpec | merge_playlists.py:17-18 | `lstrip` removes exactly the leading whitespace: the result is a suffix, everything dropped is whitespace, and it starts with a non-space |
| Text.RStrip | merge_playlists.py:17-18 | `rstrip` never lengthens the text |
| Text.RStripSpec | merge_playlists.py:17-18 | `rstrip` removes exactly the trailing whitespace: a prefix, only whitespace dropped, ending in a non-space |
| Text.StripKeepsPrefix | merge_playlists.py:15-18 | a whitespace-free prefix such as `#EXTINF` or `http` survives `strip` |
| Text.Split | merge_playlists.py:13 | `split(sep)` gives at least one piece, no piece holds `sep`, and there are two or more pieces exactly when `sep` occurs |
| Text.JoinSplit | scripts/check_and_fix_logos.py:80 | joining the pieces of a split with the same separator gives the text back |
| Text.SplitJoin | merge_playlists.py:164 | splitting text joined from separator-free pieces gives the pieces back |
| Text.Lower | scripts/check_and_fix_logos.py:63 | `lower()` keeps the length |
| Text.Upper | check_epg_ids.py:32 | `upper()` keeps the length |
| Text.LowerKeepsSpaces | scripts/check_and_fix_logos.py:63 | lower-casing maps whitespace to whitespace and nothing else to it, so word boundaries stay put |
| Text.Repeat | scripts/check_and_fix_logos.py:153 | `c * n` is `n` copies of `c` |
| Text.WordPrefix | scripts/check_and_fix_logos.py:63 | the longest whitespace-free prefix: it is a prefix, holds no space, and is followed by a space or the end |
| Text.FirstWord | scripts/check_and_fix_logos.py:63 | `split()[0]` of a non-blank text is its first word: a non-empty space-free prefix of the text after its leading whitespace, ending at whitespace or at the end |
| Text.Digit | test_channels.py:32 | a decimal digit character |
| Text.Decimal | test_channels.py:32 | `str(n)` is non-empty, all digits, without a leading zero |
| Text.DecimalRoundTrip | scripts/check_and_fix_logos.py:156 | reading a written number back gives the number |
| Text.Take | test_channels.py:136 | `xs[:n]` is the prefix of `xs` of length exactly `min(n, len(xs))` |
| Text.BelowIrreflexive | merge_playlists.py:110 | Python's string `<` is irreflexive |
| Text.BelowTransitive | merge_playlists.py:110 | Python's string `<` is transitive |
| Text.BelowTotal | merge_playlists.py:110 | any two distinct strings are ordered one way or the other |
| Text.SortedExists | merge_playlists.py:110 | every finite set of strings has a strictly increasing listing |
| Text.SortedList | merge_playlists.py:110 | `sorted` of a key set is strictly increasing and holds exactly the keys |
| Text.SortedUnique | merge_playlists.py:110 | a set of strings has only one strictly increasing listing, so `sorted` is determined |
| Text.Sorted | merge_playlists.py:110 | the loop building `sorted(keys)` returns that unique listing |
| Text.ReadLines | test_channels.py:66 | `readlines()` gives non-empty single lines, each but the last ending in a newline, none for an empty file |
| Text.ConcatReadLines | fix_epg.py:8-25 | on the text as read, `writelines(readlines())` writes that text back unchanged |
| Text.StripNoNewline | merge_playlists.py:17-18 | `strip` never puts a newline into a line that had none |
| Text.FirstLine | fix_epg.py:20 | the first line read is the text up to and including its first newline, and the other lines are the rest of the text |
| Text.ReadLinesAppend | fix_epg.py:21 | a whole line put in front of the text is read as a line of its own |
| Base64.SymbolRoundTrip | server/server.js:95 | each alphabet's characters decode to their index; none is `=`; `/` is only index 63 of the standard alphabet |
| Base64.TripleRoundTrip | server/server.js:95 | the four sextets of three bytes recombine to the bytes |
| Base64.BodyNoPad | server/server.js:75 | the encoded body holds no `=` |
| Base64.QuadStep | server/server.js:95 | a four-character group in front of more text decodes to its three bytes in front of the rest |
| Base64.TailRoundTrip | server/server.js:95 | a short last group of two or three characters decodes to its one or two bytes |
| Base64.BodyRoundTrip | server/server.js:95 | decoding an encoded body gives the bytes back |
| Base64.DecodeEncode | server/server.js:95 | Node's decoder reads back both `toString('base64')` and `toString('base64url')` |
| Base64.EncodeUrlNoSlash | server/server.js:75 | the base64url encoding never holds `/` |
| Utf8.EncodeChar | server/server.js:75 | one to four bytes per code point, a single byte exactly for ASCII |
| Utf8.DecodeFirst | server/server.js:95 | the first character of well-formed bytes uses between one byte and all of them |
| Utf8.DecodeFirstChar | server/server.js:95 | an encoded character followed by anything decodes to that character and its length |
| Utf8.DecodeEncode | server/server.js:95 | decoding the UTF-8 of a text gives the text back |
| Utf8.EncodeAscii | server/server.js:75 | ASCII text is its own UTF-8 form |
| UrlMatch.SchemeLen | server/server.js:74 | the length of the `https?://` at the front (greedy `s?`), or 0 when there is none |
| UrlMatch.RunEnd | server/server.js:74 | where greedy `[^\s]+` first stops: at a space or the end |
| UrlMatch.RunEndSpec | server/server.js:74 | the run holds no space and is the longest space-free stretch from its start |
| UrlMatch.LastM3u8 | server/server.js:74 | the backtracking point: a `.m3u8` ending inside the run with at least one character before it |
| UrlMatch.LastM3u8Last | server/server.js:74 | no `.m3u8` ends after the one found, and none at all when none is found |
| UrlMatch.Match | server/server.js:74 | a match at the front is non-empty and fits in the text |
| UrlMatch.OneScheme | server/server.js:74 | only one of `http://` and `https://` can be at the front, so a match is read after that one |
| UrlMatch.MatchLongest | server/server.js:74 | the match taken matches the pattern and is the longest one at the front; with no match nothing at the front matches |
| UrlMatch.MatcherSane | server/get.php:42 | both patterns' matches are never empty and never run past the text |
| UrlMatch.ReplaceMatchStep | server/server.js:74 | global replace: a match at the front is replaced and the search goes on after it |
| UrlMatch.ReplaceSkipStep | server/server.js:74 | global replace: a character where no match starts is copied |
| UrlMatch.PlainUnchanged | server/server.js:74 | text without `http` comes out unchanged |
| UrlMatch.NoSchemeWithoutHttp | server/server.js:74 | no match starts where `http` does not |
| UrlMatch.MatchCut | server/server.js:74 | a space ends every match: what follows it does not change the match in front |
| UrlMatch.MatcherStops | server/get.php:42 | no match of either pattern reaches across a space |
| UrlMatch.ReplaceCut | server/server.js:74 | the rewrite goes piece by piece between spaces: a space is kept and the pieces are rewritten apart |
| UrlMatch.LinkReplaced | server/server.js:74 | a text that is wholly one match is replaced as a whole |
| M3u.QuoteFreeRun | scripts/check_and_fix_logos.py:86 | `[^"]*` from `q`: no quote inside, and a quote or the end right after |
| M3u.AttrAtReads | scripts/check_and_fix_logos.py:86 | a match of `key="([^"]+)"` at `p` reads `key="value"` there with a non-empty quote-free value |
| M3u.AttrFromNone | scripts/check_and_fix_logos.py:86 | when the search finds nothing, the regex matches nowhere at or after `p` |
| M3u.AttrFromSome | scripts/check_and_fix_logos.py:86 | a value found is the match at the first position where the regex matches |
| M3u.AttrFromNoMatch | scripts/check_and_fix_logos.py:86 | where the regex matches nowhere, the search finds nothing |
| M3u.AttrFromSkip | scripts/check_and_fix_logos.py:86 | positions where the regex does not match are passed over |
| M3u.AttrValueLeftmost | merge_playlists.py:113 | `re.search(r'key="([^"]+)"')` gives the leftmost non-empty quoted value, or `None` exactly when the regex matches nowhere |
| M3u.NoAttrWithoutKey | merge_playlists.py:112-113 | a line in which `key="` never occurs has no such attribute |
| M3u.AttrAtOpen | merge_playlists.py:112 | a match means `key="` occurs in the line, so the `'group-title=' in info` guard never hides a match |
| M3u.NameFromNone | scripts/check_and_fix_logos.py:91 | when `,(.+)$` finds nothing, it matches nowhere at or after `p` |
| M3u.NameFromSome | scripts/check_and_fix_logos.py:91 | a name found is the match at the first position where `,(.+)$` matches |
| M3u.NameFromNoMatch | scripts/check_and_fix_logos.py:91 | where `,(.+)$` matches nowhere, the search finds nothing |
| M3u.NameFromSkip | scripts/check_and_fix_logos.py:91 | positions where `,(.+)$` does not match are passed over |
| M3u.FirstCommaName | test_channels.py:83 | on one line the name is everything after the FIRST comma up to the end (its newline excluded), none when that is empty |
| M3u.NoCommaNoName | test_channels.py:84 | without a comma there is no name, so the scripts fall back to their default |
| M3u.PairsFromIff | merge_playlists.py:14-19 | an entry is taken exactly where an `#EXTINF` line is followed by a line starting with `http` |
| M3u.PairsIff | merge_playlists.py:14-19 | the entries of a whole playlist, with the same condition |
| M3u.PairsLines | merge_playlists.py:14-19 | every entry taken is an `#EXTINF` line followed by a URL line of the input |
| M3u.StripWellFormed | merge_playlists.py:17-18 | stripping both lines keeps an entry well formed |
| M3u.RenderLength | merge_playlists.py:157-159 | entries are written as two lines each |
| M3u.RenderAppend | merge_playlists.py:157-159 | writing two runs of entries writes one after the other |
| M3u.RenderSnoc | merge_playlists.py:157-159 | one more entry appends its info line and its URL |
| M3u.RenderLast | merge_playlists.py:157-159 | the last line written for some entries is the last URL |
| M3u.PairsAppend | merge_playlists.py:14-19 | pairing splits at a line that is not an `#EXTINF` line |
| M3u.PairsNone | merge_playlists.py:14-19 | lines without an `#EXTINF` line hold no entry |
| M3u.PairsRender | merge_playlists.py:14-19 | round trip: reading back the written lines of well-formed entries yields exactly those entries, in order |
| M3u.PairsAdvance | merge_playlists.py:14-19 | the pairing loops' invariant carried from line `i` to `i + 1` |
| M3u.PairsStep | merge_playlists.py:14-19 | the pairing loop reads one line ahead and adds the entry starting at line `i`, if any |
| Output.Section | merge_playlists.py:155-160 | a category writes nothing exactly when its list is empty, and otherwise ends in a blank line |
| Output.Body | merge_playlists.py:154-160 | the sections written so far end in a blank line, if there are any |
| Output.WriteSection | merge_playlists.py:155-160 | the loop appends exactly the category's section to the output |
| Output.SectionPairs | merge_playlists.py:155-160 | read back, a section yields its entries |
| Output.BannerNotInfo | merge_playlists.py:156 | a `# === name ===` banner is never taken for an `#EXTINF` line |
| Output.BodyPairs | merge_playlists.py:154-160 | read back, the sections of the first `n` categories yield their entries in order |
| Output.SectionAfter | merge_playlists.py:155-160 | read back, a section written after a blank line adds its entries |
| Output.PairsAfterBlank | merge_playlists.py:160 | pairing splits after a blank line |
| Output.FlattenLength | merge_playlists.py:166 | the entries of all categories number the sum of the list lengths |
| Output.RenderNoNewline | merge_playlists.py:157-159 | entries whose two lines hold no newline are written as lines without a newline |
| Output.BodyNoNewline | merge_playlists.py:154-160 | no line written for the first `n` categories holds a newline when no category name and no entry line does |
| Merge.PopularNonEmpty | merge_playlists.py:38-45 | no popular token is empty, so not every channel is popular |
| Merge.Entries | merge_playlists.py:17-18 | one stored entry per pair read |
| Merge.LatestLastWins | merge_playlists.py:12-19 | a URL is a key of `main_channels` exactly when some entry has it, and its value is the info of the LAST such entry |
| Merge.LatestKeys | merge_playlists.py:19 | the keys of the dict are the URLs of the entries |
| Merge.LatestValue | merge_playlists.py:19 | a key's value comes from the last entry with that URL |
| Merge.ExtractMain | merge_playlists.py:12-19 | the loop fills exactly the dict of the reference definition |
| Merge.MainStep | merge_playlists.py:15-19 | one entry read records its stripped URL with its stripped info line |
| Merge.EntriesAt | merge_playlists.py:17-18 | entry `k` is pair `k` with both lines stripped |
| Merge.ChannelOf | merge_playlists.py:36 | the channel piece holds no `/`, and is empty when the URL does not end in `.m3u8` |
| Merge.LatestKeptLastWins | merge_playlists.py:24-51 | a URL is added to `master_channels` exactly when some master entry has it and the filter keeps it; the last such entry wins |
| Merge.LatestKeptKeys | merge_playlists.py:24-51 | the keys added are the URLs of kept entries |
| Merge.LatestKeptValue | merge_playlists.py:24-51 | a key's value comes from the last entry with that URL |
| Merge.ReadableAt | merge_playlists.py:36 | on a master that the script gets through, each entry's URL can be split |
| Merge.MasterRules | merge_playlists.py:32-51 | every added URL avoids both excluded hosts; from the IP host it is a `.m3u8` stream with a popular channel piece that the main playlist lacks; otherwise it is on one of the three other hosts |
| Merge.KeepRules | merge_playlists.py:32-51 | the filter's decision for one URL, in both directions |
| Merge.OtherHostsSkipDuplicateCheck | merge_playlists.py:50-51 | entries of the three other hosts are added even when the main playlist already has the URL |
| Merge.KeepMaster | merge_playlists.py:32-51 | the filter for one entry decides as the reference predicate does |
| Merge.ExtractMaster | merge_playlists.py:24-51 | the loop fills exactly the dict of the reference definition |
| Merge.MasterStep | merge_playlists.py:27-51 | one entry read: the dict gains it exactly when the filter keeps it |
| Merge.MainCategory | merge_playlists.py:112-119 | a main entry's category, when there is one, is one of the fourteen |
| Merge.MainCategorySpec | merge_playlists.py:112-119 | a main entry is filed exactly when it has a non-empty `group-title`: under that title when it names a category, otherwise under 'Specialty & Others' |
| Merge.ChainCategory | merge_playlists.py:132-145 | the chain always picks one of the fourteen categories |
| Merge.LogoKeysAreUsa | merge_playlists.py:59-89 | every channel in the logo table is named `USA_…` |
| Merge.ChainStopsAtUsa | merge_playlists.py:132-145 | a channel of the table stops at the fourth test at the latest: Movies & Premium, Educational, Kids & Family or Entertainment |
| Merge.TableNeverLifestyle | merge_playlists.py:140-145 | no channel of the table reaches the two 'Lifestyle & Women' branches or the final else |
| Merge.ChainEntertainment | merge_playlists.py:138-139 | a `USA` channel that misses every earlier token is filed under 'Entertainment' |
| Merge.LifestyleChannelsAreEntertainment | merge_playlists.py:138-143 | the four channels the Lifestyle tokens were written for go to 'Entertainment' |
| Merge.MainFiling | merge_playlists.py:110-119 | a main entry is filed exactly when it has a category |
| Merge.MasterFiling | merge_playlists.py:122-151 | where one master entry goes: rebuilt under the chain's category, unchanged under 'Specialty & Others', or dropped |
| Merge.Placements | merge_playlists.py:110-151 | one placement per URL |
| Merge.File | merge_playlists.py:117 | carrying out a placement keeps the number of categories |
| Merge.FileAll | merge_playlists.py:110-151 | carrying out placements keeps the number of categories |
| Merge.FileAllAt | merge_playlists.py:110-151 | after a loop, a category's list is what it held before followed by the entries placed under it, in order |
| Merge.FiledIff | merge_playlists.py:117-151 | an entry is under a category exactly when some placement puts it there |
| Merge.FiledSorted | merge_playlists.py:110 | keeping one category's entries keeps their URL order |
| Merge.PlacementsInOrder | merge_playlists.py:110 | placements read off sorted URLs come in URL order |
| Merge.MasterMapSplittable | merge_playlists.py:125 | every IP-host URL of the master dict can be split, as line 125 assumes |
| Merge.Sections | merge_playlists.py:92-151 | there are fourteen lists |
| Merge.SectionsAt | merge_playlists.py:92-151 | each list holds the main entries filed under it, then the master entries filed under it |
| Merge.EmptySectionsEmpty | merge_playlists.py:92-107 | every category starts empty |
| Merge.SectionsSorted | merge_playlists.py:110-122 | within a list, the main entries come in URL order, and so do the master entries |
| Merge.PlacedIff | merge_playlists.py:110-151 | from one dict, an entry is under a category exactly when its URL is a key whose filing puts it there |
| Merge.SectionMember | merge_playlists.py:110-151 | an entry is in a category exactly when the main dict files it there unchanged or the master dict files it there |
| Merge.FileMain | merge_playlists.py:112-119 | one main entry is appended to its category's list, if it has one |
| Merge.FileMaster | merge_playlists.py:123-151 | one master entry is rebuilt and appended, appended unchanged, or dropped |
| Merge.FileEntries | merge_playlists.py:110-151 | a categorisation loop over a dict in URL order carries out its placements |
| Merge.Categorize | merge_playlists.py:92-151 | the fourteen lists after both loops |
| Merge.EntriesWellFormed | merge_playlists.py:14-19 | every stripped entry read is an `#EXTINF` line with a URL line |
| Merge.MainMapWellFormed | merge_playlists.py:12-19 | the main dict maps URL lines to `#EXTINF` lines |
| Merge.MasterMapWellFormed | merge_playlists.py:24-51 | the master dict maps URL lines to `#EXTINF` lines |
| Merge.MasterFilingWellFormed | merge_playlists.py:147 | a rebuilt info line starts with `#EXTINF` too |
| Merge.SectionsWellFormed | merge_playlists.py:110-151 | filing well-formed dicts gives well-formed lists only |
| Merge.WriteOutput | merge_playlists.py:154-160 | the output loop writes the header, a blank line and the sections in category order |
| Merge.LayoutPairs | merge_playlists.py:154-166 | round trip: the pairing loop finds in the written lines exactly the filed entries, category by category, as many as line 166 reports |
| Merge.MergePlaylists | merge_playlists.py:4-166 | the whole script: output lines, the saved text (the lines joined with newlines, which splits back into exactly those lines) and the printed total, from both files' texts |
| Merge.MergedPairs | merge_playlists.py:12-166 | the text saved at line 164, split at newlines and paired as lines 12-19 do, gives back exactly the written lines and so exactly the filed entries, category by category, as many as the total printed |
| Merge.LayoutSplits | merge_playlists.py:154-164 | when no filed entry line holds a newline, splitting the saved text gives exactly the written lines |
| Merge.LayoutBodyNoNewline | merge_playlists.py:154-160 | no section line holds a newline when no filed entry line does |
| Merge.SectionsNoNewline | merge_playlists.py:110-151 | when neither dict holds a newline, every entry filed into the fourteen lists, rebuilt info lines included, is two lines without a newline |
| Merge.MainMapNoNewline | merge_playlists.py:12-19 | the URLs and infos stored from the main playlist hold no newline |
| Merge.MasterMapNoNewline | merge_playlists.py:23-51 | the URLs and infos stored from the master playlist hold no newline |
| Merge.NewInfoNoNewline | merge_playlists.py:128-148 | the info line written for a channel of the logo table holds no newline |
| Merge.CategoriesNoNewline | merge_playlists.py:92-107 | none of the fourteen category names holds a newline |
| Logos.LogoWorks | scripts/check_and_fix_logos.py:46-58 | a logo works only after a HEAD answered 200 and a GET answered; it works whenever that GET answered 200 or carries an image content type |
| Logos.ChannelKey | scripts/check_and_fix_logos.py:63 | the key is empty exactly for an empty name; otherwise it is the first word of the lower-cased name (a space-free prefix after its leading whitespace, ending at whitespace or the end) |
| Logos.KnownFromFirst | scripts/check_and_fix_logos.py:64-67 | the lookup returns the URL of the FIRST table entry whose keyword is in the key and whose URL works |
| Logos.KnownFromNone | scripts/check_and_fix_logos.py:64-67 | the lookup finds nothing exactly when no entry qualifies |
| Logos.WordsOnly | scripts/check_and_fix_logos.py:70 | `re.sub(r'[^\w\s]', '')` leaves only word characters and whitespace, never lengthening |
| Logos.WordsOnlyKeeps | scripts/check_and_fix_logos.py:70 | a name of word characters and whitespace is left as it is |
| Logos.PlusForSpace | scripts/check_and_fix_logos.py:70 | `.replace(' ', '+')` turns every space into `+` and keeps every other character |
| Logos.PlaceholderShape | scripts/check_and_fix_logos.py:70-71 | the placeholder is the base URL followed by word characters, `+` and non-space whitespace |
| Logos.PlaceholderQuoteFree | scripts/check_and_fix_logos.py:71 | a placeholder is non-empty and quote-free, so it can stand as a `tvg-logo` value |
| Logos.AlternativeIs | scripts/check_and_fix_logos.py:60-73 | the alternative is the first qualifying table URL, or the placeholder when none qualifies |
| Logos.PlaceholderWhenNoKeyword | scripts/check_and_fix_logos.py:69-73 | with no keyword in the first word, the answer is the placeholder whatever the URL checks say |
| Logos.EntryAt | scripts/check_and_fix_logos.py:84-99 | an entry records its line number, its line (an `#EXTINF` line) and that line's `tvg-logo` value |
| Logos.LogoEntries | scripts/check_and_fix_logos.py:83-99 | at most one entry per line |
| Logos.LogoEntriesIff | scripts/check_and_fix_logos.py:83-99 | an entry is found exactly for each `#EXTINF` line with a non-empty `tvg-logo`; no URL line is needed |
| Logos.LogoEntriesOrdered | scripts/check_and_fix_logos.py:83-99 | entries come in increasing line order, each recording its own line |
| Logos.UnknownWithoutComma | scripts/check_and_fix_logos.py:92 | on a line without a comma the channel name is 'Unknown' |
| Logos.Select | scripts/check_and_fix_logos.py:113-122 | a selection never has more entries than it started from |
| Logos.SelectIff | scripts/check_and_fix_logos.py:117-122 | an entry lands in `working_logos` or `broken_logos` exactly as its check says |
| Logos.SelectPartition | scripts/check_and_fix_logos.py:113-122 | every entry lands in exactly one list, so the sizes add up |
| Logos.FixesStep | scripts/check_and_fix_logos.py:128-130 | one more broken entry records its own alternative |
| Logos.FixesKeys | scripts/check_and_fix_logos.py:128-130 | the lines given alternatives are exactly the broken entries' lines |
| Logos.FixesValue | scripts/check_and_fix_logos.py:128-130 | each broken entry's line is given that entry's alternative |
| Logos.SelectOrdered | scripts/check_and_fix_logos.py:113-122 | selecting keeps the entries in strictly increasing line order |
| Logos.FixesOfBroken | scripts/check_and_fix_logos.py:83-130 | for the broken list the script actually builds, each broken entry's line is given that entry's alternative |
| Logos.PlaceholderNoBackslash | scripts/check_and_fix_logos.py:25 | the placeholder URL holds no backslash, so `re.sub` copies it as it is |
| Logos.FixedInRange | scripts/check_and_fix_logos.py:138-139 | every line given an alternative is a line of the playlist, so `lines[line_num]` never fails |
| Logos.ReplaceSkip | scripts/check_and_fix_logos.py:141 | positions where no match starts are copied |
| Logos.ReplaceCopies | scripts/check_and_fix_logos.py:141 | a character where no match starts is copied |
| Logos.ReplaceWrites | scripts/check_and_fix_logos.py:141 | where a match starts, `tvg-logo="url"` is written in its place and the search goes on after it |
| Logos.ReplaceNoMatch | scripts/check_and_fix_logos.py:141 | a line without a `tvg-logo` value is left as it is |
| Logos.ReplaceReadsBack | scripts/check_and_fix_logos.py:141 | after the rewrite, the `tvg-logo` value the parser reads is the new URL |
| Logos.Rewritten | scripts/check_and_fix_logos.py:138-142 | the rewrite keeps the number of lines |
| Logos.Listing | scripts/check_and_fix_logos.py:164-166 | two report lines per listed entry |
| Logos.ReportFacts | scripts/check_and_fix_logos.py:150-168 | the total line reads back as working plus broken; the report has seven lines, plus the listing of the first `min(20, len(broken))` broken entries |
| Logos.ListingAt | scripts/check_and_fix_logos.py:164-166 | entry `i` gives the lines `  - name` and `    url` |
| Logos.AppendListing | scripts/check_and_fix_logos.py:164-166 | the listing loop appends exactly the listing |
| Logos.LogoChecker.constructor | scripts/check_and_fix_logos.py:42-44 | the three collections start empty |
| Logos.LogoChecker.ParseM3u | scripts/check_and_fix_logos.py:75-101 | the lines of the file and the entries found in them |
| Logos.LogoChecker.CheckAllLogos | scripts/check_and_fix_logos.py:103-122 | working and broken gain the entries whose check succeeds and fails; the fixes are untouched |
| Logos.LogoChecker.FindAlternativeLogo | scripts/check_and_fix_logos.py:60-73 | the table scan and the placeholder give the reference alternative |
| Logos.LogoChecker.FixBrokenLogos | scripts/check_and_fix_logos.py:124-131 | an alternative is recorded for each broken entry's line; the lists are untouched |
| Logos.LogoChecker.SaveFixedPlaylist | scripts/check_and_fix_logos.py:133-146 | each line with an alternative is rewritten, and the lines are joined again |
| Logos.LogoChecker.GenerateReport | scripts/check_and_fix_logos.py:150-168 | the report lines joined with newlines |
| Logos.CheckAndFix | scripts/check_and_fix_logos.py:183-209 | a fixed playlist is saved exactly when not only checking and some logo is broken, with the broken lines rewritten; the report counts and lists the entries, with fixes only when they were made |
| ChannelTester.TestChannelStream | test_channels.py:12-24 | a stream works exactly when answered 200, 301 or 302; the detail is the status, or 'Timeout', 'Connection Error' or the exception text |
| ChannelTester.ForbiddenFails | test_channels.py:16-18 | a 403 answer fails, with its status kept |
| ChannelTester.MatchedIff | test_channels.py:46-52 | an id is matched exactly when it is ours and a guide channel, and it carries the guide's name |
| ChannelTester.MissingIff | test_channels.py:46-52 | an id is unmatched exactly when it is ours and not a guide channel |
| ChannelTester.ReconcileSizes | test_channels.py:46-52 | over distinct ids, matched and unmatched account for every id once |
| ChannelTester.Reconcile | test_channels.py:46-52 | the loop builds exactly the reference `matched` and `unmatched` |
| ChannelTester.TestEpgData | test_channels.py:26-57 | a raised exception, a non-200 status or an unparsable body give the error text; otherwise the reconciliation against the guide |
| ChannelTester.EpgCountsCover | test_channels.py:113-118 | for `list(set(tvg_ids))` the found and missing counts add up to the number of distinct ids |
| ChannelTester.MissingShown | test_channels.py:119-120 | the missing ids are printed exactly when there are 1 to 19, and then all of them |
| ChannelTester.IdsOfIff | test_channels.py:96-97 | an id is listed exactly when some channel carries it; no more ids than channels |
| ChannelTester.ParseM3u | test_channels.py:59-99 | the channels of the file's entry pairs in line order, their ids, and the header's guide URL |
| ChannelTester.ExtractChannels | test_channels.py:75-97 | the channel loop builds the reference channels and ids |
| ChannelTester.ParsedIff | test_channels.py:75-94 | a channel is read exactly where an `#EXTINF` line is followed by an `http` line |
| ChannelTester.UnknownWithoutComma | test_channels.py:83-84 | an entry line without a comma names the channel 'Unknown' |
| ChannelTester.GuideUrlOnHeader | test_channels.py:69-72 | a guide URL is only found in a file starting with `#EXTM3U`, and only on its first line |
| ChannelTester.WithDomainIff | test_channels.py:139 | the channels whose URL contains the domain, and no others |
| ChannelTester.SelectChannels | test_channels.py:129-141 | '4' tests nothing, '1' the first ten, '2' exactly the channels with the domain, anything else all |
| ChannelTester.TestedIff | test_channels.py:160-170 | each tested channel lands on the side its test says |
| ChannelTester.TestedSizes | test_channels.py:160-170 | working plus failed is the number tested |
| ChannelTester.TestChannels | test_channels.py:151-170 | the testing loop builds the reference working and failed lists |
| ChannelTester.NetlocEnd | test_channels.py:186 | the end of the network location lies within the text |
| ChannelTester.NetlocEndFirst | test_channels.py:186 | the network location ends at the first `/`, `?` or `#` |
| ChannelTester.NetlocNoDelimiter | test_channels.py:186 | a network location holds no `/`, `?` or `#` |
| ChannelTester.HttpScheme | test_channels.py:186 | an `http:` URL loses exactly its scheme |
| ChannelTester.NetlocOfHttp | test_channels.py:186 | for `http://host/path` the network location is the host, port included, less any tab, carriage return or line feed it holds |
| ChannelTester.LStripC0 | test_channels.py:186 | after `urlsplit`'s strip the URL starts with neither a C0 control nor a space, and a URL that already does not is unchanged |
| ChannelTester.LStripC0Spec | test_channels.py:186 | the strip keeps a suffix of the URL and drops only C0 controls and spaces |
| ChannelTester.RemoveUnsafe | test_channels.py:186 | no tab, carriage return or line feed is left, and a safe first character stays first |
| ChannelTester.CleanUrl | test_channels.py:186 | the cleaned URL holds no tab, carriage return or line feed and does not start with a control character or space |
| ChannelTester.LeadingControlIgnored | test_channels.py:186 | a leading control character or space does not change the network location |
| ChannelTester.UnsafeIgnored | test_channels.py:186 | a tab, carriage return or line feed anywhere in the URL does not change the network location |
| ChannelTester.TabInHost | test_channels.py:186 | `http://a<TAB>b/x` is counted under host `ab` |
| ChannelTester.TabInScheme | test_channels.py:186 | `http<TAB>://h/x` has scheme `http` and host `h` |
| ChannelTester.CountsValue | test_channels.py:184-187 | each key is counted once per occurrence; unseen keys have no entry |
| ChannelTester.CountDomains | test_channels.py:184-187 | the loop builds the reference per-host counts |
| ChannelTester.CountsStep | test_channels.py:187 | `counts.get(d, 0) + 1` counts one more key |
| ChannelTester.CountsTally | test_channels.py:184-187 | the counts add up to the number of keys |
| ChannelTester.DomainCountsTally | test_channels.py:184-191 | the per-host failure counts add up to the failed channels, each host having its share |
| Epg.GuideName | test_channels.py:42-43 | the display name's text when there is a display-name element, else the id |
| Epg.BuildGuideMap | test_channels.py:38-43 | the loop builds the reference id-to-name dictionary |
| Epg.GuideMapHas | test_channels.py:39-43 | every channel with an id has an entry |
| Epg.GuideMapLatest | test_channels.py:39-43 | each entry's value is the name of the LAST channel with that id |
| EpgCoverage.OursOfIff | test_epg.py:34-41 | any line with a `tvg-id` value counts, named after its comma or else by its id |
| EpgCoverage.OurChannelsIff | test_epg.py:31-41 | our channels are exactly what the lines give, duplicates kept |
| EpgCoverage.ReadOurChannels | test_epg.py:31-41 | the loop builds the reference list from the lines read |
| EpgCoverage.CoverageIff | test_epg.py:44-51 | a channel is matched, with the guide's name, exactly when its id is a guide channel, and unmatched exactly when not |
| EpgCoverage.CoverageSizes | test_epg.py:44-55 | matched plus unmatched is the number of our channels |
| EpgCoverage.Coverage | test_epg.py:44-51 | the loop builds the reference matched and unmatched lists |
| EpgCoverage.Samples | test_epg.py:58-67 | prefixes of exactly `min(15, len(matched))` matched and `min(20, len(unmatched))` unmatched channels |
| EpgCoverage.OnChannelFirst | test_epg.py:77 | the programmes on a channel are all of its programmes, the first in document order first |
| EpgCoverage.SampleForCount | test_epg.py:76-82 | a sample names the first programme's title, and 'more' counts the others; 'No programs' exactly when there are none or the first has no title |
| EpgCoverage.SamplePopular | test_epg.py:74-82 | one sample per popular channel, in order |
| QuickTest.ListingsAgree | quick_test.py:7-13 | the channels read are those of test_channels.py, without ids |
| QuickTest.ReadChannels | quick_test.py:6-13 | the loop builds the reference channel list from the lines read |
| QuickTest.QuickVersusStream | quick_test.py:22 | the quick test also passes a 403, which test_channels.py fails; otherwise they agree |
| QuickTest.TestFirstTen | quick_test.py:18-25 | exactly `min(10, len(channels))` marks, one per channel in order, a tick exactly when the probe passes |
| QuickTest.FoundInIff | quick_test.py:37 | an id is found exactly when listed and `id="…"` occurs in the text searched |
| QuickTest.FoundInOrdered | quick_test.py:37 | the ids found keep the order of the list |
| QuickTest.CheckGuide | quick_test.py:30-42 | accessible exactly on a 200 answer, then the listed ids found in the first 50000 characters, in list order; otherwise the status or the error |
| QuickTest.OnlyTheWindow | quick_test.py:35-37 | an id occurring only past the first 50000 characters is not found |
| EpgIds.SampledIff | check_epg_ids.py:10-14 | the sample holds exactly the channels with an id and a display-name element, in order |
| EpgIds.SampleIds | check_epg_ids.py:10-14 | the loop samples the first 50 channels |
| EpgIds.SampleBound | check_epg_ids.py:10 | at most 50 samples, all from the first 50 channels |
| EpgIds.SearchCommon | check_epg_ids.py:27-35 | the loop with its `break` gives the reference search outcome |
| EpgIds.SearchNoCrash | check_epg_ids.py:27-35 | without a name lacking text, the search finds the first 20 qualifying channels |
| EpgIds.SearchCrash | check_epg_ids.py:30-32 | a display name without text before the 20th find ends the script |
| EpgIds.SearchResult | check_epg_ids.py:27-35 | the script's search is the first 20 finds when nothing crashes it, and never more than 20 |
| EpgIds.SearchBound | check_epg_ids.py:34-35 | the search never returns more than 20 finds |
| FixEpg.FixHeader | fix_epg.py:20-21 | a first line starting with `#EXTM3U` is replaced by the new header; every other line is untouched |
| FixEpg.FixEpgFile | fix_epg.py:8-25 | a file starting with `#EXTM3U` gets the new header instead of its first line; any other file is written back as read |
| FixEpg.HeaderOnFirstLine | fix_epg.py:20 | the first line starts with `#EXTM3U` exactly when the text does |
| FixEpg.PrefixOnFirstLine | fix_epg.py:20 | a prefix without a newline starts the first line exactly when it starts the text |
| FixEpg.GuidePlain | fix_epg.py:12 | the new guide URL holds neither a quote nor a newline |
| FixEpg.NewHeaderLine | fix_epg.py:21 | the new header is one line ending in a newline and starts with `#EXTM3U` |
| FixEpg.NewHeaderAttr | fix_epg.py:21 | the header's first `url-tvg` value is the new guide URL |
| FixEpg.FixedGuideUrl | fix_epg.py:21 | after the fix, test_channels.py reads the new guide URL from the first line |
| NodeServer.AuthorizedIff | server/server.js:40-42 | exactly `user1`/`pass1` and `user2`/`pass2` get in |
| NodeServer.Hex | server/server.js:52 | two hex digits per byte, never a `/` |
| NodeServer.YoungIff | server/server.js:59-64 | the cleanup drops exactly the sessions more than a day old, keeps the others unchanged, and keeps the one just made |
| NodeServer.Route | server/server.js:85 | a matched route has a non-empty token and encoded part, neither holding `/` |
| NodeServer.LinkSplit | server/server.js:76 | a link path splits into '', `stream`, the token and the parts of the encoded address |
| NodeServer.RouteOfLink | server/server.js:76-86 | the route reads the token and encoded address back out of a link |
| NodeServer.RouteOfSlashed | server/server.js:85 | an encoded part with a `/` in its middle does not match the route |
| NodeServer.ListenPort | server/server.js:7 | the default port exactly when `PORT` is unset or empty |
| NodeServer.PlayerApi | server/server.js:103-151 | 401 exactly without valid credentials; the account record (user fields, expiry 1767139200, no connections, server fields) for `get_account_info`; the five categories for `get_live_categories` |
| NodeServer.PlayerApiIgnoresExpiry | server/server.js:103-137 | an expired, authorised `get_account_info` still gets the account record |
| NodeServer.Server.constructor | server/server.js:26 | the session table starts empty |
| NodeServer.Server.GetPlaylist | server/server.js:36-82 | 401 and 403 leave the sessions alone; otherwise a session under the hex token, the cleanup, and the playlist with every stream address proxied |
| NodeServer.LinkRedirects | server/server.js:85-99 | corrected: a base64url link redirects to its address while its session lasts |
| NodeServer.EncodedPathRedirects | server/server.js:85-99 | a link as written redirects to its address when its base64 holds no `/` |
| NodeServer.ProxiedPieces | server/server.js:74-77 | the rewrite goes piece by piece between spaces |
| NodeServer.ProxiedPlain | server/server.js:74-77 | text without `http` passes through unchanged |
| NodeServer.ProxiedAddress | server/server.js:74-77 | a piece that is one stream address becomes its proxied link |
| NodeServer.SlashyEncoding | server/server.js:75 | the standard base64 of `http://a?.m3u8` is `aHR0cDovL2E/Lm0zdTg=`, with a `/` |
| NodeServer.SlashyIsAddress | server/server.js:74 | `http://a?.m3u8` is a whole stream address for the pattern |
| NodeServer.AsWrittenLinkBreaks | server/server.js:74-99 | as written, the playlist turns `http://a?.m3u8` into a link that the stream route does not match |
| PhpServer.Param | server/get.php:16-17 | `?? ''`: an absent parameter reads as the empty string |
| PhpServer.GetPhp | server/get.php:16-52 | 401 exactly without valid credentials, 403 exactly when valid and expired, otherwise the playlist with the token after every address |
| PhpServer.ValidIff | server/get.php:22-25 | exactly `user1`/`pass1` and `user2`/`pass2` get in; a missing parameter never does |
| PhpServer.SameCredentials | server/get.php:6-31 | the PHP and Node endpoints accept the same requests and expire at the same instant |
| PhpServer.TokenDecodes | server/get.php:46 | the token decodes to `username:password` |
| PhpServer.TaggedInsertsOnly | server/get.php:41-50 | the rewrite only inserts: the playlist can be read off the output in order |
| PhpServer.TaggedPieces | server/get.php:42 | no address reaches across an ASCII whitespace character |
| PhpServer.TaggedPlain | server/get.php:41-50 | text without `http` passes through unchanged |
| PhpServer.TaggedAddress | server/get.php:41-50 | a piece that is one address gets the suffix at its end |
| PhpServer.AddressExtends | server/get.php:42 | any non-space character continues an address |
| PhpServer.QuotedAddress | server/get.php:42-47 | in `"…"`, the closing quote is part of the match, so the token lands after it |
| PhpServer.QuotedLogoExample | server/get.php:42-47 | `"http://x/a.png"` becomes `"http://x/a.png"#token=…` |
| PhpServer.SameTokenEverywhere | server/get.php:43-47 | two addresses on a line get the same token, each right after itself |

## Left out

- File reading and writing, the console, command-line arguments and `input()`
  are left out. File contents and answers are parameters; printed counts and
  layouts are not modelled, except the merge total and the logo report.
- The network is reduced to inputs, and the same URL is assumed to give the
  same answer every time. HEAD and GET answers, guide downloads and exceptions
  are datatypes; a URL's check is a function of the URL.
- XML parsing (`ET.fromstring`) is left out: guide channels and programmes are
  given as parsed records.
- The thread pools and `as_completed` are left out. Results are gathered in
  submission order, whereas the scripts append in completion order; the order
  of `working`, `failed`, `working_logos` and `broken_logos` is therefore not
  modelled.
- The success-rate float, `[:40]`-style padding, and the sort of failed
  domains by count for printing are left out.
- The report's timestamp line (`Generated at: …`) is left out.
- `server/cloudflare-worker.js` is not part of this model.
- Express's `/health`, the request logger, headers and `res.send` framing are
  left out. So are the unused `type` and `output` parameters, and
  `time_now`, an ISO rendering of the clock.
- Session tokens are 16 given bytes. A repeated token overwrites the old
  session, as `Map.set` does.
- NodeServer.Server.GetPlaylist: one clock reading `nowMs` stands for the three
  `new Date()` calls (expiry check, session creation, cleanup).
- NodeServer.Route: Express's percent-decoding of route parameters is not
  modelled. An encoded part holding `%2F` is taken literally.
- NodeServer.Server.Stream: Node's base64 decoder is lenient, and the model is
  not.
  - Node skips characters outside the alphabet, lets a lone last symbol add no
    byte, and turns invalid UTF-8 into U+FFFD, then always redirects.
  - The model answers `Garbled` for such input instead. For example,
    `/stream/<live token>/gA` redirects to "�" in Node.
  - For every link the server itself writes, the two agree.
- NodeServer.AuthorizedIff and PhpServer.Param: array- or object-valued query
  parameters (`username[]=…`) are reduced to `Option<string>`.
- PhpServer.GetPhp: an array-valued parameter (a TypeError in PHP) is likewise
  not modelled.
- PhpServer.ExpiresAt: `strtotime('2025-12-31')` is taken in UTC. PHP uses the
  configured default time zone.
- PhpServer.Tagged works on characters where PCRE works on bytes. Without the
  `u` flag, `\s` matches ASCII whitespace only, and no byte of a multibyte
  UTF-8 sequence is ASCII, so the two agree.
- Text.IsWordChar: `\w` is ASCII letters, digits and `_`. Python's `\w` also
  matches non-ASCII letters and digits, so `WordsOnly` drops them where Python
  keeps them.
- Text.Lower and Text.Upper: only ASCII letters change case. Python's
  `lower()`/`upper()` also map non-ASCII letters; this affects
  `Logos.ChannelKey` and the `EpgIds` search.
- Every text parameter is a file's text after Python's universal-newline
  translation on reading: `"\r\n"` and a lone `"\r"` have already become
  `"\n"`. Writes emit `'\n'` as it is (POSIX), so a file with CRLF endings is
  written back with LF endings; the model does not see the original endings.
- Utf8.Encode: lone surrogates are not modelled; Dafny's `char` excludes them.
- ChannelTester.ParseM3u requires a non-empty file: `lines[0]` raises
  IndexError on an empty one, and that exception is not modelled.
- FixEpg.FixEpgFile requires a non-empty file for the same reason.
- Logos.LogoChecker.FindAlternativeLogo requires `NameOk` (and
  Logos.CheckAndFix requires it of the broken entries when fixing): a non-empty
  all-whitespace name makes `split()[0]` raise IndexError, not modelled.
- Merge.MergePlaylists requires `MasterReadable`: an IP-host `.m3u8` URL
  without `/` makes `url.split('/')[-2]` raise IndexError, not modelled.
- ChannelTester.Netloc follows `urlsplit` as of Python 3.12: it strips
  leading C0 controls and spaces, then deletes tabs, carriage returns and line
  feeds. Older versions skip one or both steps, and those behaviours are not
  modelled. `urlsplit`'s ValueError (an unbalanced `[` in the network
  location) is not modelled either; the text is split as if it were well
  formed.
- The domain printed by quick_test.py is left out, and so is its use before
  assignment when `urlparse` raises.

## Findings

| source | as written | input that shows it | evidently intended | confidence | as-written member | corrected member |
|---|---|---|---|---|---|---|
| server/server.js:75 | the stream address is encoded with `toString('base64')`, whose alphabet includes `/`, and the result is put into the path that `/stream/:token/:encodedUrl` (line 85) must match as one segment | `http://a?.m3u8` encodes as `aHR0cDovL2E/Lm0zdTg=`; the link has an extra `/`, no route matches, and the player gets 404 | every proxied link redirects to its address while the session lasts; `toString('base64url')` never produces `/`, and Node's `'base64'` decoder at line 95 reads it | not executed | NodeServer.AsWrittenLinkBreaks | NodeServer.LinkRedirects |

=== FILE: base64.dfy ===
/**
 * Base64 as both servers use it: the standard alphabet with `=` padding
 * (RFC 4648, section 4) for Node's `Buffer.toString('base64')` and PHP's
 * `base64_encode`, the URL-safe alphabet without padding (RFC 4648, section 5)
 * for Node's `toString('base64url')`, and Node's decoder, which accepts either
 * alphabet and stops reading at the first `=`.
 */
module Base64 {
  import opened Wrappers
  import opened Text

  /** A byte. */
  type Byte = b: int | 0 <= b < 256

  /** A six-bit group: an index into a 64-character alphabet. */
  type Sextet = i: int | 0 <= i < 64

  /** The character for index `i`: `+` and `/` for 62 and 63, or `-` and `_` in the URL-safe alphabet. */
  function Symbol(i: Sextet, urlSafe: bool): char
  {
    if i < 26 then ('A' as int + i) as char
    else if i < 52 then ('a' as int + i - 26) as char
    else if i < 62 then ('0' as int + i - 52) as char
    else if i == 62 then (if urlSafe then '-' else '+')
    else (if urlSafe then '_' else '/')
  }

  /** The index of a character in either alphabet. */
  function SextetOf(c: char): Option<Sextet>
  {
    if 'A' <= c <= 'Z' then Some(c as int - 'A' as int)
    else if 'a' <= c <= 'z' then Some(c as int - 'a' as int + 26)
    else if '0' <= c <= '9' then Some(c as int - '0' as int + 52)
    else if c == '+' || c == '-' then Some(62)
    else if c == '/' || c == '_' then Some(63)
    else None
  }

  /** Each alphabet's characters read back as their index; none is `=`, and only 63 of the standard alphabet is `/`. */
  lemma SymbolRoundTrip(i: Sextet, urlSafe: bool)
    ensures SextetOf(Symbol(i, urlSafe)) == Some(i)
    ensures Symbol(i, urlSafe) != '='
    ensures Symbol(i, urlSafe) == '/' <==> !urlSafe && i == 63
  {
  }

  /** The characters for the bytes, four per group of three, two or three for a short last group. */
  function Body(bs: seq<Byte>, urlSafe: bool): string
    decreases |bs|
  {
    if |bs| >= 3 then
      Quad(bs[0], bs[1], bs[2], urlSafe) + Body(bs[3..], urlSafe)
    else if |bs| == 2 then
      [Symbol(bs[0] / 4, urlSafe), Symbol((bs[0] % 4) * 16 + bs[1] / 16, urlSafe), Symbol((bs[1] % 16) * 4, urlSafe)]
    else if |bs| == 1 then
      [Symbol(bs[0] / 4, urlSafe), Symbol((bs[0] % 4) * 16, urlSafe)]
    else []
  }

  /** The four characters of three bytes: their 24 bits cut into four sextets, high bits first. */
  function Quad(b0: Byte, b1: Byte, b2: Byte, urlSafe: bool): string
  {
    [Symbol(b0 / 4, urlSafe), Symbol((b0 % 4) * 16 + b1 / 16, urlSafe), Symbol((b1 % 16) * 4 + b2 / 64, urlSafe), Symbol(b2 % 64, urlSafe)]
  }

  /** `Buffer.from(bytes).toString('base64')`, PHP `base64_encode`: padded with `=` to a multiple of four. */
  function Encode(bs: seq<Byte>): string
  {
    Body(bs, false) + (if |bs| % 3 == 1 then "==" else if |bs| % 3 == 2 then "=" else "")
  }

  /** `Buffer.from(bytes).toString('base64url')`: the URL-safe alphabet, no padding. */
  function EncodeUrl(bs: seq<Byte>): string
  {
    Body(bs, true)
  }

  /** The three bytes of four sextets. */
  function Triple(i0: Sextet, i1: Sextet, i2: Sextet, i3: Sextet): seq<Byte>
  {
    [i0 * 4 + i1 / 16, (i1 % 16) * 16 + i2 / 4, (i2 % 4) * 64 + i3]
  }

  /** Decoding the characters before any padding; a character outside both alphabets, or a lone last one, is an error. */
  function DecodeBody(cs: string): Option<seq<Byte>>
  {
    if |cs| == 0 then Some([])
    else if |cs| == 1 then None
    else
      var i0, i1 := SextetOf(cs[0]), SextetOf(cs[1]);
      var i2 := if |cs| >= 3 then SextetOf(cs[2]) else Some(0);
      var i3 := if |cs| >= 4 then SextetOf(cs[3]) else Some(0);
      if i0.None? || i1.None? || i2.None? || i3.None? then None
      else
        var bytes := Triple(i0.value, i1.value, i2.value, i3.value);
        if |cs| >= 4 then
          match DecodeBody(cs[4..])
          case Some(rest) => Some(bytes + rest)
          case None => None
        else Some(bytes[..|cs| - 1])
  }

  /** The text up to the first `=`. */
  function BeforePad(s: string): string
  {
    if '=' in s then s[..IndexOf(s, '=')] else s
  }

  /** `Buffer.from(text, 'base64')`, for text in either alphabet: reading stops at the first `=`. */
  function Decode(s: string): Option<seq<Byte>>
  {
    DecodeBody(BeforePad(s))
  }

  /** The sextets of three bytes give the bytes back. */
  lemma TripleRoundTrip(b0: Byte, b1: Byte, b2: Byte)
    ensures Triple(b0 / 4, (b0 % 4) * 16 + b1 / 16, (b1 % 16) * 4 + b2 / 64, b2 % 64) == [b0, b1, b2]
  {
    var i1 := (b0 % 4) * 16 + b1 / 16;
    var i2 := (b1 % 16) * 4 + b2 / 64;
    assert i1 / 16 == b0 % 4 && i1 % 16 == b1 / 16;
    assert i2 / 4 == b1 % 16 && i2 % 4 == b2 / 64;
  }

  /** The body holds no `=`. */
  lemma {:induction false} BodyNoPad(bs: seq<Byte>, urlSafe: bool)
    ensures '=' !in Body(bs, urlSafe)
    decreases |bs|
  {
    if |bs| >= 3 {
      SymbolRoundTrip(bs[0] / 4, urlSafe);
      SymbolRoundTrip((bs[0] % 4) * 16 + bs[1] / 16, urlSafe);
      SymbolRoundTrip((bs[1] % 16) * 4 + bs[2] / 64, urlSafe);
      SymbolRoundTrip(bs[2] % 64, urlSafe);
      BodyNoPad(bs[3..], urlSafe);
    } else if |bs| == 2 {
      SymbolRoundTrip(bs[0] / 4, urlSafe);
      SymbolRoundTrip((bs[0] % 4) * 16 + bs[1] / 16, urlSafe);
      SymbolRoundTrip((bs[1] % 16) * 4, urlSafe);
    } else if |bs| == 1 {
      SymbolRoundTrip(bs[0] / 4, urlSafe);
      SymbolRoundTrip((bs[0] % 4) * 16, urlSafe);
    }
  }

  /** Decoding a group of four characters in front of more text. */
  lemma QuadStep(b0: Byte, b1: Byte, b2: Byte, urlSafe: bool, rest: string)
    ensures DecodeBody(Quad(b0, b1, b2, urlSafe) + rest)
         == if DecodeBody(rest).Some? then Some([b0, b1, b2] + DecodeBody(rest).value) else None
  {
    var cs := Quad(b0, b1, b2, urlSafe) + rest;
    SymbolRoundTrip(b0 / 4, urlSafe);
    SymbolRoundTrip((b0 % 4) * 16 + b1 / 16, urlSafe);
    SymbolRoundTrip((b1 % 16) * 4 + b2 / 64, urlSafe);
    SymbolRoundTrip(b2 % 64, urlSafe);
    TripleRoundTrip(b0, b1, b2);
    assert cs[4..] == rest;
  }

  /** Decoding the two or three characters of a short last group. */
  lemma TailRoundTrip(bs: seq<Byte>, urlSafe: bool)
    requires 0 < |bs| < 3
    ensures DecodeBody(Body(bs, urlSafe)) == Some(bs)
  {
    if |bs| == 2 {
      SymbolRoundTrip(bs[0] / 4, urlSafe);
      SymbolRoundTrip((bs[0] % 4) * 16 + bs[1] / 16, urlSafe);
      SymbolRoundTrip((bs[1] % 16) * 4, urlSafe);
      TripleRoundTrip(bs[0], bs[1], 0);
      var cs := Body(bs, urlSafe);
      assert SextetOf(cs[0]) == Some(bs[0] / 4);
      assert SextetOf(cs[1]) == Some((bs[0] % 4) * 16 + bs[1] / 16);
      assert SextetOf(cs[2]) == Some((bs[1] % 16) * 4);
      assert Triple(bs[0] / 4, (bs[0] % 4) * 16 + bs[1] / 16, (bs[1] % 16) * 4, 0)[..2] == bs;
    } else {
      SymbolRoundTrip(bs[0] / 4, urlSafe);
      SymbolRoundTrip((bs[0] % 4) * 16, urlSafe);
      TripleRoundTrip(bs[0], 0, 0);
      var cs := Body(bs, urlSafe);
      assert SextetOf(cs[0]) == Some(bs[0] / 4) && SextetOf(cs[1]) == Some((bs[0] % 4) * 16);
      assert Triple(bs[0] / 4, (bs[0] % 4) * 16, 0, 0)[..1] == bs;
    }
  }

  /** Decoding a body gives the bytes back. */
  lemma {:induction false} BodyRoundTrip(bs: seq<Byte>, urlSafe: bool)
    ensures DecodeBody(Body(bs, urlSafe)) == Some(bs)
    decreases |bs|
  {
    if |bs| >= 3 {
      BodyRoundTrip(bs[3..], urlSafe);
      QuadStep(bs[0], bs[1], bs[2], urlSafe, Body(bs[3..], urlSafe));
      assert bs == [bs[0], bs[1], bs[2]] + bs[3..];
    } else if |bs| > 0 {
      TailRoundTrip(bs, urlSafe);
    }
  }

  /** Node's decoder reads back what either encoder wrote. */
  lemma DecodeEncode(bs: seq<Byte>)
    ensures Decode(Encode(bs)) == Some(bs)
    ensures Decode(EncodeUrl(bs)) == Some(bs)
  {
    var body := Body(bs, false);
    var pad := if |bs| % 3 == 1 then "==" else if |bs| % 3 == 2 then "=" else "";
    BodyNoPad(bs, false);
    BodyNoPad(bs, true);
    BodyRoundTrip(bs, false);
    BodyRoundTrip(bs, true);
    if |pad| > 0 {
      assert Encode(bs)[|body|] == '=';
      assert '=' !in Encode(bs)[..|body|];
      assert IndexOf(Encode(bs), '=') == |body|;
      assert Encode(bs)[..|body|] == body;
    } else {
      assert Encode(bs) == body;
    }
  }

  /** The URL-safe encoding never holds a `/`. */
  lemma {:induction false} EncodeUrlNoSlash(bs: seq<Byte>)
    ensures '/' !in EncodeUrl(bs)
    decreases |bs|
  {
    if |bs| >= 3 {
      SymbolRoundTrip(bs[0] / 4, true);
      SymbolRoundTrip((bs[0] % 4) * 16 + bs[1] / 16, true);
      SymbolRoundTrip((bs[1] % 16) * 4 + bs[2] / 64, true);
      SymbolRoundTrip(bs[2] % 64, true);
      EncodeUrlNoSlash(bs[3..]);
    } else if |bs| == 2 {
      SymbolRoundTrip(bs[0] / 4, true);
      SymbolRoundTrip((bs[0] % 4) * 16 + bs[1] / 16, true);
      SymbolRoundTrip((bs[1] % 16) * 4, true);
    } else if |bs| == 1 {
      SymbolRoundTrip(bs[0] / 4, true);
      SymbolRoundTrip((bs[0] % 4) * 16, true);
    }
  }
}

=== FILE: channels.dfy ===
/**
 * test_channels.py: the playlist tester. It reads the playlist's entries and
 * its guide URL, reconciles the entries' `tvg-id`s with the guide's channel
 * ids, probes the chosen streams with an HTTP HEAD request and tallies the
 * failures by host. The network is an oracle: a probe is the outcome of the
 * request, a guide download the status and the parsed channel records.
 */
module ChannelTester {
  import opened Wrappers
  import opened Text
  import opened M3u
  import opened Epg

  // ---------------------------------------------------------------------
  // test_channel_stream

  /** How `requests.head(url, timeout=5, allow_redirects=True)` ended. */
  datatype HeadOutcome =
    | Answered(status: nat)       // the final response's status code
    | TimedOut                    // requests.exceptions.Timeout
    | ConnectionFailed            // requests.exceptions.ConnectionError
    | Raised(message: string)     // any other exception, as `str(e)`

  /** The second half of the result tuple: the status code or the error text. */
  datatype Detail = Code(code: nat) | Reason(text: string)

  /** The statuses counted as a working stream. */
  predicate StreamOk(status: nat)
  {
    status == 200 || status == 302 || status == 301
  }

  /**
   * The stream works exactly when the request was answered with 200, 301 or
   * 302; the detail is the status when there was an answer and the error text
   * otherwise.
   */
  function TestChannelStream(o: HeadOutcome): (r: (bool, Detail))
    ensures r.0 <==> o.Answered? && StreamOk(o.status)
    ensures r.1.Code? <==> o.Answered?
    ensures o.Answered? ==> r.1.code == o.status
    ensures o.TimedOut? ==> r.1 == Reason("Timeout")
    ensures o.ConnectionFailed? ==> r.1 == Reason("Connection Error")
    ensures o.Raised? ==> r.1 == Reason(o.message)
  {
    match o
    case Answered(status) => (StreamOk(status), Code(status))
    case TimedOut => (false, Reason("Timeout"))
    case ConnectionFailed => (false, Reason("Connection Error"))
    case Raised(message) => (false, Reason(message))
  }

  /** A stream that answers 403 Forbidden counts as failed, its status kept. */
  lemma ForbiddenFails()
    ensures TestChannelStream(Answered(403)) == (false, Code(403))
  {
  }

  // ---------------------------------------------------------------------
  // test_epg_data

  /** The guide's body: the channel records, or the parser's error. */
  datatype GuideBody = Parsed(channels: seq<Channel>) | Malformed(message: string)

  /** How `requests.get(epg_url, timeout=10)` ended. */
  datatype GuideFetch = Fetched(status: nat, body: GuideBody) | FetchRaised(message: string)

  /** The pair `test_epg_data` returns: the dictionary and the list, or `{}` and an error string. */
  datatype EpgCheck = Reconciled(matched: map<string, Option<string>>, unmatched: seq<string>) | EpgError(message: string)

  /** The `matched` dictionary after the loop has seen `ids`. */
  function Matched(ids: seq<string>, guide: map<string, Option<string>>): map<string, Option<string>>
  {
    if |ids| == 0 then map[]
    else
      var m := Matched(ids[..|ids| - 1], guide);
      var id := ids[|ids| - 1];
      if id in guide then m[id := guide[id]] else m
  }

  /** The `unmatched` list after the loop has seen `ids`. */
  function Missing(ids: seq<string>, guide: map<string, Option<string>>): seq<string>
  {
    if |ids| == 0 then []
    else Missing(ids[..|ids| - 1], guide) + (if ids[|ids| - 1] in guide then [] else [ids[|ids| - 1]])
  }

  /** An id is matched exactly when it is one of ours and a guide channel; it carries the guide's name. */
  lemma {:induction false} MatchedIff(ids: seq<string>, guide: map<string, Option<string>>, id: string)
    ensures id in Matched(ids, guide) <==> id in ids && id in guide
    ensures id in Matched(ids, guide) ==> Matched(ids, guide)[id] == guide[id]
  {
    if |ids| > 0 {
      var init := ids[..|ids| - 1];
      MatchedIff(init, guide, id);
      assert ids == init + [ids[|ids| - 1]];
    }
  }

  /** An id is unmatched exactly when it is one of ours and not a guide channel. */
  lemma {:induction false} MissingIff(ids: seq<string>, guide: map<string, Option<string>>, id: string)
    ensures id in Missing(ids, guide) <==> id in ids && id !in guide
  {
    if |ids| > 0 {
      var init := ids[..|ids| - 1];
      MissingIff(init, guide, id);
      assert ids == init + [ids[|ids| - 1]];
    }
  }

  /** No id appears twice. */
  predicate Distinct(ids: seq<string>)
  {
    forall i, j :: 0 <= i < j < |ids| ==> ids[i] != ids[j]
  }

  /** Over distinct ids, the matched and the unmatched together account for every id once. */
  lemma {:induction false} ReconcileSizes(ids: seq<string>, guide: map<string, Option<string>>)
    requires Distinct(ids)
    ensures |Matched(ids, guide).Keys| + |Missing(ids, guide)| == |ids|
  {
    if |ids| > 0 {
      var init := ids[..|ids| - 1];
      var id := ids[|ids| - 1];
      ReconcileSizes(init, guide);
      if id in guide {
        assert id !in init;
        MatchedIff(init, guide, id);
        assert Matched(ids, guide).Keys == Matched(init, guide).Keys + {id};
      }
    }
  }

  /** The reconciliation loop of `test_epg_data`. */
  method Reconcile(ids: seq<string>, guide: map<string, Option<string>>) returns (matched: map<string, Option<string>>, unmatched: seq<string>)
    ensures matched == Matched(ids, guide) && unmatched == Missing(ids, guide)
  {
    matched := map[];
    unmatched := [];
    for i := 0 to |ids|
      invariant matched == Matched(ids[..i], guide) && unmatched == Missing(ids[..i], guide)
    {
      assert ids[..i + 1][..i] == ids[..i];
      var id := ids[i];
      if id in guide {
        matched := matched[id := guide[id]];
      } else {
        unmatched := unmatched + [id];
      }
    }
    assert ids[..|ids|] == ids;
  }

  /**
   * `test_epg_data(epg_url, tvg_ids)`: a failed download, a non-200 status or
   * an unparsable body give `{}` and an error text; otherwise every id is
   * reconciled against the guide's channels.
   */
  method TestEpgData(fetch: GuideFetch, ids: seq<string>) returns (r: EpgCheck)
    ensures fetch.FetchRaised? ==> r == EpgError("EPG parse error: " + fetch.message)
    ensures fetch.Fetched? && fetch.status != 200 ==> r == EpgError("EPG fetch failed: " + Decimal(fetch.status))
    ensures fetch.Fetched? && fetch.status == 200 && fetch.body.Malformed? ==> r == EpgError("EPG parse error: " + fetch.body.message)
    ensures fetch.Fetched? && fetch.status == 200 && fetch.body.Parsed? ==>
      var guide := GuideMap(fetch.body.channels);
      r == Reconciled(Matched(ids, guide), Missing(ids, guide))
  {
    match fetch
    case FetchRaised(message) =>
      r := EpgError("EPG parse error: " + message);
    case Fetched(status, body) =>
      if status != 200 {
        r := EpgError("EPG fetch failed: " + Decimal(status));
      } else {
        match body
        case Malformed(message) =>
          r := EpgError("EPG parse error: " + message);
        case Parsed(channels) =>
          var guide := BuildGuideMap(channels);
          var matched, unmatched := Reconcile(ids, guide);
          r := Reconciled(matched, unmatched);
      }
  }

  /** Distinct ids have as many elements as their set. */
  lemma {:induction false} DistinctCard(ids: seq<string>)
    requires Distinct(ids)
    ensures |Elems(ids)| == |ids|
  {
    if |ids| > 0 {
      var init := ids[..|ids| - 1];
      DistinctCard(init);
      assert Elems(ids) == Elems(init) + {ids[|ids| - 1]};
      assert ids[|ids| - 1] !in Elems(init);
    }
  }

  /**
   * `main` passes `list(set(tvg_ids))`: whatever order the set gives, the
   * matched and the missing counts printed add up to the number of distinct ids.
   */
  lemma EpgCountsCover(tvgIds: seq<string>, ids: seq<string>, guide: map<string, Option<string>>)
    requires Distinct(ids) && Elems(ids) == Elems(tvgIds)
    ensures |Matched(ids, guide).Keys| + |Missing(ids, guide)| == |Elems(tvgIds)|
  {
    ReconcileSizes(ids, guide);
    DistinctCard(ids);
  }

  /**
   * The "Missing:" line of `main`: printed only for fewer than 20 missing ids,
   * so the `[:20]` cut never drops one.
   */
  function MissingShown(unmatched: seq<string>): (r: Option<seq<string>>)
    ensures r.Some? <==> 0 < |unmatched| < 20
    ensures r.Some? ==> r.value == unmatched
  {
    if |unmatched| > 0 && |unmatched| < 20 then Some(Take(unmatched, 20)) else None
  }

  // ---------------------------------------------------------------------
  // parse_m3u

  /** A channel dictionary: `name`, `url` and `tvg_id`. */
  datatype Entry = Entry(name: string, url: string, tvgId: Option<string>)

  /** The channel an entry pair gives: name after the comma or "Unknown", stripped URL, `tvg-id` or `None`. */
  function EntryOf(p: Pair): Entry
  {
    Entry(ChannelName(p.info).GetOr("Unknown"), Strip(p.url), AttrValue(p.info, "tvg-id"))
  }

  function Entries(ps: seq<Pair>): seq<Entry>
  {
    seq(|ps|, k requires 0 <= k < |ps| => EntryOf(ps[k]))
  }

  /** The `tvg_ids` list: the ids of the channels that have one, in channel order. */
  function IdsOf(es: seq<Entry>): seq<string>
  {
    if |es| == 0 then []
    else IdsOf(es[..|es| - 1]) + (if es[|es| - 1].tvgId.Some? then [es[|es| - 1].tvgId.value] else [])
  }

  /** An id is listed exactly when some channel carries it; there are no more ids than channels. */
  lemma {:induction false} IdsOfIff(es: seq<Entry>, id: string)
    ensures id in IdsOf(es) <==> exists k :: 0 <= k < |es| && es[k].tvgId == Some(id)
    ensures |IdsOf(es)| <= |es|
  {
    if |es| > 0 {
      var init := es[..|es| - 1];
      IdsOfIff(init, id);
      if id in IdsOf(init) {
        var k :| 0 <= k < |init| && init[k].tvgId == Some(id);
        assert es[k] == init[k];
      }
      forall k | 0 <= k < |es| && es[k].tvgId == Some(id) ensures id in IdsOf(es) {
        if k < |es| - 1 {
          assert init[k] == es[k];
        }
      }
    }
  }

  /** The guide URL: the `url-tvg` attribute of the first line, when that line is the `#EXTM3U` header. */
  function GuideUrl(lines: seq<string>): Option<string>
    requires |lines| > 0
  {
    if StartsWith(lines[0], HeaderTag) then AttrValue(lines[0], "url-tvg") else None
  }

  /**
   * `parse_m3u`: the channels of the file's entry pairs in line order, the ids
   * among them, and the header's guide URL. An empty file makes `lines[0]`
   * raise, so the file must not be empty.
   */
  method ParseM3u(text: string) returns (channels: seq<Entry>, tvgIds: seq<string>, epgUrl: Option<string>)
    requires |text| > 0
    ensures var lines := ReadLines(text);
      && channels == Entries(Pairs(lines))
      && tvgIds == IdsOf(channels)
      && epgUrl == GuideUrl(lines)
  {
    var lines := ReadLines(text);
    epgUrl := None;
    if StartsWith(lines[0], HeaderTag) {
      epgUrl := AttrValue(lines[0], "url-tvg");
    }
    channels, tvgIds := ExtractChannels(lines);
  }

  /** The channel loop of `parse_m3u` over the lines read. */
  method ExtractChannels(lines: seq<string>) returns (channels: seq<Entry>, tvgIds: seq<string>)
    ensures channels == Entries(Pairs(lines)) && tvgIds == IdsOf(channels)
  {
    channels := [];
    tvgIds := [];
    ghost var seen: seq<Pair> := [];
    for i := 0 to |lines|
      invariant seen + PairsFrom(lines, i) == Pairs(lines)
      invariant channels == Entries(seen) && tvgIds == IdsOf(channels)
    {
      PairsAdvance(lines, i, seen);
      if IsInfoLine(lines[i]) && i + 1 < |lines| && IsUrlLine(lines[i + 1]) {
        var p := Pair(lines[i], lines[i + 1]);
        var e := EntryOf(p);
        IdsSnoc(channels, e);
        EntriesSnoc(seen, p);
        channels := channels + [e];
        if e.tvgId.Some? {
          tvgIds := tvgIds + [e.tvgId.value];
        }
        seen := seen + [p];
      }
    }
    assert seen == Pairs(lines) by {
      assert PairsFrom(lines, |lines|) == [];
    }
  }

  lemma EntriesSnoc(ps: seq<Pair>, p: Pair)
    ensures Entries(ps + [p]) == Entries(ps) + [EntryOf(p)]
  {
  }

  lemma IdsSnoc(es: seq<Entry>, e: Entry)
    ensures IdsOf(es + [e]) == IdsOf(es) + (if e.tvgId.Some? then [e.tvgId.value] else [])
  {
    assert (es + [e])[..|es|] == es;
  }

  /**
   * A channel is read exactly where an `#EXTINF` line is followed by a line
   * starting with `http`, and it is that pair's channel.
   */
  lemma ParsedIff(lines: seq<string>, e: Entry)
    ensures e in Entries(Pairs(lines)) <==> exists j :: PairsAt(lines, j) && e == EntryOf(Pair(lines[j], lines[j + 1]))
  {
    var ps := Pairs(lines);
    if e in Entries(ps) {
      var k :| 0 <= k < |ps| && Entries(ps)[k] == e;
      PairsIff(lines, ps[k]);
    }
    forall j | PairsAt(lines, j) && e == EntryOf(Pair(lines[j], lines[j + 1])) ensures e in Entries(ps) {
      PairsIff(lines, Pair(lines[j], lines[j + 1]));
      var k :| 0 <= k < |ps| && ps[k] == Pair(lines[j], lines[j + 1]);
      assert Entries(ps)[k] == e;
    }
  }

  /** An entry line without a comma gives the channel the name "Unknown". */
  lemma UnknownWithoutComma(p: Pair)
    requires ',' !in p.info
    ensures EntryOf(p).name == "Unknown"
  {
    NoCommaNoName(p.info);
  }

  /** A guide URL is only found in a file that starts with `#EXTM3U`, and only on its first line. */
  lemma GuideUrlOnHeader(text: string)
    requires |text| > 0
    ensures GuideUrl(ReadLines(text)).Some? ==> StartsWith(text, HeaderTag)
    ensures GuideUrl(ReadLines(text)) == GuideUrl(ReadLines(text)[..1])
  {
    FirstLine(text);
  }

  // ---------------------------------------------------------------------
  // Choosing and testing channels (main)

  /** `[ch for ch in channels if domain in ch['url']]` */
  function WithDomain(channels: seq<Entry>, domain: string): seq<Entry>
  {
    if |channels| == 0 then []
    else
      var last := channels[|channels| - 1];
      WithDomain(channels[..|channels| - 1], domain) + (if Contains(last.url, domain) then [last] else [])
  }

  /** The channels whose URL contains the domain, in order, and no others. */
  lemma {:induction false} WithDomainIff(channels: seq<Entry>, domain: string, e: Entry)
    ensures e in WithDomain(channels, domain) <==> e in channels && Contains(e.url, domain)
    ensures |WithDomain(channels, domain)| <= |channels|
  {
    if |channels| > 0 {
      var init := channels[..|channels| - 1];
      WithDomainIff(init, domain, e);
      assert channels == init + [channels[|channels| - 1]];
    }
  }

  /**
   * The menu: "4" tests nothing, "1" the first ten channels, "2" those whose
   * URL contains the domain typed, anything else all of them. Both answers
   * arrive stripped.
   */
  function SelectChannels(channels: seq<Entry>, choice: string, domain: string): (r: Option<seq<Entry>>)
    ensures r.None? <==> choice == "4"
    ensures r.Some? ==> |r.value| <= |channels| && forall e :: e in r.value ==> e in channels
    ensures choice == "1" ==> r == Some(Take(channels, 10))
    ensures choice == "2" ==> r.Some? && forall e :: e in r.value ==> Contains(e.url, domain)
    ensures choice == "2" ==> forall e :: e in channels && Contains(e.url, domain) ==> e in r.value
  {
    if choice == "4" then None
    else if choice == "1" then Some(Take(channels, 10))
    else if choice == "2" then
      (forall e | e in channels ensures e in WithDomain(channels, domain) <==> e in channels && Contains(e.url, domain) {
        WithDomainIff(channels, domain, e);
       }
       WithDomainIff(channels, domain, Entry("", "", None));
       forall e | e in WithDomain(channels, domain) ensures e in channels && Contains(e.url, domain) {
         WithDomainIff(channels, domain, e);
       }
       Some(WithDomain(channels, domain)))
    else Some(channels)
  }

  /** Whether a channel's stream works, by the probe of its URL. */
  predicate Works(probe: string -> HeadOutcome, e: Entry)
  {
    TestChannelStream(probe(e.url)).0
  }

  /** The channels whose test came out `ok`, in order. */
  function Tested(es: seq<Entry>, probe: string -> HeadOutcome, ok: bool): seq<Entry>
  {
    if |es| == 0 then []
    else
      var last := es[|es| - 1];
      Tested(es[..|es| - 1], probe, ok) + (if Works(probe, last) == ok then [last] else [])
  }

  /** Working and failed channels split the tested ones: each lands on the side its test says. */
  lemma {:induction false} TestedIff(es: seq<Entry>, probe: string -> HeadOutcome, ok: bool, e: Entry)
    ensures e in Tested(es, probe, ok) <==> e in es && Works(probe, e) == ok
  {
    if |es| > 0 {
      var init := es[..|es| - 1];
      TestedIff(init, probe, ok, e);
      assert es == init + [es[|es| - 1]];
    }
  }

  /** Working plus failed is the number tested. */
  lemma {:induction false} TestedSizes(es: seq<Entry>, probe: string -> HeadOutcome)
    ensures |Tested(es, probe, true)| + |Tested(es, probe, false)| == |es|
  {
    if |es| > 0 {
      TestedSizes(es[..|es| - 1], probe);
    }
  }

  /** The testing loop: each channel's probe decides whether it joins `working` or `failed`. */
  method TestChannels(es: seq<Entry>, probe: string -> HeadOutcome) returns (working: seq<Entry>, failed: seq<Entry>)
    ensures working == Tested(es, probe, true) && failed == Tested(es, probe, false)
  {
    working := [];
    failed := [];
    for i := 0 to |es|
      invariant working == Tested(es[..i], probe, true) && failed == Tested(es[..i], probe, false)
    {
      assert es[..i + 1][..i] == es[..i];
      var (success, _) := TestChannelStream(probe(es[i].url));
      if success {
        working := working + [es[i]];
      } else {
        failed := failed + [es[i]];
      }
    }
    assert es[..|es|] == es;
  }

  // ---------------------------------------------------------------------
  // Failures by host: `urlparse(url).netloc`

  predicate AsciiLetter(c: char)
  {
    'a' <= c <= 'z' || 'A' <= c <= 'Z'
  }

  /** The characters `urlsplit` allows in a scheme. */
  predicate SchemeChar(c: char)
  {
    AsciiLetter(c) || '0' <= c <= '9' || c == '+' || c == '-' || c == '.'
  }

  /**
   * `urlsplit` takes `scheme:` off when the text before the first colon is not
   * empty, starts with a letter and holds scheme characters only.
   */
  function AfterScheme(url: string): string
  {
    if ':' in url then
      var i := IndexOf(url, ':');
      if i > 0 && AsciiLetter(url[0]) && forall k :: 0 <= k < i ==> SchemeChar(url[k]) then url[i + 1..] else url
    else url
  }

  /** Where the network location ends: the first `/`, `?` or `#`, or the end. */
  function NetlocEnd(s: string): (n: nat)
    ensures n <= |s|
  {
    if |s| == 0 || s[0] == '/' || s[0] == '?' || s[0] == '#' then 0 else 1 + NetlocEnd(s[1..])
  }

  /** `NetlocEnd` is the first delimiter: none before it, one at it unless the text ends. */
  lemma {:induction false} NetlocEndFirst(s: string)
    ensures forall k :: 0 <= k < NetlocEnd(s) ==> s[k] != '/' && s[k] != '?' && s[k] != '#'
    ensures NetlocEnd(s) < |s| ==> s[NetlocEnd(s)] == '/' || s[NetlocEnd(s)] == '?' || s[NetlocEnd(s)] == '#'
  {
    if NetlocEnd(s) > 0 {
      NetlocEndFirst(s[1..]);
      forall k | 0 <= k < NetlocEnd(s) ensures s[k] != '/' && s[k] != '?' && s[k] != '#' {
        if k > 0 {
          assert s[k] == s[1..][k - 1];
        }
      }
    }
  }

  /** The characters `urlsplit` strips from the front of a URL: the C0 controls and the space. */
  predicate C0OrSpace(c: char)
  {
    c <= ' '
  }

  /** The characters `urlsplit` deletes wherever they are: tab, carriage return and line feed. */
  predicate Unsafe(c: char)
  {
    c == '\t' || c == '\r' || c == '\n'
  }

  /** `url.lstrip(_WHATWG_C0_CONTROL_OR_SPACE)` */
  function LStripC0(url: string): (r: string)
    ensures |r| > 0 ==> !C0OrSpace(r[0])
    ensures |url| > 0 && !C0OrSpace(url[0]) ==> r == url
  {
    if |url| > 0 && C0OrSpace(url[0]) then LStripC0(url[1..]) else url
  }

  /** Only leading control characters and spaces are dropped: what is left is a suffix of the URL. */
  lemma {:induction false} LStripC0Spec(url: string)
    ensures |LStripC0(url)| <= |url| && LStripC0(url) == url[|url| - |LStripC0(url)|..]
    ensures forall k :: 0 <= k < |url| - |LStripC0(url)| ==> C0OrSpace(url[k])
  {
    if |url| > 0 && C0OrSpace(url[0]) {
      LStripC0Spec(url[1..]);
      var r := LStripC0(url);
      assert forall k :: 1 <= k < |url| - |r| ==> url[k] == url[1..][k - 1];
      assert url[1..][|url| - 1 - |r|..] == url[|url| - |r|..];
    }
  }

  /** The text with every tab, carriage return and line feed deleted, the other characters kept in order. */
  function RemoveUnsafe(s: string): (r: string)
    ensures |r| <= |s|
    ensures forall k :: 0 <= k < |r| ==> !Unsafe(r[k])
    ensures |s| > 0 && !Unsafe(s[0]) ==> |r| > 0 && r[0] == s[0]
  {
    if |s| == 0 then [] else (if Unsafe(s[0]) then [] else [s[0]]) + RemoveUnsafe(s[1..])
  }

  /** Deleting characters one by one distributes over concatenation. */
  lemma {:induction false} RemoveUnsafeAppend(a: string, b: string)
    ensures RemoveUnsafe(a + b) == RemoveUnsafe(a) + RemoveUnsafe(b)
  {
    if |a| > 0 {
      assert (a + b)[1..] == a[1..] + b;
      RemoveUnsafeAppend(a[1..], b);
    } else {
      assert a + b == b;
    }
  }

  /** A text without tab, carriage return or line feed is left as it is. */
  lemma {:induction false} RemoveUnsafeKeeps(s: string)
    requires forall k :: 0 <= k < |s| ==> !Unsafe(s[k])
    ensures RemoveUnsafe(s) == s
  {
    if |s| > 0 {
      RemoveUnsafeKeeps(s[1..]);
      assert s == [s[0]] + s[1..];
    }
  }

  /**
   * What `urlsplit` (Python 3.12 and later) does to the URL before splitting it:
   * leading C0 controls and spaces are stripped, then tabs, carriage returns
   * and line feeds are deleted everywhere.
   */
  function CleanUrl(url: string): (r: string)
    ensures forall k :: 0 <= k < |r| ==> !Unsafe(r[k])
    ensures |r| > 0 ==> !C0OrSpace(r[0])
  {
    var s := LStripC0(url);
    if |s| > 0 then
      assert !Unsafe(s[0]);
      RemoveUnsafe(s)
    else RemoveUnsafe(s)
  }

  /** The split of a cleaned URL: after the scheme and `//`, up to the first `/`, `?` or `#`; empty without `//`. */
  function SplitNetloc(url: string): string
  {
    var rest := AfterScheme(url);
    if StartsWith(rest, "//") then rest[2..][..NetlocEnd(rest[2..])] else ""
  }

  /** `urlparse(url).netloc`: the network location of the cleaned URL. */
  function Netloc(url: string): string
  {
    SplitNetloc(CleanUrl(url))
  }

  /** A network location holds no `/`, `?` or `#`. */
  lemma NetlocNoDelimiter(url: string)
    ensures '/' !in Netloc(url) && '?' !in Netloc(url) && '#' !in Netloc(url)
  {
    var rest := AfterScheme(CleanUrl(url));
    if StartsWith(rest, "//") {
      NetlocEndFirst(rest[2..]);
    }
  }

  /** The network location stops at the first delimiter: before a path that starts with `/`. */
  lemma {:induction false} NetlocEndHost(host: string, path: string)
    requires '/' !in host && '?' !in host && '#' !in host
    requires |path| == 0 || path[0] == '/'
    ensures NetlocEnd(host + path) == |host|
  {
    if |host| > 0 {
      assert (host + path)[1..] == host[1..] + path;
      NetlocEndHost(host[1..], path);
    } else {
      assert host + path == path;
    }
  }

  /** An `http:` URL loses exactly its scheme. */
  lemma HttpScheme(rest: string)
    ensures AfterScheme("http:" + rest) == rest
  {
    var url := "http:" + rest;
    assert url[4] == ':' && ':' !in url[..4];
    assert IndexOf(url, ':') == 4;
    assert url[5..] == rest;
  }

  /** Deleting characters never brings one in. */
  lemma {:induction false} RemoveUnsafeFree(s: string, c: char)
    requires c !in s
    ensures c !in RemoveUnsafe(s)
  {
    if |s| > 0 {
      assert c !in s[1..];
      RemoveUnsafeFree(s[1..], c);
    }
  }

  /** An `http://` URL is cleaned piece by piece. */
  lemma CleanHttp(host: string, path: string)
    ensures CleanUrl("http://" + host + path) == "http://" + RemoveUnsafe(host) + RemoveUnsafe(path)
  {
    var url := "http://" + host + path;
    assert url[0] == 'h';
    assert LStripC0(url) == url;
    RemoveUnsafeAppend("http://" + host, path);
    RemoveUnsafeAppend("http://", host);
    RemoveUnsafeKeeps("http://");
  }

  /**
   * For `http://host/path` the network location is the host, port included,
   * less any tab, carriage return or line feed it holds.
   */
  lemma NetlocOfHttp(host: string, path: string)
    requires '/' !in host && '?' !in host && '#' !in host
    requires |path| == 0 || path[0] == '/'
    ensures Netloc("http://" + host + path) == RemoveUnsafe(host)
  {
    var h, p := RemoveUnsafe(host), RemoveUnsafe(path);
    CleanHttp(host, path);
    RemoveUnsafeFree(host, '/');
    RemoveUnsafeFree(host, '?');
    RemoveUnsafeFree(host, '#');
    SplitNetlocOfHttp(h, p);
  }

  lemma SplitNetlocOfHttp(host: string, path: string)
    requires '/' !in host && '?' !in host && '#' !in host
    requires |path| == 0 || path[0] == '/'
    ensures SplitNetloc("http://" + host + path) == host
  {
    var rest := "//" + host + path;
    assert "http://" + host + path == "http:" + rest;
    HttpScheme(rest);
    assert rest[2..] == host + path;
    NetlocEndHost(host, path);
    assert (host + path)[..|host|] == host;
  }

  /** A leading control character or space is stripped before the URL is split. */
  lemma LeadingControlIgnored(c: char, url: string)
    requires C0OrSpace(c)
    ensures Netloc([c] + url) == Netloc(url)
  {
    assert ([c] + url)[1..] == url;
  }

  lemma {:induction false} CleanDeletes(a: string, c: char, b: string)
    requires Unsafe(c)
    ensures CleanUrl(a + [c] + b) == CleanUrl(a + b)
    decreases |a|
  {
    if |a| == 0 {
      assert a + [c] + b == [c] + b && a + b == b;
      assert ([c] + b)[1..] == b;
    } else if C0OrSpace(a[0]) {
      assert (a + [c] + b)[1..] == a[1..] + [c] + b;
      assert (a + b)[1..] == a[1..] + b;
      CleanDeletes(a[1..], c, b);
    } else {
      assert (a + [c] + b)[0] == a[0] && (a + b)[0] == a[0];
      RemoveUnsafeAppend(a + [c], b);
      RemoveUnsafeAppend(a, [c]);
      RemoveUnsafeAppend(a, b);
      assert RemoveUnsafe([c]) == [];
    }
  }

  /**
   * A tab, carriage return or line feed anywhere in the URL does not change the
   * network location: `http://a<TAB>b/x` is read as host `ab`, and
   * `http<TAB>://h/x` as host `h`.
   */
  lemma UnsafeIgnored(a: string, c: char, b: string)
    requires Unsafe(c)
    ensures Netloc(a + [c] + b) == Netloc(a + b)
  {
    CleanDeletes(a, c, b);
  }

  /** `http://a<TAB>b/x` has host `ab`. */
  lemma TabInHost()
    ensures Netloc("http://a\tb/x") == "ab"
  {
    UnsafeIgnored("http://a", '\t', "b/x");
    assert "http://a" + ['\t'] + "b/x" == "http://a\tb/x";
    assert "http://a" + "b/x" == "http://" + "ab" + "/x";
    NetlocOfHttp("ab", "/x");
    RemoveUnsafeKeeps("ab");
  }

  /** `http<TAB>://h/x` has scheme `http` and host `h`. */
  lemma TabInScheme()
    ensures Netloc("http\t://h/x") == "h"
  {
    UnsafeIgnored("http", '\t', "://h/x");
    assert "http" + ['\t'] + "://h/x" == "http\t://h/x";
    assert "http" + "://h/x" == "http://" + "h" + "/x";
    NetlocOfHttp("h", "/x");
    RemoveUnsafeKeeps("h");
  }

  /** The host of each failed channel, in order. */
  function Hosts(failed: seq<Entry>): seq<string>
  {
    seq(|failed|, k requires 0 <= k < |failed| => Netloc(failed[k].url))
  }

  /** The dictionary `counts[key] = counts.get(key, 0) + 1` builds over `keys`. */
  function Counts(keys: seq<string>): map<string, nat>
  {
    if |keys| == 0 then map[]
    else
      var m := Counts(keys[..|keys| - 1]);
      var d := keys[|keys| - 1];
      m[d := (if d in m then m[d] else 0) + 1]
  }

  /** The `failed_domains` dictionary. */
  function DomainCounts(failed: seq<Entry>): map<string, nat>
  {
    Counts(Hosts(failed))
  }

  /** How often `d` occurs in `keys`. */
  function CountOf(keys: seq<string>, d: string): nat
  {
    if |keys| == 0 then 0
    else CountOf(keys[..|keys| - 1], d) + (if keys[|keys| - 1] == d then 1 else 0)
  }

  /** Each key seen is counted once per occurrence; unseen keys have no entry. */
  lemma {:induction false} CountsValue(keys: seq<string>, d: string)
    ensures d in Counts(keys) <==> CountOf(keys, d) > 0
    ensures d in Counts(keys) ==> Counts(keys)[d] == CountOf(keys, d)
  {
    if |keys| > 0 {
      CountsValue(keys[..|keys| - 1], d);
    }
  }

  /** The `failed_domains` loop. */
  method CountDomains(failed: seq<Entry>) returns (counts: map<string, nat>)
    ensures counts == DomainCounts(failed)
  {
    counts := map[];
    ghost var hosts := Hosts(failed);
    for i := 0 to |failed|
      invariant counts == Counts(hosts[..i])
    {
      CountsStep(hosts, i);
      var domain := Netloc(failed[i].url);
      counts := counts[domain := (if domain in counts then counts[domain] else 0) + 1];
    }
    assert hosts[..|failed|] == hosts;
  }

  /** Counting one more key. */
  lemma CountsStep(keys: seq<string>, i: nat)
    requires i < |keys|
    ensures var m := Counts(keys[..i]);
      Counts(keys[..i + 1]) == m[keys[i] := (if keys[i] in m then m[keys[i]] else 0) + 1]
  {
    assert keys[..i + 1][..i] == keys[..i];
  }

  /** Some key of a non-empty map. */
  ghost function AnyKey(m: map<string, nat>): (k: string)
    requires |m| > 0
    ensures k in m
  {
    var k :| k in m; k
  }

  /** The sum of a dictionary's counts. */
  ghost function Tally(m: map<string, nat>): nat
    decreases |m|
  {
    if |m| == 0 then 0
    else
      var k := AnyKey(m);
      assert |m - {k}| < |m| by {
        assert (m - {k}).Keys == m.Keys - {k};
      }
      m[k] + Tally(m - {k})
  }

  /** The sum does not depend on which key is taken first. */
  lemma {:induction false} TallyRemove(m: map<string, nat>, k: string)
    requires k in m
    ensures Tally(m) == m[k] + Tally(m - {k})
    decreases |m|
  {
    var j := AnyKey(m);
    if j != k {
      assert (m - {j}).Keys == m.Keys - {j};
      assert (m - {k}).Keys == m.Keys - {k};
      TallyRemove(m - {j}, k);
      TallyRemove(m - {k}, j);
      assert m - {j} - {k} == m - {k} - {j};
    }
  }

  /** Counting one more occurrence of a key raises the sum by one. */
  lemma TallyBump(m: map<string, nat>, d: string)
    ensures Tally(m[d := (if d in m then m[d] else 0) + 1]) == Tally(m) + 1
  {
    var m' := m[d := (if d in m then m[d] else 0) + 1];
    TallyRemove(m', d);
    if d in m {
      TallyRemove(m, d);
      assert m' - {d} == m - {d};
    } else {
      assert m' - {d} == m;
    }
  }

  /** The counts add up to the number of keys counted. */
  lemma {:induction false} CountsTally(keys: seq<string>)
    ensures Tally(Counts(keys)) == |keys|
  {
    if |keys| > 0 {
      CountsTally(keys[..|keys| - 1]);
      TallyBump(Counts(keys[..|keys| - 1]), keys[|keys| - 1]);
    }
  }

  /** The per-host failure counts add up to the number of failed channels, and each is that host's share. */
  lemma DomainCountsTally(failed: seq<Entry>, d: string)
    ensures Tally(DomainCounts(failed)) == |failed|
    ensures d in DomainCounts(failed) <==> exists k :: 0 <= k < |failed| && Netloc(failed[k].url) == d
    ensures d in DomainCounts(failed) ==> DomainCounts(failed)[d] == CountOf(Hosts(failed), d)
  {
    var hosts := Hosts(failed);
    CountsTally(hosts);
    CountsValue(hosts, d);
    CountOfIn(hosts, d);
    if d in hosts {
      var k :| 0 <= k < |hosts| && hosts[k] == d;
      assert Netloc(failed[k].url) == d;
    }
    forall k | 0 <= k < |failed| && Netloc(failed[k].url) == d ensures d in hosts {
      assert hosts[k] == d;
    }
  }

  /** A key occurs when it is at some position. */
  lemma {:induction false} CountOfIn(keys: seq<string>, d: string)
    ensures CountOf(keys, d) > 0 <==> d in keys
  {
    if |keys| > 0 {
      var init := keys[..|keys| - 1];
      CountOfIn(init, d);
      assert keys == init + [keys[|keys| - 1]];
    }
  }
}

=== FILE: epg.dfy ===
/**
 * The records the scripts read from an XMLTV programme guide. Parsing the XML
 * (ElementTree) is not part of this model: a guide arrives as the sequence of
 * its `<channel>` elements and the sequence of its `<programme>` elements, in
 * document order, each reduced to the attribute and the child the scripts use.
 */
module Epg {
  import opened Wrappers

  /** A child element; `text` is `None` when the element has no text. */
  datatype Element = Element(text: Option<string>)

  /** `<channel>`: `channel.get('id')` and `channel.find('display-name')`. */
  datatype Channel = Channel(id: Option<string>, displayName: Option<Element>)

  /** `<programme>`: `programme.get('channel')` and `programme.find('title')`. */
  datatype Programme = Programme(channel: Option<string>, title: Option<Element>)

  /** The guide as the scripts see it. */
  datatype Guide = Guide(channels: seq<Channel>, programmes: seq<Programme>)

  /** `if channel_id:` — the id is present and not empty. */
  predicate HasId(c: Channel)
  {
    c.id.Some? && |c.id.value| > 0
  }

  /**
   * The name recorded for a channel: the display name's text (possibly `None`)
   * when the channel has a display-name element, its id otherwise.
   */
  function GuideName(c: Channel): (r: Option<string>)
    requires HasId(c)
    ensures c.displayName.None? ==> r == c.id
    ensures c.displayName.Some? ==> r == c.displayName.value.text
  {
    match c.displayName
    case Some(e) => e.text
    case None => c.id
  }

  /**
   * The id-to-name dictionary after the loop over `channels`: one entry per
   * channel with an id, a later channel overwriting an earlier one with the same id.
   */
  function GuideMap(channels: seq<Channel>): map<string, Option<string>>
  {
    if |channels| == 0 then map[]
    else
      var m := GuideMap(channels[..|channels| - 1]);
      var c := channels[|channels| - 1];
      if HasId(c) then m[c.id.value := GuideName(c)] else m
  }

  /** The loop building the dictionary (test_channels.py and test_epg.py). */
  method BuildGuideMap(channels: seq<Channel>) returns (m: map<string, Option<string>>)
    ensures m == GuideMap(channels)
  {
    m := map[];
    for i := 0 to |channels|
      invariant m == GuideMap(channels[..i])
    {
      assert channels[..i + 1][..i] == channels[..i];
      var c := channels[i];
      if c.id.Some? && |c.id.value| > 0 {
        var name := if c.displayName.Some? then c.displayName.value.text else c.id;
        m := m[c.id.value := name];
      }
    }
    assert channels[..|channels|] == channels;
  }

  /** Every channel with an id has an entry. */
  lemma {:induction false} GuideMapHas(channels: seq<Channel>, k: nat)
    requires k < |channels| && HasId(channels[k])
    ensures channels[k].id.value in GuideMap(channels)
    decreases |channels|
  {
    if k < |channels| - 1 {
      var init := channels[..|channels| - 1];
      assert init[k] == channels[k];
      GuideMapHas(init, k);
    }
  }

  /**
   * Every entry comes from a channel with that id, and its value is the name of
   * the LAST such channel: the `k` returned.
   */
  lemma {:induction false} GuideMapLatest(channels: seq<Channel>, id: string) returns (k: nat)
    requires id in GuideMap(channels)
    ensures k < |channels| && HasId(channels[k]) && channels[k].id.value == id
    ensures GuideMap(channels)[id] == GuideName(channels[k])
    ensures forall j :: k < j < |channels| && HasId(channels[j]) ==> channels[j].id.value != id
    decreases |channels|
  {
    var last := |channels| - 1;
    var c := channels[last];
    if HasId(c) && c.id.value == id {
      k := last;
    } else {
      var init := channels[..last];
      k := GuideMapLatest(init, id);
      assert init[k] == channels[k];
      forall j | k < j < |channels| && HasId(channels[j]) ensures channels[j].id.value != id {
        if j < last {
          assert init[j] == channels[j];
        }
      }
    }
  }
}

=== FILE: epgids.dfy ===
/**
 * check_epg_ids.py: a look at which channel ids a guide uses. It lists the
 * ids and display names among the guide's first 50 channels, then searches
 * all channels for well-known network names and stops at 20 finds.
 */
module EpgIds {
  import opened Wrappers
  import opened Text
  import opened Epg

  // ---------------------------------------------------------------------
  // The sample of the first 50 channels

  /** `(channel_id, display_name.text)`; the text may be `None`. */
  datatype Named = Named(id: string, name: Option<string>)

  /** What the sample takes from a channel: id and display name, when it has an id and a display-name element. */
  function SampledOf(c: Channel): Option<Named>
  {
    if HasId(c) && c.displayName.Some? then Some(Named(c.id.value, c.displayName.value.text)) else None
  }

  /** `epg_channels` after the sample loop has seen `channels`. */
  function Sampled(channels: seq<Channel>): seq<Named>
  {
    if |channels| == 0 then []
    else
      var last := SampledOf(channels[|channels| - 1]);
      Sampled(channels[..|channels| - 1]) + (if last.Some? then [last.value] else [])
  }

  /** The sample holds exactly the channels with an id and a display-name element, in order, at most one per channel. */
  lemma {:induction false} SampledIff(channels: seq<Channel>, n: Named)
    ensures n in Sampled(channels) <==> exists k :: 0 <= k < |channels| && SampledOf(channels[k]) == Some(n)
    ensures |Sampled(channels)| <= |channels|
  {
    if |channels| > 0 {
      var init := channels[..|channels| - 1];
      SampledIff(init, n);
      if n in Sampled(init) {
        var k :| 0 <= k < |init| && SampledOf(init[k]) == Some(n);
        assert channels[k] == init[k];
      }
      forall k | 0 <= k < |channels| && SampledOf(channels[k]) == Some(n) ensures n in Sampled(channels) {
        if k < |channels| - 1 {
          assert init[k] == channels[k];
        }
      }
    }
  }

  /** The sample loop over `root.findall('.//channel')[:50]`. */
  method SampleIds(channels: seq<Channel>) returns (sample: seq<Named>)
    ensures sample == Sampled(Take(channels, 50))
  {
    var first := Take(channels, 50);
    sample := [];
    for i := 0 to |first|
      invariant sample == Sampled(first[..i])
    {
      assert first[..i + 1][..i] == first[..i];
      var c := first[i];
      if c.id.Some? && |c.id.value| > 0 && c.displayName.Some? {
        sample := sample + [Named(c.id.value, c.displayName.value.text)];
      }
    }
    assert first[..|first|] == first;
  }

  /** The sample never lists more than 50 channels, and only from the first 50. */
  lemma SampleBound(channels: seq<Channel>, n: Named)
    ensures |Sampled(Take(channels, 50))| <= 50
    ensures n in Sampled(Take(channels, 50)) ==> exists k :: 0 <= k < 50 && k < |channels| && SampledOf(channels[k]) == Some(n)
  {
    var first := Take(channels, 50);
    SampledIff(first, n);
    if n in Sampled(first) {
      var k :| 0 <= k < |first| && SampledOf(first[k]) == Some(n);
      assert first[k] == channels[k];
    }
  }

  // ---------------------------------------------------------------------
  // The search for well-known networks

  const SearchTerms: seq<string> := ["ABC", "CBS", "NBC", "FOX", "ESPN", "HBO", "CNN", "TNT", "TBS"]

  /** How many finds end the search. */
  const Limit: nat := 20

  /** `display_name.text if display_name is not None else ''` */
  function SearchName(c: Channel): Option<string>
  {
    if c.displayName.Some? then c.displayName.value.text else Some("")
  }

  /** `name.upper()` is evaluated only for a channel with an id, and raises when its display name has no text. */
  predicate Crashes(c: Channel)
  {
    HasId(c) && SearchName(c).None?
  }

  /** `ch_id and any(term in name.upper() for term in search_terms)` */
  predicate Qualifies(c: Channel)
  {
    HasId(c) && SearchName(c).Some? && ContainsAny(Upper(SearchName(c).value), SearchTerms)
  }

  /** `(ch_id, name)` of a find. */
  datatype Hit = Hit(id: string, name: string)

  function HitOf(c: Channel): Hit
    requires Qualifies(c)
  {
    Hit(c.id.value, SearchName(c).value)
  }

  /** How the search ended: with its finds, or with the `AttributeError` of a name without text. */
  datatype Search = Found(hits: seq<Hit>) | Crashed

  /** The search over `channels`, having found `found` so far. */
  function SearchFrom(channels: seq<Channel>, found: seq<Hit>): Search
  {
    if |channels| == 0 then Found(found)
    else
      var c := channels[0];
      if Crashes(c) then Crashed
      else if Qualifies(c) then
        var more := found + [HitOf(c)];
        if |more| >= Limit then Found(more) else SearchFrom(channels[1..], more)
      else SearchFrom(channels[1..], found)
  }

  /** Every qualifying channel's find, in document order, ignoring the limit. */
  function Hits(channels: seq<Channel>): seq<Hit>
  {
    if |channels| == 0 then []
    else (if Qualifies(channels[0]) then [HitOf(channels[0])] else []) + Hits(channels[1..])
  }

  /** The search loop with its `break` at 20 finds. */
  method SearchCommon(channels: seq<Channel>) returns (r: Search)
    ensures r == SearchFrom(channels, [])
  {
    var found: seq<Hit> := [];
    var i := 0;
    while i < |channels|
      invariant 0 <= i <= |channels| && |found| < Limit
      invariant SearchFrom(channels, []) == SearchFrom(channels[i..], found)
    {
      assert channels[i..][1..] == channels[i + 1..];
      var c := channels[i];
      var name := if c.displayName.Some? then c.displayName.value.text else Some("");
      if c.id.Some? && |c.id.value| > 0 {
        if name.None? {
          return Crashed;
        }
        if ContainsAny(Upper(name.value), SearchTerms) {
          found := found + [Hit(c.id.value, name.value)];
          if |found| >= Limit {
            return Found(found);
          }
        }
      }
      i := i + 1;
    }
    assert channels[i..] == [];
    r := Found(found);
  }

  /** Without a name lacking text, the search finds the first 20 qualifying channels (all of them if fewer). */
  lemma {:induction false} SearchNoCrash(channels: seq<Channel>, found: seq<Hit>)
    requires |found| < Limit
    requires forall k :: 0 <= k < |channels| ==> !Crashes(channels[k])
    ensures SearchFrom(channels, found) == Found(Take(found + Hits(channels), Limit))
  {
    if |channels| == 0 {
      assert found + Hits(channels) == found;
    } else {
      var c := channels[0];
      var rest := channels[1..];
      assert !Crashes(c);
      forall k | 0 <= k < |rest| ensures !Crashes(rest[k]) {
        assert rest[k] == channels[k + 1];
      }
      var next := if Qualifies(c) then found + [HitOf(c)] else found;
      assert found + Hits(channels) == next + Hits(rest);
      if |next| >= Limit {
        TakeFull(next, Hits(rest), Limit);
      } else {
        SearchNoCrash(rest, next);
      }
    }
  }

  /** Taking as many as there are in front keeps exactly the front. */
  lemma TakeFull(xs: seq<Hit>, ys: seq<Hit>, n: nat)
    requires |xs| == n
    ensures Take(xs + ys, n) == xs
  {
    assert (xs + ys)[..n] == xs;
  }

  /** A name without text ends the script when it comes before the 20th find. */
  lemma {:induction false} SearchCrash(channels: seq<Channel>, found: seq<Hit>, k: nat)
    requires k < |channels| && Crashes(channels[k])
    requires forall j :: 0 <= j < k ==> !Crashes(channels[j])
    requires |found| + |Hits(channels[..k])| < Limit
    ensures SearchFrom(channels, found) == Crashed
  {
    if k > 0 {
      var c := channels[0];
      var rest := channels[1..];
      assert channels[..k] == [c] + rest[..k - 1];
      assert !Crashes(c);
      var next := if Qualifies(c) then found + [HitOf(c)] else found;
      SearchCrash(rest, next, k - 1);
    }
  }

  /** The script's search: the first 20 finds when no channel before them crashes it. */
  lemma SearchResult(channels: seq<Channel>)
    ensures (forall k :: 0 <= k < |channels| ==> !Crashes(channels[k])) ==>
      SearchFrom(channels, []) == Found(Take(Hits(channels), Limit))
    ensures SearchFrom(channels, []).Found? ==> |SearchFrom(channels, []).hits| <= Limit
  {
    if forall k :: 0 <= k < |channels| ==> !Crashes(channels[k]) {
      SearchNoCrash(channels, []);
      assert [] + Hits(channels) == Hits(channels);
    }
    SearchBound(channels, []);
  }

  /** The search never returns more than 20 finds. */
  lemma {:induction false} SearchBound(channels: seq<Channel>, found: seq<Hit>)
    requires |found| < Limit
    ensures SearchFrom(channels, found).Found? ==> |SearchFrom(channels, found).hits| <= Limit
  {
    if |channels| > 0 && !Crashes(channels[0]) {
      if Qualifies(channels[0]) {
        if |found| + 1 < Limit {
          SearchBound(channels[1..], found + [HitOf(channels[0])]);
        }
      } else {
        SearchBound(channels[1..], found);
      }
    }
  }
}

=== FILE: epgtest.dfy ===
/**
 * test_epg.py: how much of the playlist the guide covers. Every playlist line
 * that carries a `tvg-id` is one of "our channels"; each is matched against
 * the guide's channel ids, and a few well-known channels are looked up among
 * the guide's programmes.
 */
module EpgCoverage {
  import opened Wrappers
  import opened Text
  import opened M3u
  import opened Epg

  /** `(tvg_id, name)` */
  datatype Ours = Ours(tvgId: string, name: string)

  /** `(tvg_id, name, epg_name)` */
  datatype Covered = Covered(tvgId: string, name: string, epgName: Option<string>)

  /**
   * What one playlist line adds to `our_channels`: a line holding `tvg-id="`
   * whose attribute has a value, named after its comma or else by its id.
   */
  function OursOf(line: string): Option<Ours>
  {
    if Contains(line, "tvg-id=\"") then
      match AttrValue(line, "tvg-id")
      case Some(id) => Some(Ours(id, ChannelName(line).GetOr(id)))
      case None => None
    else None
  }

  /**
   * Any line with a `tvg-id` value counts, whatever kind of line it is (there
   * is no pairing with a stream line); without a name the id stands in.
   */
  lemma OursOfIff(line: string)
    ensures OursOf(line).Some? <==> AttrValue(line, "tvg-id").Some?
    ensures OursOf(line).Some? ==> OursOf(line).value.tvgId == AttrValue(line, "tvg-id").value
    ensures OursOf(line).Some? && ChannelName(line).None? ==> OursOf(line).value.name == OursOf(line).value.tvgId
    ensures OursOf(line).Some? && ChannelName(line).Some? ==> OursOf(line).value.name == ChannelName(line).value
  {
    assert "tvg-id" + "=\"" == "tvg-id=\"";
    if !Contains(line, "tvg-id=\"") {
      NoAttrWithoutKey(line, "tvg-id");
    }
  }

  /** `our_channels` after the loop has seen `lines`. */
  function OurChannels(lines: seq<string>): seq<Ours>
  {
    if |lines| == 0 then []
    else
      var last := OursOf(lines[|lines| - 1]);
      OurChannels(lines[..|lines| - 1]) + (if last.Some? then [last.value] else [])
  }

  /** Our channels are exactly what the lines give, duplicates kept, never more than the lines. */
  lemma {:induction false} OurChannelsIff(lines: seq<string>, o: Ours)
    ensures o in OurChannels(lines) <==> exists k :: 0 <= k < |lines| && OursOf(lines[k]) == Some(o)
    ensures |OurChannels(lines)| <= |lines|
  {
    if |lines| > 0 {
      var init := lines[..|lines| - 1];
      OurChannelsIff(init, o);
      if o in OurChannels(init) {
        var k :| 0 <= k < |init| && OursOf(init[k]) == Some(o);
        assert lines[k] == init[k];
      }
      forall k | 0 <= k < |lines| && OursOf(lines[k]) == Some(o) ensures o in OurChannels(lines) {
        if k < |lines| - 1 {
          assert init[k] == lines[k];
        }
      }
    }
  }

  /** The playlist loop of test_epg.py over the lines read. */
  method ReadOurChannels(text: string) returns (ours: seq<Ours>)
    ensures ours == OurChannels(ReadLines(text))
  {
    var lines := ReadLines(text);
    ours := [];
    for i := 0 to |lines|
      invariant ours == OurChannels(lines[..i])
    {
      assert lines[..i + 1][..i] == lines[..i];
      var line := lines[i];
      if Contains(line, "tvg-id=\"") {
        var tvgId := AttrValue(line, "tvg-id");
        if tvgId.Some? {
          var name := ChannelName(line).GetOr(tvgId.value);
          ours := ours + [Ours(tvgId.value, name)];
        }
      }
    }
    assert lines[..|lines|] == lines;
  }

  /** `matched` after the loop has seen `ours`. */
  function WithGuide(ours: seq<Ours>, guide: map<string, Option<string>>): seq<Covered>
  {
    if |ours| == 0 then []
    else
      var o := ours[|ours| - 1];
      WithGuide(ours[..|ours| - 1], guide) + (if o.tvgId in guide then [Covered(o.tvgId, o.name, guide[o.tvgId])] else [])
  }

  /** `unmatched` after the loop has seen `ours`. */
  function WithoutGuide(ours: seq<Ours>, guide: map<string, Option<string>>): seq<Ours>
  {
    if |ours| == 0 then []
    else
      var o := ours[|ours| - 1];
      WithoutGuide(ours[..|ours| - 1], guide) + (if o.tvgId in guide then [] else [o])
  }

  /**
   * A channel is matched, with the guide's name for its id, exactly when its
   * id is a guide channel, and unmatched exactly when it is not.
   */
  lemma {:induction false} CoverageIff(ours: seq<Ours>, guide: map<string, Option<string>>, c: Covered)
    ensures c in WithGuide(ours, guide) <==> Ours(c.tvgId, c.name) in ours && c.tvgId in guide && c.epgName == guide[c.tvgId]
    ensures Ours(c.tvgId, c.name) in WithoutGuide(ours, guide) <==> Ours(c.tvgId, c.name) in ours && c.tvgId !in guide
  {
    if |ours| > 0 {
      var init := ours[..|ours| - 1];
      CoverageIff(init, guide, c);
      assert ours == init + [ours[|ours| - 1]];
    }
  }

  /** Matched plus unmatched is the number of our channels. */
  lemma {:induction false} CoverageSizes(ours: seq<Ours>, guide: map<string, Option<string>>)
    ensures |WithGuide(ours, guide)| + |WithoutGuide(ours, guide)| == |ours|
  {
    if |ours| > 0 {
      CoverageSizes(ours[..|ours| - 1], guide);
    }
  }

  /** The coverage loop of test_epg.py. */
  method Coverage(ours: seq<Ours>, guide: map<string, Option<string>>) returns (matched: seq<Covered>, unmatched: seq<Ours>)
    ensures matched == WithGuide(ours, guide) && unmatched == WithoutGuide(ours, guide)
  {
    matched := [];
    unmatched := [];
    for i := 0 to |ours|
      invariant matched == WithGuide(ours[..i], guide) && unmatched == WithoutGuide(ours[..i], guide)
    {
      assert ours[..i + 1][..i] == ours[..i];
      var o := ours[i];
      if o.tvgId in guide {
        matched := matched + [Covered(o.tvgId, o.name, guide[o.tvgId])];
      } else {
        unmatched := unmatched + [o];
      }
    }
    assert ours[..|ours|] == ours;
  }

  /** The channels listed: the first 15 matched and the first 20 unmatched. */
  function Samples(matched: seq<Covered>, unmatched: seq<Ours>): (r: (seq<Covered>, seq<Ours>))
    ensures r.0 <= matched && |r.0| == (if |matched| < 15 then |matched| else 15)
    ensures r.1 <= unmatched && |r.1| == (if |unmatched| < 20 then |unmatched| else 20)
  {
    (Take(matched, 15), Take(unmatched, 20))
  }

  // ---------------------------------------------------------------------
  // Programmes of popular channels

  const Popular: seq<string> := ["ABC.us", "CBS.us", "NBC.us", "FOX.us", "HBO.us", "ESPN.us"]

  /** `[p for p in programs if p.get('channel') == ch_id]` */
  function OnChannel(programmes: seq<Programme>, id: string): seq<Programme>
  {
    if |programmes| == 0 then []
    else (if programmes[0].channel == Some(id) then [programmes[0]] else []) + OnChannel(programmes[1..], id)
  }

  /** What is printed for a channel: the first programme's title and how many more, or nothing found. */
  datatype Sample = FirstTitle(title: Option<string>, more: nat) | NoProgrammes

  /** The sample for one channel id. */
  function SampleFor(programmes: seq<Programme>, id: string): Sample
  {
    var ps := OnChannel(programmes, id);
    if |ps| > 0 && ps[0].title.Some? then FirstTitle(ps[0].title.value.text, |ps| - 1) else NoProgrammes
  }

  /** How many programmes are on channel `id`. */
  function CountOn(programmes: seq<Programme>, id: string): nat
  {
    if |programmes| == 0 then 0
    else (if programmes[0].channel == Some(id) then 1 else 0) + CountOn(programmes[1..], id)
  }

  /** The programmes on a channel are that channel's, all of them, the first in document order first. */
  lemma {:induction false} OnChannelFirst(programmes: seq<Programme>, id: string) returns (k: nat)
    ensures |OnChannel(programmes, id)| == CountOn(programmes, id)
    ensures forall p :: p in OnChannel(programmes, id) ==> p in programmes && p.channel == Some(id)
    ensures |OnChannel(programmes, id)| > 0 ==>
      && k < |programmes| && OnChannel(programmes, id)[0] == programmes[k]
      && programmes[k].channel == Some(id)
      && forall j :: 0 <= j < k ==> programmes[j].channel != Some(id)
  {
    if |programmes| == 0 {
      k := 0;
    } else {
      var rest := programmes[1..];
      var k' := OnChannelFirst(rest, id);
      if programmes[0].channel == Some(id) || |OnChannel(rest, id)| == 0 {
        k := 0;
      } else {
        k := k' + 1;
        forall j | 0 <= j < k ensures programmes[j].channel != Some(id) {
          if j > 0 {
            assert programmes[j] == rest[j - 1];
          }
        }
      }
      forall p | p in OnChannel(programmes, id) ensures p in programmes && p.channel == Some(id) {
        if p !in OnChannel(rest, id) {
          assert p == programmes[0];
        }
      }
    }
  }

  /**
   * A sample names the title of the first programme on the channel, and "more"
   * is the number of its other programmes.
   */
  lemma SampleForCount(programmes: seq<Programme>, id: string)
    ensures SampleFor(programmes, id).FirstTitle? ==>
      exists k ::
        && 0 <= k < |programmes| && programmes[k].channel == Some(id)
        && programmes[k].title.Some? && SampleFor(programmes, id).title == programmes[k].title.value.text
        && (forall j :: 0 <= j < k ==> programmes[j].channel != Some(id))
        && SampleFor(programmes, id).more + 1 == CountOn(programmes, id)
    ensures SampleFor(programmes, id).NoProgrammes? <==>
      var ps := OnChannel(programmes, id);
      CountOn(programmes, id) == 0 || (|ps| > 0 && ps[0].title.None?)
  {
    var k := OnChannelFirst(programmes, id);
  }

  /** The popular-channel loop of test_epg.py. */
  method SamplePopular(programmes: seq<Programme>) returns (samples: seq<Sample>)
    ensures |samples| == |Popular|
    ensures forall i :: 0 <= i < |Popular| ==> samples[i] == SampleFor(programmes, Popular[i])
  {
    samples := [];
    for i := 0 to |Popular|
      invariant |samples| == i
      invariant forall j :: 0 <= j < i ==> samples[j] == SampleFor(programmes, Popular[j])
    {
      var onChannel := OnChannel(programmes, Popular[i]);
      if |onChannel| > 0 && onChannel[0].title.Some? {
        samples := samples + [FirstTitle(onChannel[0].title.value.text, |onChannel| - 1)];
      } else {
        samples := samples + [NoProgrammes];
      }
    }
  }
}

=== FILE: fixepg.dfy ===
/**
 * fix_epg.py: points the playlist at another guide by rewriting its
 * `#EXTM3U` header line; every other line is written back unchanged.
 */
module FixEpg {
  import opened Wrappers
  import opened Text
  import opened M3u
  import ChannelTester

  /** The guide the playlist is pointed at. */
  const NewGuide := GuideSite + GuideDir + GuideFile

  const GuideSite := "https://iptv-org.github.io"
  const GuideDir := "/epg/guides/us/"
  const GuideFile := "directv.com.epg.xml"

  /** `new_epg_url` */
  const NewEpgAttr := GuideKey + "=\"" + NewGuide + "\""

  const GuideKey := "url-tvg"

  /** The header line written: `#EXTM3U url-tvg="…"` and a newline. */
  const NewHeader := HeaderTag + " " + NewEpgAttr + "\n"

  /**
   * The line-level update: a first line starting with `#EXTM3U` is replaced
   * by the new header (any other attribute on it is dropped); the other lines,
   * and a first line that is not a header, stay as they are. `lines[0]`
   * needs a non-empty file.
   */
  method FixHeader(lines: seq<string>) returns (fixed: seq<string>)
    requires |lines| > 0
    ensures |fixed| == |lines| && fixed[1..] == lines[1..]
    ensures StartsWith(lines[0], HeaderTag) ==> fixed[0] == NewHeader
    ensures !StartsWith(lines[0], HeaderTag) ==> fixed == lines
  {
    fixed := lines;
    if StartsWith(lines[0], HeaderTag) {
      fixed := fixed[0 := NewHeader];
    }
  }

  /** The text after the first newline (none when there is no newline). */
  function AfterFirstLine(text: string): string
  {
    if '\n' in text then text[IndexOf(text, '\n') + 1..] else ""
  }

  /**
   * The whole script on the file's text: a file starting with `#EXTM3U` gets
   * the new header in place of its first line; any other file is written back
   * as it was.
   */
  method FixEpgFile(text: string) returns (out: string)
    requires |text| > 0
    ensures StartsWith(text, HeaderTag) ==> out == NewHeader + AfterFirstLine(text)
    ensures !StartsWith(text, HeaderTag) ==> out == text
  {
    var lines := ReadLines(text);
    var fixed := FixHeader(lines);
    out := Concat(fixed);
    FirstLine(text);
    ConcatReadLines(text);
    HeaderOnFirstLine(text);
    assert fixed == [fixed[0]] + fixed[1..];
    assert lines == [lines[0]] + lines[1..];
  }

  /** The first line read starts with `#EXTM3U` exactly when the text does (the tag holds no newline). */
  lemma HeaderOnFirstLine(text: string)
    requires |text| > 0
    ensures StartsWith(ReadLines(text)[0], HeaderTag) <==> StartsWith(text, HeaderTag)
    ensures |ReadLines(text)[0]| == |text| - |AfterFirstLine(text)|
  {
    assert '\n' !in HeaderTag;
    PrefixOnFirstLine(text, HeaderTag);
  }

  /** A prefix without a newline starts the first line exactly when it starts the text. */
  lemma PrefixOnFirstLine(text: string, p: string)
    requires |text| > 0 && '\n' !in p
    ensures StartsWith(ReadLines(text)[0], p) <==> StartsWith(text, p)
    ensures |ReadLines(text)[0]| == |text| - |AfterFirstLine(text)|
  {
    FirstLine(text);
    var first := ReadLines(text)[0];
    if '\n' in text {
      var i := IndexOf(text, '\n');
      if StartsWith(text, p) {
        if i < |p| {
          assert false;
        }
        assert first[..|p|] == text[..|p|];
      }
    }
  }

  /** The guide URL holds neither a quote nor a newline. */
  lemma GuidePlain()
    ensures forall k :: 0 <= k < |NewGuide| ==> NewGuide[k] != '"' && NewGuide[k] != '\n'
  {
    SitePlain();
    DirPlain();
    FilePlain();
    assert '"' !in NewGuide && '\n' !in NewGuide;
  }

  lemma SitePlain()
    ensures '"' !in GuideSite && '\n' !in GuideSite
  {
  }

  lemma DirPlain()
    ensures '"' !in GuideDir && '\n' !in GuideDir
  {
  }

  lemma FilePlain()
    ensures '"' !in GuideFile && '\n' !in GuideFile
  {
  }

  /** A text without a newline, followed by one, is a single line. */
  lemma EndedLine(body: string)
    requires '\n' !in body
    ensures var line := body + "\n";
      line[|line| - 1] == '\n' && SingleLine(line)
  {
    var line := body + "\n";
    forall k | 0 <= k < |line| - 1 ensures line[k] != '\n' {
      assert line[k] == body[k];
    }
  }

  /** The new header is one line ending in a newline. */
  lemma NewHeaderLine()
    ensures |NewHeader| > 0 && NewHeader[|NewHeader| - 1] == '\n' && SingleLine(NewHeader)
    ensures StartsWith(NewHeader, HeaderTag)
  {
    GuidePlain();
    assert '\n' !in NewGuide;
    var body := HeaderTag + " " + NewEpgAttr;
    assert '\n' !in HeaderTag + " " && '\n' !in GuideKey + "=\"";
    assert '\n' !in NewEpgAttr;
    assert NewHeader == body + "\n";
    EndedLine(body);
    assert NewHeader[..7] == HeaderTag;
  }

  /** A quote-free run read off a known value. */
  lemma {:induction false} QuoteFreeRunOver(line: string, q: nat, v: string)
    requires q + |v| < |line| && line[q..q + |v|] == v && line[q + |v|] == '"'
    requires forall k :: 0 <= k < |v| ==> v[k] != '"'
    ensures QuoteFreeRun(line, q) == |v|
    decreases |v|
  {
    if |v| > 0 {
      assert line[q] == v[0];
      assert line[q + 1..q + 1 + |v[1..]|] == v[1..];
      QuoteFreeRunOver(line, q + 1, v[1..]);
    }
  }

  /** An attribute written out as `key="v"` at `p` is what the regex reads there. */
  lemma AttrAtOver(line: string, key: string, p: nat, v: string)
    requires p <= |line| && key + "=\"" + v + "\"" <= line[p..]
    requires |v| > 0 && forall k :: 0 <= k < |v| ==> v[k] != '"'
    ensures AttrAt(line, key, p) == Some(v)
  {
    var open := key + "=\"";
    var q := p + |open|;
    assert line[p..][..|open|] == (key + "=\"" + v + "\"")[..|open|] == open;
    assert line[q..q + |v|] == (key + "=\"" + v + "\"")[|open|..|open| + |v|] == v;
    assert line[q + |v|] == (key + "=\"" + v + "\"")[|open| + |v|] == '"';
    QuoteFreeRunOver(line, q, v);
  }

  /** `url-tvg="…"` starts at position 8 of the new header, and no `u` comes before it. */
  lemma NewHeaderAttr()
    ensures AttrAt(NewHeader, GuideKey, 8) == Some(NewGuide)
    ensures forall k: nat :: k < 8 ==> NewHeader[k] != 'u'
  {
    GuidePlain();
    var lead := HeaderTag + " ";
    var rest := NewEpgAttr + "\n";
    assert NewHeader == lead + rest;
    assert |lead| == 8 && 'u' !in lead;
    assert NewHeader[8..] == rest;
    assert forall k: nat :: k < 8 ==> NewHeader[k] == lead[k];
    AttrAtOver(NewHeader, GuideKey, 8, NewGuide);
  }

  /**
   * After the fix, test_channels.py reads the new guide URL from the file's
   * first line, whatever the header carried before.
   */
  lemma FixedGuideUrl(rest: string)
    ensures ChannelTester.GuideUrl(ReadLines(NewHeader + rest)) == Some(NewGuide)
  {
    NewHeaderLine();
    ReadLinesAppend(NewHeader, rest);
    NewHeaderAttr();
    forall k: nat | k < 8 ensures AttrAt(NewHeader, GuideKey, k).None? {
      assert !OpensAt(NewHeader, GuideKey, k) by {
        assert NewHeader[k] != 'u';
      }
    }
    AttrFromSkip(NewHeader, GuideKey, 0, 8);
  }
}

=== FILE: getphp.dfy ===
/**
 * The PHP playlist endpoint server/get.php: the user table, the credential and
 * expiry checks, and the rewrite that appends `#token=` and the base64 of
 * `username:password` to every `http://` or `https://` address in the playlist.
 * The clock is a parameter; the playlist file is its text.
 */
module PhpServer {
  import opened Wrappers
  import opened Text
  import opened UrlMatch
  import Base64
  import Utf8
  import NodeServer

  /** `$users`: each user's password (both subscriptions end on 2025-12-31). */
  const Users: map<string, string> := map["user1" := "pass1", "user2" := "pass2"]

  /** `strtotime('2025-12-31')`: midnight at the start of that day, in seconds, with UTC as the default time zone. */
  const ExpiresAt: int := 1767139200

  /** `$_GET[name] ?? ''`: an absent parameter reads as the empty string. */
  function Param(p: Option<string>): (v: string)
    ensures p.None? ==> v == ""
    ensures p.Some? ==> v == p.value
  {
    p.GetOr("")
  }

  /** `isset($users[$username]) && $users[$username]['password'] === $password`. */
  predicate Valid(username: string, password: string)
  {
    username in Users && Users[username] == password
  }

  /** `base64_encode($username . ':' . $password)`, over the UTF-8 bytes of the two strings. */
  function Token(username: string, password: string): string
  {
    Base64.Encode(Utf8.Encode(username + ":" + password))
  }

  /** What each address gets appended. */
  function Suffix(username: string, password: string): string
  {
    "#token=" + Token(username, password)
  }

  /** `preg_replace_callback('/(https?:\/\/[^\s]+)/', …)`: every address followed by `suffix`. */
  function Tagged(playlist: string, suffix: string): string
  {
    Replace(playlist, Matcher(AllUrls), url => url + suffix)
  }

  /**
   * The whole request: 401 without valid credentials, 403 once `strtotime` of the
   * expiry date is before `time()` (`nowSec`), and otherwise the tagged playlist.
   */
  function GetPhp(username: Option<string>, password: Option<string>, nowSec: int, playlist: string): (r: NodeServer.Reply)
    ensures r == NodeServer.Failed(401, "Invalid credentials") <==> !Valid(Param(username), Param(password))
    ensures r == NodeServer.Failed(403, "Subscription expired") <==> Valid(Param(username), Param(password)) && ExpiresAt < nowSec
    ensures r.Playlist? <==> Valid(Param(username), Param(password)) && nowSec <= ExpiresAt
    ensures r.Playlist? ==> r.body == Tagged(playlist, Suffix(Param(username), Param(password)))
  {
    var name := Param(username);
    var pass := Param(password);
    if !Valid(name, pass) then NodeServer.Failed(401, "Invalid credentials")
    else if ExpiresAt < nowSec then NodeServer.Failed(403, "Subscription expired")
    else NodeServer.Playlist(Tagged(playlist, Suffix(name, pass)))
  }

  /** Exactly the two user and password pairs get in; a missing parameter never does. */
  lemma ValidIff(username: Option<string>, password: Option<string>)
    ensures Valid(Param(username), Param(password)) <==>
              ((username == Some("user1") && password == Some("pass1"))
               || (username == Some("user2") && password == Some("pass2")))
  {
    assert Users.Keys == {"user1", "user2"};
  }

  /** The PHP endpoint and the Node server let in the same requests, and their subscriptions end at the same instant. */
  lemma SameCredentials(username: Option<string>, password: Option<string>)
    ensures Valid(Param(username), Param(password)) <==> NodeServer.Authorized(username, password)
    ensures ExpiresAt * 1000 == NodeServer.Expiry
  {
    ValidIff(username, password);
    NodeServer.AuthorizedIff(username, password);
  }

  /** The token decodes back to `username:password`. */
  lemma TokenDecodes(username: string, password: string)
    ensures Base64.Decode(Token(username, password)) == Some(Utf8.Encode(username + ":" + password))
    ensures Utf8.Decode(Utf8.Encode(username + ":" + password)) == Some(username + ":" + password)
  {
    Base64.DecodeEncode(Utf8.Encode(username + ":" + password));
    Utf8.DecodeEncode(username + ":" + password);
  }

  /** The rewrite only inserts: the playlist can be read off the output in order. */
  lemma {:induction false} TaggedInsertsOnly(s: string, suffix: string)
    ensures Subsequence(s, Tagged(s, suffix))
    decreases |s|
  {
    if |s| > 0 {
      var m := Matcher(AllUrls)(s);
      if m.Some? {
        var n := m.value;
        ReplaceMatchStep(s, Matcher(AllUrls), url => url + suffix, n);
        TaggedInsertsOnly(s[n..], suffix);
        SubsequenceInsert(s[..n], s[n..], suffix, Tagged(s[n..], suffix));
        assert s[..n] + s[n..] == s;
      } else {
        ReplaceSkipStep(s, Matcher(AllUrls), url => url + suffix);
        TaggedInsertsOnly(s[1..], suffix);
        SubsequenceInsert([s[0]], s[1..], [], Tagged(s[1..], suffix));
        assert [s[0]] + s[1..] == s && [s[0]] + [] + Tagged(s[1..], suffix) == [s[0]] + Tagged(s[1..], suffix);
      }
    }
  }

  /** No address reaches across an ASCII space or line break: the rewrite goes line by line, word by word. */
  lemma TaggedPieces(x: string, c: char, y: string, suffix: string)
    requires Space(AllUrls, c)
    ensures Tagged(x + [c] + y, suffix) == Tagged(x, suffix) + [c] + Tagged(y, suffix)
  {
    MatcherSane(AllUrls);
    MatcherStops(AllUrls, c);
    ReplaceCut(x, c, y, Matcher(AllUrls), url => url + suffix);
  }

  /** Text without `http` passes through unchanged. */
  lemma TaggedPlain(text: string, suffix: string)
    requires !Contains(text, "http")
    ensures Tagged(text, suffix) == text
  {
    PlainUnchanged(AllUrls, text, url => url + suffix);
  }

  /** A piece that is one address, `https?://` then non-spaces, gets the suffix at its end. */
  lemma TaggedAddress(url: string, suffix: string)
    requires Candidate(AllUrls, url, |url|)
    ensures Tagged(url, suffix) == url + suffix
  {
    LinkReplaced(AllUrls, url, u => u + suffix);
  }

  /** Any character that is not a space continues an address. */
  lemma AddressExtends(url: string, c: char)
    requires Candidate(AllUrls, url, |url|) && !Space(AllUrls, c)
    ensures Candidate(AllUrls, url + [c], |url| + 1)
  {
    var v := url + [c];
    assert forall k :: 0 <= k < |url| ==> v[k] == url[k];
    assert v[|url|] == c;
  }

  /**
   * An address inside double quotes, as in `tvg-logo="…"`: the closing quote is not a space,
   * so it is part of the match and the token lands after it (`…png"#token=…`).
   */
  lemma QuotedAddress(url: string, suffix: string)
    requires Candidate(AllUrls, url, |url|)
    ensures Tagged(['"'] + url + ['"'], suffix) == ['"'] + url + ['"'] + suffix
  {
    var s := ['"'] + url + ['"'];
    assert Matcher(AllUrls)(s).None? by {
      assert s[0] == '"';
    }
    ReplaceSkipStep(s, Matcher(AllUrls), u => u + suffix);
    assert s[1..] == url + ['"'];
    AddressExtends(url, '"');
    LinkReplaced(AllUrls, url + ['"'], u => u + suffix);
  }

  /** The quoted logo address `"http://x/a.png"` comes out as `"http://x/a.png"#token=…`. */
  lemma QuotedLogoExample(suffix: string)
    ensures Tagged("\"http://x/a.png\"", suffix) == "\"http://x/a.png\"" + suffix
  {
    var url := "http://x/a.png";
    assert Scheme(url, 7) && Unbroken(AllUrls, url, 7, |url|);
    QuotedAddress(url, suffix);
    assert "\"http://x/a.png\"" == ['"'] + url + ['"'];
  }

  /** Two addresses on a line get the same token, each right after itself. */
  lemma SameTokenEverywhere(u1: string, u2: string, suffix: string)
    requires Candidate(AllUrls, u1, |u1|) && Candidate(AllUrls, u2, |u2|)
    ensures Tagged(u1 + [' '] + u2, suffix) == u1 + suffix + [' '] + (u2 + suffix)
  {
    TaggedPieces(u1, ' ', u2, suffix);
    TaggedAddress(u1, suffix);
    TaggedAddress(u2, suffix);
  }
}

=== FILE: logos.dfy ===
/**
 * The logo checker of scripts/check_and_fix_logos.py: the `#EXTINF` lines that
 * carry a `tvg-logo`, the split of their logos into working and broken ones, the
 * alternative chosen for each broken logo, the playlist with those logos
 * rewritten, and the report.
 *
 * Whether a URL answers is decided by two HTTP requests; their outcome is an
 * input here (`Response`, and the oracle `works` that the checker consults).
 */
module Logos {
  import opened Wrappers
  import opened Text
  import opened M3u

  // ---------------------------------------------------------------------
  // `check_logo_url` (lines 46-58)

  /** What a request gave: an exception, or a status code and the `Content-Type` header ("" when absent). */
  datatype Response = Raised | Answered(status: int, contentType: string)

  /**
   * The decision of `check_logo_url`: the HEAD request must answer 200, and the
   * GET that follows must answer 200 or carry an image content type. An
   * exception anywhere means the logo is broken; `get` is only looked at after
   * a HEAD of 200, as the GET is only sent then.
   */
  function LogoWorks(head: Response, get: Response): (ok: bool)
    ensures ok ==> head.Answered? && head.status == 200 && get.Answered?
    ensures head.Answered? && head.status == 200 && get.Answered? && get.status == 200 ==> ok
    ensures head.Answered? && head.status == 200 && get.Answered? && Contains(Lower(get.contentType), "image") ==> ok
    ensures ok && get.status != 200 ==> Contains(Lower(get.contentType), "image")
  {
    && head.Answered? && head.status == 200
    && get.Answered? && (Contains(Lower(get.contentType), "image") || get.status == 200)
  }

  // ---------------------------------------------------------------------
  // `find_alternative_logo` (lines 60-73)

  /** One entry of `known_working_logos`: a lower-case keyword and a logo URL. */
  datatype Known = Known(key: string, url: string)

  const Wikimedia := "https://upload.wikimedia.org/wikipedia/commons/thumb/"

  /** `known_working_logos` (lines 29-40), in insertion order. */
  const KnownLogos: seq<Known> := [
    Known("fox", Wikimedia + "c/c0/Fox_Broadcasting_Company_logo_%282019%29.svg/200px-Fox_Broadcasting_Company_logo_%282019%29.svg.png"),
    Known("cbs", Wikimedia + "4/4e/CBS_logo.svg/200px-CBS_logo.svg.png"),
    Known("nbc", Wikimedia + "3/3f/NBC_logo.svg/200px-NBC_logo.svg.png"),
    Known("abc", Wikimedia + "5/54/ABC_logo.svg/200px-ABC_logo.svg.png"),
    Known("hbo", Wikimedia + "d/de/HBO_logo.svg/200px-HBO_logo.svg.png"),
    Known("espn", Wikimedia + "2/2f/ESPN_wordmark.svg/200px-ESPN_wordmark.svg.png"),
    Known("discovery", Wikimedia + "1/11/Discovery_channel_logo.svg/200px-Discovery_channel_logo.svg.png"),
    Known("showtime", Wikimedia + "2/22/Showtime.svg/200px-Showtime.svg.png"),
    Known("starz", Wikimedia + "e/ed/Starz_2016.svg/200px-Starz_2016.svg.png"),
    Known("cinemax", Wikimedia + "1/11/Cinemax_logo.svg/200px-Cinemax_logo.svg.png")
  ]

  /** The placeholder service prefix of line 71. */
  const PlaceholderBase := "https://via.placeholder.com/" + "150x100/0088cc/ffffff?text="

  /** A name `find_alternative_logo` accepts: empty, or holding a word (`split()[0]` fails on a blank name). */
  predicate NameOk(name: string)
  {
    |name| == 0 || !Blank(name)
  }

  /** Line 63: `channel_name.lower().split()[0] if channel_name else ''`. */
  function ChannelKey(name: string): (key: string)
    requires NameOk(name)
    ensures NoSpace(key) && Contains(Lower(name), key)
    ensures |name| == 0 <==> key == ""
    ensures |name| > 0 ==> key <= LStrip(Lower(name)) && (|key| == |LStrip(Lower(name))| || IsSpace(LStrip(Lower(name))[|key|]))
  {
    if |name| == 0 then
      ContainsAt(Lower(name), "", 0);
      ""
    else
      LowerKeepsSpaces(name);
      assert !Blank(Lower(name)) by {
        var k :| 0 <= k < |name| && !IsSpace(name[k]);
        assert !IsSpace(Lower(name)[k]);
      }
      FirstWord(Lower(name))
  }

  /** Table entry `i` is taken for the key: its keyword occurs in the key and its URL works. */
  predicate Hit(key: string, works: string -> bool, i: nat)
    requires i < |KnownLogos|
  {
    Contains(key, KnownLogos[i].key) && works(KnownLogos[i].url)
  }

  /** Lines 64-67 from entry `i` on: the URL of the first entry taken, if any. */
  function KnownFrom(key: string, works: string -> bool, i: nat): Option<string>
    requires i <= |KnownLogos|
    decreases |KnownLogos| - i
  {
    if i == |KnownLogos| then None
    else if Hit(key, works, i) then Some(KnownLogos[i].url)
    else KnownFrom(key, works, i + 1)
  }

  /** The lookup returns the URL of the FIRST table entry whose keyword is in the key and whose URL works. */
  lemma {:induction false} KnownFromFirst(key: string, works: string -> bool, i: nat) returns (j: nat)
    requires i <= |KnownLogos| && KnownFrom(key, works, i).Some?
    ensures i <= j < |KnownLogos| && Hit(key, works, j)
    ensures KnownFrom(key, works, i) == Some(KnownLogos[j].url)
    ensures forall k :: i <= k < j ==> !Hit(key, works, k)
    decreases |KnownLogos| - i
  {
    if Hit(key, works, i) {
      j := i;
    } else {
      j := KnownFromFirst(key, works, i + 1);
    }
  }

  /** The lookup finds nothing exactly when no entry is taken. */
  lemma {:induction false} KnownFromNone(key: string, works: string -> bool, i: nat)
    requires i <= |KnownLogos|
    ensures KnownFrom(key, works, i).None? <==> forall k :: i <= k < |KnownLogos| ==> !Hit(key, works, k)
    decreases |KnownLogos| - i
  {
    if i < |KnownLogos| {
      KnownFromNone(key, works, i + 1);
    }
  }

  /** `re.sub(r'[^\w\s]', '', name)`: every character that is neither a word character nor white space removed. */
  function WordsOnly(name: string): (r: string)
    ensures |r| <= |name|
    ensures forall k :: 0 <= k < |r| ==> IsWordChar(r[k]) || IsSpace(r[k])
  {
    if |name| == 0 then []
    else
      var c := name[|name| - 1];
      WordsOnly(name[..|name| - 1]) + (if IsWordChar(c) || IsSpace(c) then [c] else [])
  }

  /** A name made of word characters and white space only is left as it is. */
  lemma {:induction false} WordsOnlyKeeps(name: string)
    requires forall k :: 0 <= k < |name| ==> IsWordChar(name[k]) || IsSpace(name[k])
    ensures WordsOnly(name) == name
  {
    if |name| > 0 {
      WordsOnlyKeeps(name[..|name| - 1]);
    }
  }

  /** `.replace(' ', '+')` */
  function PlusForSpace(s: string): (r: string)
    ensures |r| == |s| && ' ' !in r
    ensures forall k :: 0 <= k < |s| && s[k] != ' ' ==> r[k] == s[k]
    ensures forall k :: 0 <= k < |s| && s[k] == ' ' ==> r[k] == '+'
  {
    seq(|s|, k requires 0 <= k < |s| => if s[k] == ' ' then '+' else s[k])
  }

  /** Lines 70-71: the placeholder URL carrying the cleaned name. */
  function Placeholder(name: string): string
  {
    PlaceholderBase + PlusForSpace(WordsOnly(name))
  }

  /**
   * The placeholder text is made of word characters, `+` and white space other
   * than the space, so it holds no quote and no backslash.
   */
  lemma PlaceholderShape(name: string)
    ensures PlaceholderBase <= Placeholder(name)
    ensures var text := Placeholder(name)[|PlaceholderBase|..];
      forall k :: 0 <= k < |text| ==> IsWordChar(text[k]) || text[k] == '+' || (IsSpace(text[k]) && text[k] != ' ')
  {
    var text := PlusForSpace(WordsOnly(name));
    assert Placeholder(name)[|PlaceholderBase|..] == text;
  }

  /** A placeholder URL is a non-empty quote-free string, so it can stand as a `tvg-logo` value. */
  lemma PlaceholderQuoteFree(name: string)
    ensures |Placeholder(name)| > 0 && '"' !in Placeholder(name)
  {
    PlaceholderShape(name);
    var text := Placeholder(name)[|PlaceholderBase|..];
    BaseQuoteFree();
    QuoteNotSpace();
    forall k | 0 <= k < |Placeholder(name)| ensures Placeholder(name)[k] != '"' {
      if k >= |PlaceholderBase| {
        assert Placeholder(name)[k] == text[k - |PlaceholderBase|];
      } else {
        assert Placeholder(name)[k] == PlaceholderBase[k];
      }
    }
  }

  lemma BaseQuoteFree()
    ensures '"' !in PlaceholderBase
  {
    var host, query := "https://via.placeholder.com/", "150x100/0088cc/ffffff?text=";
    assert '"' !in host;
    assert '"' !in query;
    assert PlaceholderBase == host + query;
  }

  lemma QuoteNotSpace()
    ensures !IsSpace('"') && !IsWordChar('"')
  {
  }

  /**
   * The placeholder holds no backslash. `re.sub` reads escapes in its
   * replacement string (line 141); without a backslash it copies the URL as it is.
   */
  lemma PlaceholderNoBackslash(name: string)
    ensures '\\' !in Placeholder(name)
  {
    PlaceholderShape(name);
    var text := Placeholder(name)[|PlaceholderBase|..];
    var host, query := "https://via.placeholder.com/", "150x100/0088cc/ffffff?text=";
    assert '\\' !in host;
    assert '\\' !in query;
    assert PlaceholderBase == host + query;
    assert !IsSpace('\\') && !IsWordChar('\\');
    forall k | 0 <= k < |Placeholder(name)| ensures Placeholder(name)[k] != '\\' {
      if k >= |PlaceholderBase| {
        assert Placeholder(name)[k] == text[k - |PlaceholderBase|];
      } else {
        assert Placeholder(name)[k] == PlaceholderBase[k];
      }
    }
  }

  /** What `find_alternative_logo` returns for a broken logo. */
  function Alternative(name: string, works: string -> bool): string
    requires NameOk(name)
  {
    KnownFrom(ChannelKey(name), works, 0).GetOr(Placeholder(name))
  }

  /**
   * The alternative is the URL of the first table entry (in insertion order)
   * whose keyword occurs in the lower-cased first word of the name and whose URL
   * works; when there is none it is the placeholder, whose URL is never checked.
   */
  lemma AlternativeIs(name: string, works: string -> bool)
    requires NameOk(name)
    ensures var key := ChannelKey(name);
      || (exists j :: 0 <= j < |KnownLogos| && Hit(key, works, j) && Alternative(name, works) == KnownLogos[j].url
           && forall k :: 0 <= k < j ==> !Hit(key, works, k))
      || ((forall k :: 0 <= k < |KnownLogos| ==> !Hit(key, works, k)) && Alternative(name, works) == Placeholder(name))
  {
    var key := ChannelKey(name);
    if KnownFrom(key, works, 0).Some? {
      var j := KnownFromFirst(key, works, 0);
    } else {
      KnownFromNone(key, works, 0);
    }
  }

  /** When no keyword occurs in the first word, the answer is the placeholder, whatever the URL checks would say. */
  lemma PlaceholderWhenNoKeyword(name: string, works: string -> bool)
    requires NameOk(name)
    requires forall k :: 0 <= k < |KnownLogos| ==> !Contains(ChannelKey(name), KnownLogos[k].key)
    ensures Alternative(name, works) == Placeholder(name)
  {
    KnownFromNone(ChannelKey(name), works, 0);
  }

  // ---------------------------------------------------------------------
  // The entries of `parse_m3u` (lines 75-101)

  /** One dict appended at lines 94-99. */
  datatype LogoEntry = LogoEntry(lineNum: nat, line: string, logoUrl: string, channelName: string)

  const LogoKey := "tvg-logo"

  /** Lines 84-99 for line `i`: an entry when the line starts `#EXTINF` and has a `tvg-logo` value. */
  function EntryAt(lines: seq<string>, i: nat): (r: Option<LogoEntry>)
    requires i < |lines|
    ensures r.Some? ==> r.value.lineNum == i && r.value.line == lines[i] && IsInfoLine(lines[i])
    ensures r.Some? ==> AttrValue(lines[i], LogoKey) == Some(r.value.logoUrl)
  {
    if IsInfoLine(lines[i]) && AttrValue(lines[i], LogoKey).Some? then
      Some(LogoEntry(i, lines[i], AttrValue(lines[i], LogoKey).value, ChannelName(lines[i]).GetOr("Unknown")))
    else None
  }

  /** The entries found in the first `n` lines, in line order. */
  function LogoEntries(lines: seq<string>, n: nat): (es: seq<LogoEntry>)
    requires n <= |lines|
    ensures |es| <= n
  {
    if n == 0 then []
    else LogoEntries(lines, n - 1) + (match EntryAt(lines, n - 1) case Some(e) => [e] case None => [])
  }

  /** An entry is found exactly for each `#EXTINF` line with a non-empty `tvg-logo` value; no URL line is needed. */
  lemma {:induction false} LogoEntriesIff(lines: seq<string>, n: nat, e: LogoEntry)
    requires n <= |lines|
    ensures e in LogoEntries(lines, n) <==> e.lineNum < n && EntryAt(lines, e.lineNum) == Some(e)
  {
    if n > 0 {
      LogoEntriesIff(lines, n - 1, e);
    }
  }

  /** Line numbers strictly increase along the entries. */
  predicate InLineOrder(es: seq<LogoEntry>)
  {
    forall i, j :: 0 <= i < j < |es| ==> es[i].lineNum < es[j].lineNum
  }

  /** Every entry records a line below `n` and that line's text. */
  predicate Recorded(lines: seq<string>, es: seq<LogoEntry>, n: nat)
  {
    forall i :: 0 <= i < |es| ==> es[i].lineNum < n <= |lines| && lines[es[i].lineNum] == es[i].line
  }

  /** Entries come in increasing line order, each recording its own line. */
  lemma {:induction false} LogoEntriesOrdered(lines: seq<string>, n: nat)
    requires n <= |lines|
    ensures InLineOrder(LogoEntries(lines, n)) && Recorded(lines, LogoEntries(lines, n), n)
  {
    if n > 0 {
      LogoEntriesOrdered(lines, n - 1);
      var before := LogoEntries(lines, n - 1);
      var es := LogoEntries(lines, n);
      match EntryAt(lines, n - 1)
      case None =>
        assert es == before;
      case Some(e) =>
        assert es == before + [e];
        forall i | 0 <= i < |es| ensures es[i].lineNum < n <= |lines| && lines[es[i].lineNum] == es[i].line {
          if i < |before| {
            assert es[i] == before[i];
          } else {
            assert es[i] == e;
          }
        }
        forall i, j | 0 <= i < j < |es| ensures es[i].lineNum < es[j].lineNum {
          assert es[i] == before[i];
          if j < |before| {
            assert es[j] == before[j];
          } else {
            assert es[j] == e;
          }
        }
    }
  }

  /** On a line without a comma the channel name is 'Unknown' (line 92). */
  lemma UnknownWithoutComma(lines: seq<string>, i: nat)
    requires i < |lines| && EntryAt(lines, i).Some? && ',' !in lines[i]
    ensures EntryAt(lines, i).value.channelName == "Unknown"
  {
    NoCommaNoName(lines[i]);
  }

  // ---------------------------------------------------------------------
  // The two lists filled by `check_all_logos` (lines 113-122)

  /** The entries whose logo check gives `result`, in order. */
  function Select(es: seq<LogoEntry>, works: string -> bool, result: bool): (r: seq<LogoEntry>)
    ensures |r| <= |es|
  {
    if |es| == 0 then []
    else Select(es[..|es| - 1], works, result) + (if works(es[|es| - 1].logoUrl) == result then [es[|es| - 1]] else [])
  }

  /** An entry is selected exactly when it is one of the entries and its check gives `result`. */
  lemma {:induction false} SelectIff(es: seq<LogoEntry>, works: string -> bool, result: bool, e: LogoEntry)
    ensures e in Select(es, works, result) <==> e in es && works(e.logoUrl) == result
  {
    if |es| > 0 {
      var init := es[..|es| - 1];
      SelectIff(init, works, result, e);
      assert es == init + [es[|es| - 1]];
    }
  }

  /** Every entry lands in exactly one of the two lists, so their sizes add up to the number of entries. */
  lemma {:induction false} SelectPartition(es: seq<LogoEntry>, works: string -> bool)
    ensures |Select(es, works, true)| + |Select(es, works, false)| == |es|
    ensures forall e :: e in es ==> (e in Select(es, works, true) <==> e !in Select(es, works, false))
  {
    if |es| > 0 {
      SelectPartition(es[..|es| - 1], works);
    }
    forall e | e in es ensures e in Select(es, works, true) <==> e !in Select(es, works, false) {
      SelectIff(es, works, true, e);
      SelectIff(es, works, false, e);
    }
  }

  // ---------------------------------------------------------------------
  // The alternatives recorded by `fix_broken_logos` (lines 128-131)

  /** Every entry's name is one `find_alternative_logo` accepts. */
  predicate NamesOk(bs: seq<LogoEntry>)
  {
    forall i :: 0 <= i < |bs| ==> NameOk(bs[i].channelName)
  }

  /** What `fixed[entry['line_num']] = alternative` for each of `bs` in order records. */
  function Fixes(bs: seq<LogoEntry>, works: string -> bool): map<nat, string>
    requires NamesOk(bs)
  {
    if |bs| == 0 then map[]
    else
      var last := bs[|bs| - 1];
      Fixes(bs[..|bs| - 1], works)[last.lineNum := Alternative(last.channelName, works)]
  }

  /** One more entry adds its own alternative. */
  lemma FixesStep(bs: seq<LogoEntry>, works: string -> bool, i: nat)
    requires i < |bs| && NamesOk(bs)
    ensures NamesOk(bs[..i]) && NamesOk(bs[..i + 1])
    ensures Fixes(bs[..i + 1], works) == Fixes(bs[..i], works)[bs[i].lineNum := Alternative(bs[i].channelName, works)]
  {
    assert bs[..i + 1][..i] == bs[..i];
  }

  /** Updating the right operand of a map union updates the union. */
  lemma UnionUpdate<K, V>(a: map<K, V>, b: map<K, V>, k: K, v: V)
    ensures a + b[k := v] == (a + b)[k := v]
  {
  }

  /** A union with an empty map on the left is the right operand. */
  lemma UnionEmpty<K, V>(e: map<K, V>, m: map<K, V>)
    requires |e| == 0
    ensures e + m == m
  {
    assert e.Keys == {};
  }

  /** The line numbers of the entries. */
  function LineNums(bs: seq<LogoEntry>): set<nat>
  {
    if |bs| == 0 then {} else LineNums(bs[..|bs| - 1]) + {bs[|bs| - 1].lineNum}
  }

  /** Each entry's line number is among them, and each of them belongs to some entry. */
  lemma {:induction false} LineNumsIff(bs: seq<LogoEntry>, n: nat) returns (i: nat)
    ensures n in LineNums(bs) ==> i < |bs| && bs[i].lineNum == n
    ensures forall j :: 0 <= j < |bs| && bs[j].lineNum == n ==> n in LineNums(bs)
  {
    i := 0;
    if |bs| > 0 {
      var init := bs[..|bs| - 1];
      i := LineNumsIff(init, n);
      if n !in LineNums(init) {
        i := |bs| - 1;
      }
      forall j | 0 <= j < |bs| && bs[j].lineNum == n ensures n in LineNums(bs) {
        if j < |init| {
          assert init[j] == bs[j];
        }
      }
    }
  }

  /** The keys added are exactly the line numbers of the broken entries. */
  lemma {:induction false} FixesKeys(bs: seq<LogoEntry>, works: string -> bool)
    requires NamesOk(bs)
    ensures Fixes(bs, works).Keys == LineNums(bs)
  {
    if |bs| > 0 {
      FixesKeys(bs[..|bs| - 1], works);
    }
  }

  /** With distinct line numbers, each broken entry's line is given that entry's alternative. */
  lemma {:induction false} FixesValue(bs: seq<LogoEntry>, works: string -> bool, i: nat)
    requires NamesOk(bs)
    requires i < |bs| && forall j :: i < j < |bs| ==> bs[j].lineNum != bs[i].lineNum
    ensures bs[i].lineNum in Fixes(bs, works)
    ensures Fixes(bs, works)[bs[i].lineNum] == Alternative(bs[i].channelName, works)
  {
    if i < |bs| - 1 {
      var init := bs[..|bs| - 1];
      assert init[i] == bs[i];
      forall j | i < j < |init| ensures init[j].lineNum != init[i].lineNum {
        assert init[j] == bs[j];
      }
      FixesValue(init, works, i);
    }
  }

  /** Selecting keeps the line order of the entries. */
  lemma {:induction false} SelectOrdered(es: seq<LogoEntry>, works: string -> bool, result: bool)
    requires InLineOrder(es)
    ensures InLineOrder(Select(es, works, result))
  {
    if |es| > 0 {
      var init := es[..|es| - 1];
      var last := es[|es| - 1];
      assert InLineOrder(init) by {
        forall i, j | 0 <= i < j < |init| ensures init[i].lineNum < init[j].lineNum {
          assert init[i] == es[i] && init[j] == es[j];
        }
      }
      SelectOrdered(init, works, result);
      var before := Select(init, works, result);
      if works(last.logoUrl) == result {
        forall i | 0 <= i < |before| ensures before[i].lineNum < last.lineNum {
          SelectIff(init, works, result, before[i]);
          var k :| 0 <= k < |init| && init[k] == before[i];
          assert es[k] == init[k];
        }
        var after := before + [last];
        forall i, j | 0 <= i < j < |after| ensures after[i].lineNum < after[j].lineNum {
          assert after[i] == before[i];
          if j < |before| {
            assert after[j] == before[j];
          }
        }
      }
    }
  }

  /**
   * The broken entries of a playlist come in line order, so each one's line is
   * given that entry's own alternative.
   */
  lemma FixesOfBroken(lines: seq<string>, works: string -> bool, i: nat)
    requires NamesOk(Select(LogoEntries(lines, |lines|), works, false))
    requires i < |Select(LogoEntries(lines, |lines|), works, false)|
    ensures var bs := Select(LogoEntries(lines, |lines|), works, false);
      && bs[i].lineNum in Fixes(bs, works)
      && Fixes(bs, works)[bs[i].lineNum] == Alternative(bs[i].channelName, works)
  {
    var bs := Select(LogoEntries(lines, |lines|), works, false);
    LogoEntriesOrdered(lines, |lines|);
    SelectOrdered(LogoEntries(lines, |lines|), works, false);
    FixesValue(bs, works, i);
  }

  /** Every line given an alternative is a line of the playlist. */
  lemma {:induction false} FixedInRange(lines: seq<string>, works: string -> bool)
    requires NamesOk(Select(LogoEntries(lines, |lines|), works, false))
    ensures forall n :: n in Fixes(Select(LogoEntries(lines, |lines|), works, false), works) ==> n < |lines|
  {
    var entries := LogoEntries(lines, |lines|);
    var bs := Select(entries, works, false);
    FixesKeys(bs, works);
    forall n | n in Fixes(bs, works) ensures n < |lines| {
      var i := LineNumsIff(bs, n);
      SelectIff(entries, works, false, bs[i]);
      LogoEntriesIff(lines, |lines|, bs[i]);
    }
  }

  // ---------------------------------------------------------------------
  // The line rewrite of `save_fixed_playlist` (line 141)

  /** `re.sub(r'tvg-logo="[^"]+"', f'tvg-logo="{url}"', line)` from position `p` on: every match, left to right. */
  function ReplaceFrom(line: string, url: string, p: nat): string
    decreases |line| - p
  {
    if p >= |line| then []
    else
      match AttrAt(line, LogoKey, p)
      case Some(v) =>
        AttrAtReads(line, LogoKey, p);
        LogoKey + "=\"" + url + "\"" + ReplaceFrom(line, url, p + |LogoKey| + 3 + |v|)
      case None => [line[p]] + ReplaceFrom(line, url, p + 1)
  }

  /**
   * Line 141. The replacement is copied literally. `re.sub` would read a
   * backslash in it as an escape, but no alternative holds one: the table URLs
   * of lines 29-40 have none, and the placeholder has none (`PlaceholderNoBackslash`).
   */
  function ReplaceLogo(line: string, url: string): string
  {
    ReplaceFrom(line, url, 0)
  }

  /** Positions where no match starts are copied. */
  lemma {:induction false} ReplaceSkip(line: string, url: string, p: nat, m: nat)
    requires p <= m <= |line|
    requires forall k: nat :: p <= k < m ==> AttrAt(line, LogoKey, k).None?
    ensures ReplaceFrom(line, url, p) == line[p..m] + ReplaceFrom(line, url, m)
    decreases m - p
  {
    if p < m {
      ReplaceSkip(line, url, p + 1, m);
      ReplaceCopies(line, url, p);
      assert line[p..m] == [line[p]] + line[p + 1..m];
      AppendAssoc([line[p]], line[p + 1..m], ReplaceFrom(line, url, m));
    }
  }

  /** Where no match starts, the character is copied. */
  lemma ReplaceCopies(line: string, url: string, p: nat)
    requires p < |line| && AttrAt(line, LogoKey, p).None?
    ensures ReplaceFrom(line, url, p) == [line[p]] + ReplaceFrom(line, url, p + 1)
  {
  }

  /** Where a match starts, `tvg-logo="url"` is written in its place. */
  lemma ReplaceWrites(line: string, url: string, m: nat) returns (rest: string)
    requires AttrAt(line, LogoKey, m).Some?
    ensures m < |line|
    ensures rest == ReplaceFrom(line, url, m + |LogoKey| + 3 + |AttrAt(line, LogoKey, m).value|)
    ensures ReplaceFrom(line, url, m) == LogoKey + "=\"" + url + "\"" + rest
  {
    AttrAtReads(line, LogoKey, m);
    rest := ReplaceFrom(line, url, m + |LogoKey| + 3 + |AttrAt(line, LogoKey, m).value|);
  }

  /** A line with no `tvg-logo` value is left as it is. */
  lemma ReplaceNoMatch(line: string, url: string)
    requires AttrValue(line, LogoKey).None?
    ensures ReplaceLogo(line, url) == line
  {
    AttrFromNone(line, LogoKey, 0);
    ReplaceSkip(line, url, 0, |line|);
  }

  /** Two strings agree on every position up to `b`. */
  predicate AgreeUpTo(s: string, t: string, b: nat)
  {
    b < |s| && b < |t| && forall i :: 0 <= i <= b ==> s[i] == t[i]
  }

  /** Two strings that agree up to a quote at `b` have the same quote-free run from any `q <= b`. */
  lemma {:induction false} QuoteFreeRunAgree(s: string, t: string, q: nat, b: nat)
    requires q <= b && AgreeUpTo(s, t, b) && s[b] == '"'
    ensures QuoteFreeRun(s, q) == QuoteFreeRun(t, q)
    decreases b - q
  {
    if q < b {
      QuoteFreeRunAgree(s, t, q + 1, b);
    }
  }

  /** Slices inside the part two strings agree on are equal. */
  lemma SliceAgree(s: string, t: string, i: nat, j: nat, b: nat)
    requires i <= j <= b + 1 && AgreeUpTo(s, t, b)
    ensures s[i..j] == t[i..j]
  {
    assert forall k :: 0 <= k < j - i ==> s[i..j][k] == s[i + k] == t[i + k] == t[i..j][k];
  }

  /** The regex reads the same at `k` in two strings that agree up to a quote that follows its opening. */
  lemma AttrAtAgree(s: string, t: string, key: string, k: nat, b: nat)
    requires k + |key| + 2 <= b && AgreeUpTo(s, t, b) && s[b] == '"'
    ensures AttrAt(s, key, k) == AttrAt(t, key, k)
  {
    var q := k + |key| + 2;
    SliceAgree(s, t, k, q, b);
    assert s[k..][..|key| + 2] == s[k..q] && t[k..][..|key| + 2] == t[k..q];
    assert OpensAt(s, key, k) <==> OpensAt(t, key, k);
    QuoteFreeRunAgree(s, t, q, b);
    var n := QuoteFreeRun(s, q);
    SliceAgree(s, t, q, q + n, b);
  }

  /**
   * After the rewrite, the `tvg-logo` value the parser reads is the new URL
   * (when that URL can stand as a value: non-empty and quote-free).
   */
  lemma ReplaceReadsBack(line: string, url: string)
    requires AttrValue(line, LogoKey).Some? && |url| > 0 && '"' !in url
    ensures AttrValue(ReplaceLogo(line, url), LogoKey) == Some(url)
  {
    var m := AttrFromSome(line, LogoKey, 0);
    AttrAtReads(line, LogoKey, m);
    ReplaceSkip(line, url, 0, m);
    var open := LogoKey + "=\"";
    var rest := ReplaceWrites(line, url, m);
    var r := ReplaceFrom(line, url, m);
    var out := ReplaceLogo(line, url);
    assert line[0..m] == line[..m];
    assert out[m..] == r;
    var b := m + |open| - 1;
    SpliceAgree(line, out, m, r, open);
    assert line[b] == '"' by {
      assert line[m..][|open| - 1] == open[|open| - 1];
    }
    forall k: nat | k < m ensures AttrAt(out, LogoKey, k).None? {
      AttrAtAgree(line, out, LogoKey, k, b);
    }
    ReadsAt(out, m, url, rest);
    AttrFromSkip(out, LogoKey, 0, m);
  }

  /** Replacing what follows `m` by text that starts with what stood there keeps the strings equal that far. */
  lemma SpliceAgree(line: string, out: string, m: nat, r: string, open: string)
    requires |open| > 0 && m <= |line| && open <= line[m..] && open <= r
    requires out == line[..m] + r
    ensures AgreeUpTo(line, out, m + |open| - 1)
  {
    forall i | 0 <= i < m + |open| ensures line[i] == out[i] {
      if i < m {
        assert out[i] == line[..m][i];
      } else {
        assert out[i] == r[i - m] == open[i - m];
        assert line[m..][i - m] == open[i - m];
      }
    }
  }

  /** A freshly written `tvg-logo="url"` at `m` is read back as `url`. */
  lemma ReadsAt(out: string, m: nat, url: string, rest: string)
    requires m <= |out| && out[m..] == LogoKey + "=\"" + url + "\"" + rest
    requires |url| > 0 && '"' !in url
    ensures AttrAt(out, LogoKey, m) == Some(url)
  {
    var open := LogoKey + "=\"";
    var s := out[m..];
    var q := m + |open|;
    assert s[..|open|] == open;
    assert OpensAt(out, LogoKey, m);
    assert out[q..q + |url|] == url by {
      forall k | 0 <= k < |url| ensures out[q + k] == url[k] {
        assert out[q + k] == s[|open| + k];
      }
    }
    assert out[q + |url|] == '"' by {
      assert out[q + |url|] == s[|open| + |url|];
    }
    UrlRun(out, q, url);
  }

  /** A quote-free `url` followed by a quote is read as one run. */
  lemma UrlRun(s: string, q: nat, url: string)
    requires q + |url| < |s| && s[q..q + |url|] == url && s[q + |url|] == '"' && '"' !in url
    ensures QuoteFreeRun(s, q) == |url|
    decreases |url|
  {
    if |url| > 0 {
      assert s[q] == url[0];
      assert s[q + 1..q + 1 + |url[1..]|] == url[1..];
      UrlRun(s, q + 1, url[1..]);
    }
  }

  /** The lines of the saved playlist: line `i` rewritten when `fixed` has an alternative for it. */
  function Rewritten(lines: seq<string>, fixed: map<nat, string>): (r: seq<string>)
    ensures |r| == |lines|
  {
    seq(|lines|, i requires 0 <= i < |lines| => if i in fixed then ReplaceLogo(lines[i], fixed[i]) else lines[i])
  }

  /** Line `i` while the lines numbered in `todo` are still to be rewritten. */
  function Patched(lines: seq<string>, fixed: map<nat, string>, todo: set<nat>, i: nat): string
    requires i < |lines|
  {
    if i in fixed && i !in todo then ReplaceLogo(lines[i], fixed[i]) else lines[i]
  }

  // ---------------------------------------------------------------------
  // The report of `generate_report` (lines 150-168)

  /** The entries listed under BROKEN LOGOS: two lines each. */
  function Listing(bs: seq<LogoEntry>): (r: seq<string>)
    ensures |r| == 2 * |bs|
  {
    if |bs| == 0 then []
    else Listing(bs[..|bs| - 1]) + ["  - " + bs[|bs| - 1].channelName, "    " + bs[|bs| - 1].logoUrl]
  }

  const TotalLabel := "Total logos checked: "

  /** The title block. */
  function Title(): seq<string>
  {
    [Repeat('=', 60), "LOGO CHECK REPORT", Repeat('=', 60)]
  }

  /** The four count lines. */
  function Counts(working: nat, broken: nat, fixed: nat): seq<string>
  {
    [TotalLabel + Decimal(working + broken),
     "Working logos: " + Decimal(working),
     "Broken logos: " + Decimal(broken),
     "Fixed logos: " + Decimal(fixed)]
  }

  /** The heading of the broken-logo listing. */
  function BrokenHeading(): seq<string>
  {
    ["\nBROKEN LOGOS:", Repeat('-', 40)]
  }

  /** The report lines for the given lists. */
  function ReportLines(working: seq<LogoEntry>, broken: seq<LogoEntry>, fixed: map<nat, string>): seq<string>
  {
    Title() + Counts(|working|, |broken|, |fixed|)
    + (if |broken| > 0 then BrokenHeading() + Listing(Take(broken, 20)) else [])
  }

  /**
   * The total line reads back as working plus broken, and at most twenty broken
   * entries are listed: the first ones, in order.
   */
  lemma ReportFacts(working: seq<LogoEntry>, broken: seq<LogoEntry>, fixed: map<nat, string>)
    ensures var r := ReportLines(working, broken, fixed);
      && TotalLabel <= r[3]
      && AllDigits(r[3][|TotalLabel|..])
      && DecimalValue(r[3][|TotalLabel|..]) == |working| + |broken|
    ensures |ReportLines(working, broken, fixed)| == 7 + (if |broken| > 0 then 2 + 2 * |Take(broken, 20)| else 0)
    ensures |Take(broken, 20)| == (if |broken| < 20 then |broken| else 20) && Take(broken, 20) <= broken
  {
    var r := ReportLines(working, broken, fixed);
    assert r[3] == Counts(|working|, |broken|, |fixed|)[0];
    assert r[3][|TotalLabel|..] == Decimal(|working| + |broken|);
    DecimalRoundTrip(|working| + |broken|);
  }

  /** Listing is entry by entry: the `i`-th entry gives lines `2i` and `2i+1`. */
  lemma {:induction false} ListingAt(bs: seq<LogoEntry>, i: nat)
    requires i < |bs|
    ensures Listing(bs)[2 * i] == "  - " + bs[i].channelName
    ensures Listing(bs)[2 * i + 1] == "    " + bs[i].logoUrl
  {
    if i < |bs| - 1 {
      ListingAt(bs[..|bs| - 1], i);
    }
  }

  /** The loop of lines 163-165: two lines appended per entry shown. */
  method AppendListing(lines: seq<string>, shown: seq<LogoEntry>) returns (out: seq<string>)
    ensures out == lines + Listing(shown)
  {
    out := lines;
    for i := 0 to |shown|
      invariant out == lines + Listing(shown[..i])
    {
      assert shown[..i + 1][..i] == shown[..i];
      out := out + ["  - " + shown[i].channelName, "    " + shown[i].logoUrl];
    }
    assert shown[..|shown|] == shown;
  }

  // ---------------------------------------------------------------------
  // The checker

  class LogoChecker {
    var working: seq<LogoEntry>
    var broken: seq<LogoEntry>
    var fixed: map<nat, string>

    /** Lines 42-44: all three start empty. */
    constructor()
      ensures working == [] && broken == [] && |fixed| == 0
    {
      working := [];
      broken := [];
      fixed := map[];
    }

    /** `parse_m3u`: the file split into lines, and the entries found in them. */
    method ParseM3u(content: string) returns (lines: seq<string>, entries: seq<LogoEntry>)
      ensures lines == Split(content, '\n')
      ensures entries == LogoEntries(lines, |lines|)
    {
      lines := Split(content, '\n');
      entries := [];
      for i := 0 to |lines|
        invariant entries == LogoEntries(lines, i)
      {
        var line := lines[i];
        if StartsWith(line, InfoTag) {
          var logoMatch := AttrValue(line, LogoKey);
          if logoMatch.Some? {
            var nameMatch := ChannelName(line);
            var channelName := if nameMatch.Some? then nameMatch.value else "Unknown";
            entries := entries + [LogoEntry(i, line, logoMatch.value, channelName)];
          }
        }
      }
    }

    /** `check_all_logos`, run one entry after the other in entry order. */
    method CheckAllLogos(entries: seq<LogoEntry>, works: string -> bool)
      modifies this
      ensures working == old(working) + Select(entries, works, true)
      ensures broken == old(broken) + Select(entries, works, false)
      ensures fixed == old(fixed)
    {
      for i := 0 to |entries|
        invariant working == old(working) + Select(entries[..i], works, true)
        invariant broken == old(broken) + Select(entries[..i], works, false)
        invariant fixed == old(fixed)
      {
        var entry := entries[i];
        assert entries[..i + 1][..i] == entries[..i];
        if works(entry.logoUrl) {
          working := working + [entry];
        } else {
          broken := broken + [entry];
        }
      }
      assert entries[..|entries|] == entries;
    }

    /** `find_alternative_logo`: the table scan of lines 64-67, then the placeholder. */
    method FindAlternativeLogo(channelName: string, works: string -> bool) returns (url: string)
      requires NameOk(channelName)
      ensures url == Alternative(channelName, works)
    {
      var channelKey := ChannelKey(channelName);
      for i := 0 to |KnownLogos|
        invariant KnownFrom(channelKey, works, 0) == KnownFrom(channelKey, works, i)
      {
        if Contains(channelKey, KnownLogos[i].key) {
          if works(KnownLogos[i].url) {
            return KnownLogos[i].url;
          }
        }
      }
      url := Placeholder(channelName);
    }

    /** `fix_broken_logos`: an alternative recorded for the line of each broken entry. */
    method FixBrokenLogos(works: string -> bool)
      requires NamesOk(broken)
      modifies this
      ensures working == old(working) && broken == old(broken)
      ensures fixed == old(fixed) + Fixes(broken, works)
    {
      for i := 0 to |broken|
        invariant working == old(working) && broken == old(broken)
        invariant NamesOk(broken[..i])
        invariant fixed == old(fixed) + Fixes(broken[..i], works)
      {
        var entry := broken[i];
        var alternative := FindAlternativeLogo(entry.channelName, works);
        FixesStep(broken, works, i);
        UnionUpdate(old(fixed), Fixes(broken[..i], works), entry.lineNum, alternative);
        fixed := fixed[entry.lineNum := alternative];
      }
      assert broken[..|broken|] == broken;
    }

    /** `save_fixed_playlist`: each line that has an alternative rewritten in place, the lines joined again. */
    method SaveFixedPlaylist(content: string) returns (saved: string)
      requires forall n :: n in fixed ==> n < |Split(content, '\n')|
      ensures saved == Join(Rewritten(Split(content, '\n'), fixed), '\n')
    {
      var lines, entries := ParseM3u(content);
      var original := lines;
      var todo := fixed.Keys;
      while todo != {}
        invariant todo <= fixed.Keys && |lines| == |original|
        invariant forall i :: 0 <= i < |lines| ==> lines[i] == Patched(original, fixed, todo, i)
        decreases |todo|
      {
        var lineNum :| lineNum in todo;
        var line := lines[lineNum];
        line := ReplaceLogo(line, fixed[lineNum]);
        lines := lines[lineNum := line];
        todo := todo - {lineNum};
      }
      assert lines == Rewritten(original, fixed);
      saved := Join(lines, '\n');
    }

    /** `generate_report`: the report lines joined with newlines. */
    method GenerateReport() returns (report: string)
      ensures report == Join(ReportLines(working, broken, fixed), '\n')
    {
      var lines := Title();
      lines := lines + Counts(|working|, |broken|, |fixed|);
      ghost var head := lines;
      if |broken| > 0 {
        lines := lines + BrokenHeading();
        lines := AppendListing(lines, Take(broken, 20));
        AppendAssoc(head, BrokenHeading(), Listing(Take(broken, 20)));
      } else {
        assert lines == head + [];
      }
      report := Join(lines, '\n');
    }
  }

  // ---------------------------------------------------------------------
  // `main` (lines 170-209)

  /**
   * A run of the script on the playlist text: parse, check every logo, and
   * unless only checking, record alternatives for the broken ones and produce
   * the rewritten playlist (only when some logo is broken). The report is the
   * one saved at the end; the timestamp line after it is left out.
   */
  method CheckAndFix(content: string, works: string -> bool, checkOnly: bool) returns (report: string, saved: Option<string>)
    requires !checkOnly ==> NamesOk(Select(LogoEntries(Split(content, '\n'), |Split(content, '\n')|), works, false))
    ensures var lines := Split(content, '\n');
      var entries := LogoEntries(lines, |lines|);
      var broken := Select(entries, works, false);
      && (saved.Some? <==> !checkOnly && |broken| > 0)
      && (saved.Some? ==> saved.value == Join(Rewritten(lines, Fixes(broken, works)), '\n'))
      && report == Join(ReportLines(Select(entries, works, true), broken,
                                    if saved.Some? then Fixes(broken, works) else map[]), '\n')
  {
    var checker := new LogoChecker();
    var lines, entries := checker.ParseM3u(content);
    checker.CheckAllLogos(entries, works);
    assert checker.broken == Select(entries, works, false);
    if !checkOnly && |checker.broken| > 0 {
      ghost var none := checker.fixed;
      checker.FixBrokenLogos(works);
      UnionEmpty(none, Fixes(checker.broken, works));
      FixedInRange(lines, works);
      var text := checker.SaveFixedPlaylist(content);
      saved := Some(text);
    } else {
      saved := None;
    }
    assert checker.working == Select(entries, works, true);
    report := checker.GenerateReport();
  }
}

=== FILE: m3u.dfy ===
/**
 * The line-level M3U layer that every playlist script repeats: the `#EXTM3U`
 * header and `#EXTINF` entry tags (RFC 8216, sections 4.3.1.1 and 4.3.2.1),
 * the pairing of an entry line with the stream line after it, and the regexes
 * `key="([^"]+)"` and `,(.+)$` written out as leftmost-match searches.
 */
module M3u {
  import opened Wrappers
  import opened Text

  const HeaderTag := "#EXTM3U"
  const InfoTag := "#EXTINF"

  /** `line.startswith('#EXTINF')` */
  predicate IsInfoLine(line: string)
  {
    StartsWith(line, InfoTag)
  }

  /** `line.startswith('http')` */
  predicate IsUrlLine(line: string)
  {
    StartsWith(line, "http")
  }

  // ---------------------------------------------------------------------
  // The attribute regex `key="([^"]+)"`

  /** Length of the run of non-quote characters that starts at `q`. */
  function QuoteFreeRun(line: string, q: nat): (n: nat)
    requires q <= |line|
    ensures q + n <= |line|
    ensures forall k :: q <= k < q + n ==> line[k] != '"'
    ensures q + n == |line| || line[q + n] == '"'
    decreases |line| - q
  {
    if q < |line| && line[q] != '"' then 1 + QuoteFreeRun(line, q + 1) else 0
  }

  /** `key="` starts at position `p`. */
  predicate OpensAt(line: string, key: string, p: nat)
  {
    p <= |line| && key + "=\"" <= line[p..]
  }

  /** The regex `key="([^"]+)"` tried at position `p` only. */
  function AttrAt(line: string, key: string, p: nat): (r: Option<string>)
    ensures r.Some? ==> |r.value| > 0 && '"' !in r.value
  {
    if OpensAt(line, key, p) then
      var q := p + |key| + 2;
      var n := QuoteFreeRun(line, q);
      if n > 0 && q + n < |line| then Some(line[q..q + n]) else None
    else None
  }

  /** A match at `p` reads `key="value"` there. */
  lemma AttrAtReads(line: string, key: string, p: nat)
    requires AttrAt(line, key, p).Some?
    ensures p <= |line| && key + "=\"" + AttrAt(line, key, p).value + "\"" <= line[p..]
  {
    var open := key + "=\"";
    var q := p + |open|;
    var n := QuoteFreeRun(line, q);
    assert line[p..][..|open|] == open;
    assert line[p..][..|open| + n + 1] == open + line[q..q + n] + "\"";
  }

  /** Leftmost match of `key="([^"]+)"` at or after position `p`. */
  function AttrFrom(line: string, key: string, p: nat): Option<string>
    decreases |line| - p
  {
    if p >= |line| then None
    else if AttrAt(line, key, p).Some? then AttrAt(line, key, p)
    else AttrFrom(line, key, p + 1)
  }

  /** When the search finds nothing, the regex matches nowhere at or after `p`. */
  lemma {:induction false} AttrFromNone(line: string, key: string, p: nat)
    requires AttrFrom(line, key, p).None?
    ensures forall m: nat :: p <= m ==> AttrAt(line, key, m).None?
    decreases |line| - p
  {
    if p < |line| {
      AttrFromNone(line, key, p + 1);
    }
  }

  /** When the search finds a value, it is the match at the first position at or after `p` where the regex matches. */
  lemma {:induction false} AttrFromSome(line: string, key: string, p: nat) returns (m: nat)
    requires AttrFrom(line, key, p).Some?
    ensures p <= m <= |line| && AttrAt(line, key, m) == AttrFrom(line, key, p)
    ensures forall k: nat :: p <= k < m ==> AttrAt(line, key, k).None?
    decreases |line| - p
  {
    assert p < |line|;
    if AttrAt(line, key, p).Some? {
      m := p;
    } else {
      assert AttrFrom(line, key, p) == AttrFrom(line, key, p + 1);
      m := AttrFromSome(line, key, p + 1);
      forall k: nat | p <= k < m ensures AttrAt(line, key, k).None? {
        if k > p {
          assert p + 1 <= k < m;
        }
      }
    }
  }

  /** Where the regex matches nowhere at or after `p`, the search finds nothing. */
  lemma {:induction false} AttrFromNoMatch(line: string, key: string, p: nat)
    requires forall m: nat :: p <= m ==> AttrAt(line, key, m).None?
    ensures AttrFrom(line, key, p).None?
    decreases |line| - p
  {
    if p < |line| {
      AttrFromNoMatch(line, key, p + 1);
    }
  }

  /** Positions where the regex does not match are passed over. */
  lemma {:induction false} AttrFromSkip(line: string, key: string, p: nat, c: nat)
    requires p <= c
    requires forall k: nat :: p <= k < c ==> AttrAt(line, key, k).None?
    ensures AttrFrom(line, key, p) == AttrFrom(line, key, c)
    decreases c - p
  {
    if p < c {
      AttrFromSkip(line, key, p + 1, c);
    }
  }

  /**
   * `re.search(r'key="([^"]+)"', line).group(1)`: the value of the first
   * occurrence of `key="…"` whose value is non-empty (Python `None` when there is none).
   */
  function AttrValue(line: string, key: string): (r: Option<string>)
  {
    AttrFrom(line, key, 0)
  }

  /** The attribute found is the first non-empty quoted value: `line` reads `key="v"` there and nowhere earlier. */
  lemma AttrValueLeftmost(line: string, key: string)
    ensures AttrValue(line, key).None? <==> forall m :: AttrAt(line, key, m).None?
    ensures AttrValue(line, key).Some? ==>
      var v := AttrValue(line, key).value;
      && |v| > 0 && '"' !in v
      && exists m ::
        && 0 <= m <= |line| && key + "=\"" + v + "\"" <= line[m..]
        && forall k :: 0 <= k < m ==> AttrAt(line, key, k).None?
  {
    if AttrValue(line, key).Some? {
      var m := AttrFromSome(line, key, 0);
      AttrAtReads(line, key, m);
    } else {
      AttrFromNone(line, key, 0);
    }
  }

  /** A line in which `key="` never occurs has no such attribute. */
  lemma {:induction false} NoAttrWithoutKey(line: string, key: string)
    requires !Contains(line, key + "=\"")
    ensures AttrValue(line, key) == None
  {
    forall m: nat | AttrAt(line, key, m).Some? ensures false {
      AttrAtOpen(line, key, m);
    }
    AttrFromNoMatch(line, key, 0);
  }

  /** A match at `p` means `key="` occurs in the line. */
  lemma AttrAtOpen(line: string, key: string, p: nat)
    requires AttrAt(line, key, p).Some?
    ensures Contains(line, key + "=\"")
  {
    ContainsAt(line, key + "=\"", p);
  }

  // ---------------------------------------------------------------------
  // The channel-name regex `,(.+)$` (no flags: `.` stops at a newline, `$`
  // matches at the end or before one final newline).

  /** `,(.+)$` tried at position `p` only. */
  function NameAt(line: string, p: nat): (r: Option<string>)
    ensures r.Some? ==> |r.value| > 0 && '\n' !in r.value
  {
    if p < |line| && line[p] == ',' then
      var rest := line[p + 1..];
      var body := if |rest| > 0 && rest[|rest| - 1] == '\n' then rest[..|rest| - 1] else rest;
      if |body| > 0 && '\n' !in body then Some(body) else None
    else None
  }

  /** Leftmost match of `,(.+)$` at or after position `p`. */
  function NameFrom(line: string, p: nat): Option<string>
    decreases |line| - p
  {
    if p >= |line| then None
    else if NameAt(line, p).Some? then NameAt(line, p)
    else NameFrom(line, p + 1)
  }

  /** When the search finds nothing, the regex matches nowhere at or after `p`. */
  lemma {:induction false} NameFromNone(line: string, p: nat)
    requires NameFrom(line, p).None?
    ensures forall m: nat :: p <= m ==> NameAt(line, m).None?
    decreases |line| - p
  {
    if p < |line| {
      NameFromNone(line, p + 1);
    }
  }

  /** When the search finds a value, it is the match at the first position at or after `p` where the regex matches. */
  lemma {:induction false} NameFromSome(line: string, p: nat) returns (m: nat)
    requires NameFrom(line, p).Some?
    ensures p <= m < |line| && NameAt(line, m) == NameFrom(line, p)
    ensures forall k: nat :: p <= k < m ==> NameAt(line, k).None?
    decreases |line| - p
  {
    assert p < |line|;
    if NameAt(line, p).Some? {
      m := p;
    } else {
      assert NameFrom(line, p) == NameFrom(line, p + 1);
      m := NameFromSome(line, p + 1);
      forall k: nat | p <= k < m ensures NameAt(line, k).None? {
        if k > p {
          assert p + 1 <= k < m;
        }
      }
    }
  }

  /** Where the regex matches nowhere at or after `p`, the search finds nothing. */
  lemma {:induction false} NameFromNoMatch(line: string, p: nat)
    requires forall m: nat :: p <= m ==> NameAt(line, m).None?
    ensures NameFrom(line, p).None?
    decreases |line| - p
  {
    if p < |line| {
      NameFromNoMatch(line, p + 1);
    }
  }

  /** Positions where the regex does not match are passed over. */
  lemma {:induction false} NameFromSkip(line: string, p: nat, c: nat)
    requires p <= c
    requires forall k: nat :: p <= k < c ==> NameAt(line, k).None?
    ensures NameFrom(line, p) == NameFrom(line, c)
    decreases c - p
  {
    if p < c {
      NameFromSkip(line, p + 1, c);
    }
  }

  /** `re.search(r',(.+)$', line).group(1)`: the channel name after the comma. */
  function ChannelName(line: string): Option<string>
  {
    NameFrom(line, 0)
  }

  /** The line without its final newline, if it has one. */
  function Chomp(line: string): string
  {
    if |line| > 0 && line[|line| - 1] == '\n' then line[..|line| - 1] else line
  }

  /**
   * On a single line the name is the text after the FIRST comma, up to the end
   * of the line; there is none when that text is empty or there is no comma.
   */
  lemma FirstCommaName(line: string, c: nat)
    requires SingleLine(line)
    requires c < |line| && line[c] == ',' && ',' !in line[..c]
    ensures ChannelName(line) == (if |Chomp(line[c + 1..])| > 0 then Some(Chomp(line[c + 1..])) else None)
  {
    forall k: nat | k < c ensures NameAt(line, k).None? {
      assert line[k] == line[..c][k];
    }
    NameFromSkip(line, 0, c);
    var rest := line[c + 1..];
    if |Chomp(rest)| > 0 {
      assert '\n' !in Chomp(rest) by {
        forall k | 0 <= k < |Chomp(rest)| ensures Chomp(rest)[k] != '\n' {
          assert Chomp(rest)[k] == line[c + 1 + k];
        }
      }
      assert NameAt(line, c) == Some(Chomp(rest));
    } else {
      assert NameAt(line, c).None?;
      forall m: nat | c < m ensures NameAt(line, m).None? {
        assert m >= |line| || line[m] == '\n';
      }
      NameFromNoMatch(line, c);
    }
  }

  /** Without a comma there is no name (the scripts then fall back to a default). */
  lemma NoCommaNoName(line: string)
    requires ',' !in line
    ensures ChannelName(line) == None
  {
    assert forall m: nat :: NameAt(line, m).None?;
    NameFromNoMatch(line, 0);
  }

  // ---------------------------------------------------------------------
  // Pairing an `#EXTINF` line with the stream line after it

  /** One playlist entry as written: the info line and the stream line after it. */
  datatype Pair = Pair(info: string, url: string)

  /** `lines[i].startswith('#EXTINF') and i+1 < len(lines) and lines[i+1].startswith('http')` */
  predicate PairsAt(lines: seq<string>, i: int)
  {
    0 <= i && i + 1 < |lines| && IsInfoLine(lines[i]) && IsUrlLine(lines[i + 1])
  }

  /** The entries the scripts' pairing loop takes from line `i` on, in line order (raw lines). */
  function PairsFrom(lines: seq<string>, i: nat): seq<Pair>
    decreases |lines| - i
  {
    if i >= |lines| then []
    else (if PairsAt(lines, i) then [Pair(lines[i], lines[i + 1])] else []) + PairsFrom(lines, i + 1)
  }

  /** All entries of a playlist, in line order. */
  function Pairs(lines: seq<string>): seq<Pair>
  {
    PairsFrom(lines, 0)
  }

  /** An entry is taken exactly where an `#EXTINF` line is followed by a line starting with `http`. */
  lemma {:induction false} PairsFromIff(lines: seq<string>, i: nat, e: Pair)
    ensures e in PairsFrom(lines, i) <==> exists j :: i <= j && PairsAt(lines, j) && e == Pair(lines[j], lines[j + 1])
    decreases |lines| - i
  {
    if i < |lines| {
      PairsFromIff(lines, i + 1, e);
      PairsStep(lines, i);
      if e in PairsFrom(lines, i) && !(PairsAt(lines, i) && e == Pair(lines[i], lines[i + 1])) {
        assert e in PairsFrom(lines, i + 1);
      }
      forall j | i <= j && PairsAt(lines, j) && e == Pair(lines[j], lines[j + 1]) ensures e in PairsFrom(lines, i) {
        if j > i {
          assert e in PairsFrom(lines, i + 1);
        }
      }
    }
  }


  lemma PairsIff(lines: seq<string>, e: Pair)
    ensures e in Pairs(lines) <==> exists j :: PairsAt(lines, j) && e == Pair(lines[j], lines[j + 1])
  {
    PairsFromIff(lines, 0, e);
  }

  /** Every entry's info line starts with `#EXTINF` and its stream line with `http`. */
  predicate WellFormed(e: Pair)
  {
    IsInfoLine(e.info) && IsUrlLine(e.url)
  }

  /** Every entry taken is an `#EXTINF` line followed by a URL line, both lines of the input. */
  lemma PairsLines(lines: seq<string>, e: Pair)
    requires e in Pairs(lines)
    ensures WellFormed(e) && e.info in lines && e.url in lines
  {
    PairsFromIff(lines, 0, e);
    var j :| 0 <= j && PairsAt(lines, j) && e == Pair(lines[j], lines[j + 1]);
  }

  /** `strip` keeps an entry well formed: neither tag starts with white space. */
  lemma StripWellFormed(e: Pair)
    requires WellFormed(e)
    ensures WellFormed(Pair(Strip(e.info), Strip(e.url)))
  {
    InfoTagNoSpace();
    StripKeepsPrefix(e.info, InfoTag);
    HttpNoSpace();
    StripKeepsPrefix(e.url, "http");
  }

  lemma InfoTagNoSpace()
    ensures NoSpace(InfoTag)
  {
    assert Visible(InfoTag);
    VisibleNoSpace(InfoTag);
  }

  lemma HttpNoSpace()
    ensures NoSpace("http")
  {
    assert Visible("http");
    VisibleNoSpace("http");
  }

  /** The lines of entries written one after the other, info line first. */
  function Render(ps: seq<Pair>): seq<string>
  {
    if |ps| == 0 then [] else [ps[0].info, ps[0].url] + Render(ps[1..])
  }

  lemma {:induction false} RenderLength(ps: seq<Pair>)
    ensures |Render(ps)| == 2 * |ps|
  {
    if |ps| > 0 { RenderLength(ps[1..]); }
  }

  lemma {:induction false} RenderAppend(xs: seq<Pair>, ys: seq<Pair>)
    ensures Render(xs + ys) == Render(xs) + Render(ys)
  {
    if |xs| > 0 {
      assert (xs + ys)[0] == xs[0];
      assert (xs + ys)[1..] == xs[1..] + ys;
      RenderAppend(xs[1..], ys);
      assert Render(xs + ys) == [xs[0].info, xs[0].url] + (Render(xs[1..]) + Render(ys));
    } else {
      assert xs + ys == ys;
    }
  }

  /** Writing one more entry appends its two lines. */
  lemma RenderSnoc(ps: seq<Pair>, k: nat)
    requires k < |ps|
    ensures Render(ps[..k + 1]) == Render(ps[..k]) + [ps[k].info, ps[k].url]
  {
    assert ps[..k + 1] == ps[..k] + [ps[k]];
    RenderAppend(ps[..k], [ps[k]]);
    assert Render([ps[k]]) == [ps[k].info, ps[k].url] + Render([]);
  }

  /** The last line written for a non-empty run of entries is the last URL. */
  lemma {:induction false} RenderLast(ps: seq<Pair>)
    requires |ps| > 0
    ensures |Render(ps)| > 0 && Render(ps)[|Render(ps)| - 1] == ps[|ps| - 1].url
  {
    RenderLength(ps);
    if |ps| > 1 {
      RenderLast(ps[1..]);
    }
  }

  lemma {:induction false} PairsShift(xs: seq<string>, ys: seq<string>, j: nat)
    ensures PairsFrom(xs + ys, |xs| + j) == PairsFrom(ys, j)
    decreases |ys| - j
  {
    if j < |ys| {
      PairsShift(xs, ys, j + 1);
      assert PairsAt(xs + ys, |xs| + j) == PairsAt(ys, j);
    }
  }

  lemma {:induction false} PairsSplitFrom(xs: seq<string>, ys: seq<string>, i: nat)
    requires i <= |xs|
    requires |xs| == 0 || !IsInfoLine(xs[|xs| - 1])
    ensures PairsFrom(xs + ys, i) == PairsFrom(xs, i) + PairsFrom(ys, 0)
    decreases |xs| - i
  {
    if i == |xs| {
      PairsShift(xs, ys, 0);
      assert PairsFrom(xs, i) == [];
      assert xs + ys == xs + ys[0..];
    } else {
      PairsSplitFrom(xs, ys, i + 1);
      PairsAtPrefix(xs, ys, i);
      PairsStep(xs + ys, i);
      PairsStep(xs, i);
      var here := if PairsAt(xs, i) then [Pair(xs[i], xs[i + 1])] else [];
      assert PairsFrom(xs + ys, i) == here + (PairsFrom(xs, i + 1) + PairsFrom(ys, 0));
    }
  }

  lemma PairsAtPrefix(xs: seq<string>, ys: seq<string>, i: nat)
    requires i < |xs|
    requires !IsInfoLine(xs[|xs| - 1])
    ensures PairsAt(xs + ys, i) == PairsAt(xs, i)
    ensures PairsAt(xs, i) ==> (xs + ys)[i] == xs[i] && (xs + ys)[i + 1] == xs[i + 1]
  {
    assert (xs + ys)[i] == xs[i];
    if i + 1 < |xs| {
      assert (xs + ys)[i + 1] == xs[i + 1];
    }
  }

  /** No entry straddles a line that is not an `#EXTINF` line: pairing splits at it. */
  lemma PairsAppend(xs: seq<string>, ys: seq<string>)
    requires |xs| == 0 || !IsInfoLine(xs[|xs| - 1])
    ensures Pairs(xs + ys) == Pairs(xs) + Pairs(ys)
  {
    PairsSplitFrom(xs, ys, 0);
  }

  /** Lines none of which is an `#EXTINF` line hold no entry. */
  lemma {:induction false} PairsNone(lines: seq<string>, i: nat)
    requires forall k :: 0 <= k < |lines| ==> !IsInfoLine(lines[k])
    ensures PairsFrom(lines, i) == []
    decreases |lines| - i
  {
    if i < |lines| { PairsNone(lines, i + 1); }
  }

  /**
   * Round trip of the format: reading back the lines of well-formed entries
   * yields exactly those entries, in order.
   */
  lemma {:induction false} PairsRender(ps: seq<Pair>)
    requires forall k :: 0 <= k < |ps| ==> WellFormed(ps[k])
    ensures Pairs(Render(ps)) == ps
  {
    if |ps| > 0 {
      var head := [ps[0].info, ps[0].url];
      assert head[1][0] == 'h';
      PairsAppend(head, Render(ps[1..]));
      PairsRender(ps[1..]);
      assert PairsFrom(head, 2) == [];
      assert PairsFrom(head, 1) == [];
      assert Pairs(head) == [ps[0]];
      assert ps == [ps[0]] + ps[1..];
    }
  }

  /** The loop invariant of the pairing loops, carried from line `i` to line `i + 1`. */
  lemma PairsAdvance(lines: seq<string>, i: nat, seen: seq<Pair>)
    requires i < |lines| && seen + PairsFrom(lines, i) == Pairs(lines)
    ensures (if PairsAt(lines, i) then seen + [Pair(lines[i], lines[i + 1])] else seen) + PairsFrom(lines, i + 1) == Pairs(lines)
  {
    PairsStep(lines, i);
    if PairsAt(lines, i) {
      assert seen + [Pair(lines[i], lines[i + 1])] + PairsFrom(lines, i + 1) == seen + ([Pair(lines[i], lines[i + 1])] + PairsFrom(lines, i + 1));
    } else {
      assert PairsFrom(lines, i) == PairsFrom(lines, i + 1);
    }
  }

  /** The pairs of a line prefix are a prefix of the pairs of all lines (pairing reads one line ahead). */
  lemma {:induction false} PairsStep(lines: seq<string>, i: nat)
    requires i < |lines|
    ensures PairsFrom(lines, i) == (if PairsAt(lines, i) then [Pair(lines[i], lines[i + 1])] else []) + PairsFrom(lines, i + 1)
  {
  }
}

=== FILE: merge.dfy ===
/**
 * merge_playlists.py: two playlists are read into URL-keyed maps, the second
 * one filtered by host and channel name, every entry is filed under one of
 * fourteen categories, and the result is written section by section.
 */
module Merge {
  import opened Wrappers
  import opened Text
  import opened M3u
  import opened Output

  /** The host whose channels are filtered by name. */
  const Ip := "23.237.104.106"

  /** The raw-file host both the EPG guide and the logos are served from. */
  const GithubRaw := "https://raw.githubusercontent.com/"

  /** The first line of the merged playlist (line 56). */
  const EpgHeader := HeaderTag + " url-tvg=\"" + GithubRaw + "acidjesuz/EPGTalk/master/guide.xml\""

  /** Channel-name tokens that admit an entry from the filtered host (lines 38-45). */
  const Popular: seq<string> := ["USA_HBO", "USA_HBO2", "USA_HBO_FAMILY", "USA_HBO_SIGNATURE", "USA_HBO_ZONE", "USA_HBO_COMEDY", "USA_CINEMAX", "USA_STARZ", "USA_STARZ_CINEMA", "USA_STARZ_COMEDY", "USA_ANIMAL_PLANET", "USA_BOOMERANG", "USA_CARTOON_NETWORK", "USA_DISCOVERY", "USA_TLC", "USA_HISTORY", "USA_TNT", "USA_TBS", "USA_USA", "USA_FOOD_NETWORK", "USA_DISNEY_JUNIOR", "USA_NICK_JR", "USA_SCIENCE", "USA_PARAMOUNT_NETWORK", "USA_TRUTV", "USA_IFC", "USA_WE_TV", "USA_OWN", "USA_LMN"]

  lemma PopularNonEmpty()
    ensures "" !in Popular
  {
  }

  /** The EPG id, logo URL and display name written for a known channel. */
  datatype Logo = Logo(tvgId: string, logo: string, name: string)

  /** The directory every logo URL of the table lies in. */
  const LogoBase := GithubRaw + "tv-logo/tv-logos/main/" + "countries/united-states/"

  /**
   * `logo_map`: the channels that are rebuilt with an id, a logo and a name.
   * It is written in three parts of ten (lines 60-69, 70-79, 80-88), which keeps
   * each fact about its keys small for the verifier.
   */
  const LogoMap: map<string, Logo> := LogosA + LogosB + LogosC

  const LogosA: map<string, Logo> := map[
    "USA_HBO" := Logo("HBO.us", LogoBase + "hbo-us.png", "HBO"),
    "USA_HBO2" := Logo("HBO2.us", LogoBase + "hbo-2-us.png", "HBO2"),
    "USA_HBO_FAMILY" := Logo("HBOFamily.us", LogoBase + "hbo-family-us.png", "HBO Family"),
    "USA_HBO_SIGNATURE" := Logo("HBOSignature.us", LogoBase + "hbo-signature-us.png", "HBO Signature"),
    "USA_HBO_ZONE" := Logo("HBOZone.us", LogoBase + "hbo-zone-us.png", "HBO Zone"),
    "USA_HBO_COMEDY" := Logo("HBOComedy.us", LogoBase + "hbo-comedy-us.png", "HBO Comedy"),
    "USA_CINEMAX" := Logo("Cinemax.us", LogoBase + "cinemax-us.png", "Cinemax"),
    "USA_STARZ" := Logo("Starz.us", LogoBase + "starz-us.png", "Starz"),
    "USA_STARZ_CINEMA" := Logo("StarzCinema.us", LogoBase + "starz-cinema-us.png", "Starz Cinema"),
    "USA_STARZ_COMEDY" := Logo("StarzComedy.us", LogoBase + "starz-comedy-us.png", "Starz Comedy")
  ]

  const LogosB: map<string, Logo> := map[
    "USA_ANIMAL_PLANET" := Logo("AnimalPlanet.us", LogoBase + "animal-planet-us.png", "Animal Planet"),
    "USA_BOOMERANG" := Logo("Boomerang.us", LogoBase + "boomerang-us.png", "Boomerang"),
    "USA_CARTOON_NETWORK" := Logo("CartoonNetwork.us", LogoBase + "cartoon-network-us.png", "Cartoon Network"),
    "USA_DISCOVERY" := Logo("DiscoveryChannel.us", LogoBase + "discovery-channel-us.png", "Discovery Channel"),
    "USA_TLC" := Logo("TLC.us", LogoBase + "tlc-us.png", "TLC"),
    "USA_HISTORY" := Logo("History.us", LogoBase + "history-us.png", "History"),
    "USA_TNT" := Logo("TNT.us", LogoBase + "tnt-us.png", "TNT"),
    "USA_TBS" := Logo("TBS.us", LogoBase + "tbs-us.png", "TBS"),
    "USA_USA" := Logo("USANetwork.us", LogoBase + "usa-network-us.png", "USA Network"),
    "USA_FOOD_NETWORK" := Logo("FoodNetwork.us", LogoBase + "food-network-us.png", "Food Network")
  ]

  const LogosC: map<string, Logo> := map[
    "USA_DISNEY_JUNIOR" := Logo("DisneyJunior.us", LogoBase + "disney-jr-us.png", "Disney Junior"),
    "USA_NICK_JR" := Logo("NickJr.us", LogoBase + "nick-jr-us.png", "Nick Jr"),
    "USA_SCIENCE" := Logo("ScienceChannel.us", LogoBase + "science-channel-us.png", "Science Channel"),
    "USA_PARAMOUNT_NETWORK" := Logo("ParamountNetwork.us", LogoBase + "paramount-network-us.png", "Paramount Network"),
    "USA_TRUTV" := Logo("truTV.us", LogoBase + "trutv-us.png", "truTV"),
    "USA_IFC" := Logo("IFC.us", LogoBase + "ifc-us.png", "IFC"),
    "USA_WE_TV" := Logo("WeTV.us", LogoBase + "we-tv-us.png", "WE tv"),
    "USA_OWN" := Logo("OWN.us", LogoBase + "own-us.png", "OWN"),
    "USA_LMN" := Logo("LifetimeMovies.us", LogoBase + "lifetime-movie-network-us.png", "Lifetime Movies")
  ]

  /** The keys of `categories`, in the order the sections are written. */
  const Categories: seq<string> := [
    "Major Networks", "News", "Sports", "Movies & Premium", "Entertainment", "Music",
    "Kids & Family", "Educational & Documentary", "Lifestyle & Women", "Shopping & Business",
    "Court & Crime", "Outdoor & Adventure", "Specialty & Others", "Canadian Content"
  ]

  const MoviesPremium := 3
  const Entertainment := 4
  const KidsFamily := 6
  const Educational := 7
  const Lifestyle := 8
  const Specialty := 12

  // ---------------------------------------------------------------------
  // Reading the two playlists (lines 12-51)

  /** The entries with both lines stripped, as the loops store them (lines 17-18, 29-30). */
  function Entries(ps: seq<Pair>): (es: seq<Pair>)
    ensures |es| == |ps|
  {
    if |ps| == 0 then [] else Entries(ps[..|ps| - 1]) + [Pair(Strip(ps[|ps| - 1].info), Strip(ps[|ps| - 1].url))]
  }

  /** A dict filled by `d[url] = info` over `es` in order. */
  function Latest(es: seq<Pair>): map<string, string>
  {
    if |es| == 0 then map[]
    else Latest(es[..|es| - 1])[es[|es| - 1].url := es[|es| - 1].info]
  }

  /** A URL is a key exactly when some entry has it, and its value is the info of the LAST such entry. */
  lemma LatestLastWins(es: seq<Pair>, u: string)
    ensures u in Latest(es) <==> exists k :: 0 <= k < |es| && es[k].url == u
    ensures u in Latest(es) ==> exists k ::
      && 0 <= k < |es| && es[k].url == u && Latest(es)[u] == es[k].info
      && forall j :: k < j < |es| ==> es[j].url != u
  {
    LatestKeys(es, u);
    if u in Latest(es) {
      var k := LatestValue(es, u);
    }
  }

  lemma {:induction false} LatestKeys(es: seq<Pair>, u: string)
    ensures u in Latest(es) <==> exists k :: 0 <= k < |es| && es[k].url == u
  {
    if |es| > 0 {
      var init := es[..|es| - 1];
      LatestKeys(init, u);
      if es[|es| - 1].url != u {
        if u in Latest(init) {
          var k :| 0 <= k < |init| && init[k].url == u;
          assert es[k] == init[k];
        }
        forall k | 0 <= k < |es| && es[k].url == u ensures u in Latest(init) {
          assert init[k] == es[k];
        }
      }
    }
  }

  lemma {:induction false} LatestValue(es: seq<Pair>, u: string) returns (k: nat)
    requires u in Latest(es)
    ensures k < |es| && es[k].url == u && Latest(es)[u] == es[k].info
    ensures forall j :: k < j < |es| ==> es[j].url != u
  {
    var init := es[..|es| - 1];
    if es[|es| - 1].url == u {
      k := |es| - 1;
    } else {
      k := LatestValue(init, u);
      assert es[k] == init[k];
      forall j | k < j < |es| ensures es[j].url != u {
        if j < |init| {
          assert es[j] == init[j];
        }
      }
    }
  }

  /** `main_channels` after the loop at lines 12-19. */
  function MainMap(lines: seq<string>): map<string, string>
  {
    Latest(Entries(Pairs(lines)))
  }

  /** The loop at lines 12-19 over the lines of the main playlist. */
  method ExtractMain(lines: seq<string>) returns (main: map<string, string>)
    ensures main == MainMap(lines)
  {
    main := map[];
    ghost var seen: seq<Pair> := [];
    for i := 0 to |lines|
      invariant seen + PairsFrom(lines, i) == Pairs(lines)
      invariant main == Latest(Entries(seen))
    {
      PairsAdvance(lines, i, seen);
      if IsInfoLine(lines[i]) && i + 1 < |lines| && IsUrlLine(lines[i + 1]) {
        var url := Strip(lines[i + 1]);
        var info := Strip(lines[i]);
        main := main[url := info];
        MainStep(lines, i, seen);
        seen := seen + [Pair(lines[i], lines[i + 1])];
      }
    }
    assert seen == Pairs(lines) by {
      assert PairsFrom(lines, |lines|) == [];
    }
  }

  /** One entry read: the dict records its stripped URL with its stripped info line. */
  lemma MainStep(lines: seq<string>, i: int, seen: seq<Pair>)
    requires PairsAt(lines, i)
    ensures Latest(Entries(seen + [Pair(lines[i], lines[i + 1])]))
      == Latest(Entries(seen))[Strip(lines[i + 1]) := Strip(lines[i])]
  {
    var e := Pair(lines[i], lines[i + 1]);
    EntriesSnoc(seen, e);
    var es := Entries(seen);
    assert (es + [Pair(Strip(e.info), Strip(e.url))])[..|es|] == es;
  }

  /** Entry `k` is entry `k` of the input with both lines stripped. */
  lemma {:induction false} EntriesAt(ps: seq<Pair>, k: nat)
    requires k < |ps|
    ensures Entries(ps)[k] == Pair(Strip(ps[k].info), Strip(ps[k].url))
  {
    if k < |ps| - 1 {
      EntriesAt(ps[..|ps| - 1], k);
    }
  }

  lemma EntriesSnoc(ps: seq<Pair>, p: Pair)
    ensures Entries(ps + [p]) == Entries(ps) + [Pair(Strip(p.info), Strip(p.url))]
  {
    assert (ps + [p])[..|ps|] == ps;
  }

  /** Hosts whose master entries are always dropped (line 32). */
  const ExcludedHosts: seq<string> := ["a1xs.vip", "nexgen.bz"]

  /** Hosts whose master entries are added without the name filter (line 49). */
  const OtherHosts: seq<string> := ["toonamiaftermath", "cvalley", "nbcu"]

  /** `'a1xs.vip' in url or 'nexgen.bz' in url` */
  predicate Excluded(url: string)
  {
    ContainsAny(url, ExcludedHosts)
  }

  /** `url.split('/')[-2]` has a piece to index: a `.m3u8` URL must hold a `/`. */
  predicate ChannelSafe(url: string)
  {
    EndsWith(url, ".m3u8") ==> '/' in url
  }

  /** Line 36: the second-to-last `/`-separated piece of a `.m3u8` URL, otherwise empty. */
  function ChannelOf(url: string): (ch: string)
    requires ChannelSafe(url)
    ensures '/' !in ch
    ensures !EndsWith(url, ".m3u8") ==> ch == ""
  {
    if EndsWith(url, ".m3u8") then
      var parts := Split(url, '/');
      parts[|parts| - 2]
    else ""
  }

  /** `any(p in channel for p in popular)` */
  predicate IsPopular(channel: string)
  {
    ContainsAny(channel, Popular)
  }

  /** `'toonamiaftermath' in url or 'cvalley' in url or 'nbcu' in url` */
  predicate OtherHost(url: string)
  {
    ContainsAny(url, OtherHosts)
  }

  /** Where the script reaches line 36, the URL can be split (otherwise `[-2]` raises `IndexError`). */
  predicate ChannelReadable(url: string)
  {
    !Excluded(url) && Contains(url, Ip) ==> ChannelSafe(url)
  }

  /** Entry `j`, if there is one, has a URL the script can split. */
  predicate EntryReadable(lines: seq<string>, j: int)
  {
    PairsAt(lines, j) ==> ChannelReadable(Strip(lines[j + 1]))
  }

  /** The script gets through the master playlist without an `IndexError`. */
  ghost predicate MasterReadable(lines: seq<string>)
  {
    forall j :: EntryReadable(lines, j)
  }

  /**
   * Whether the master entry with stripped URL `url` is added (lines 32-51).
   * A URL the script cannot split (see `ChannelReadable`) is not added here;
   * the script itself stops on it.
   */
  predicate MasterKeep(url: string, main: map<string, string>)
  {
    && !Excluded(url)
    && if Contains(url, Ip) then ChannelSafe(url) && IsPopular(ChannelOf(url)) && url !in main else OtherHost(url)
  }

  /** The dict filled by the master loop: kept entries only, a later one for the same URL overwriting. */
  function LatestKept(es: seq<Pair>, main: map<string, string>): map<string, string>
  {
    if |es| == 0 then map[]
    else
      var m := LatestKept(es[..|es| - 1], main);
      if MasterKeep(es[|es| - 1].url, main) then m[es[|es| - 1].url := es[|es| - 1].info] else m
  }

  /** A URL is added exactly when some master entry has it and passes the filter; the last one wins. */
  lemma LatestKeptLastWins(es: seq<Pair>, main: map<string, string>, u: string)
    ensures u in LatestKept(es, main) <==> exists k :: 0 <= k < |es| && es[k].url == u && MasterKeep(u, main)
    ensures u in LatestKept(es, main) ==> exists k ::
      && 0 <= k < |es| && es[k].url == u && LatestKept(es, main)[u] == es[k].info
      && forall j :: k < j < |es| ==> es[j].url != u
  {
    LatestKeptKeys(es, main, u);
    if u in LatestKept(es, main) {
      var k := LatestKeptValue(es, main, u);
    }
  }

  lemma {:induction false} LatestKeptKeys(es: seq<Pair>, main: map<string, string>, u: string)
    ensures u in LatestKept(es, main) <==> exists k :: 0 <= k < |es| && es[k].url == u && MasterKeep(u, main)
  {
    if |es| > 0 {
      var init := es[..|es| - 1];
      LatestKeptKeys(init, main, u);
      if !(es[|es| - 1].url == u && MasterKeep(u, main)) {
        if u in LatestKept(init, main) {
          var k :| 0 <= k < |init| && init[k].url == u;
          assert es[k] == init[k];
        }
        forall k | 0 <= k < |es| && es[k].url == u && MasterKeep(u, main) ensures u in LatestKept(init, main) {
          assert init[k] == es[k];
        }
      }
    }
  }

  lemma {:induction false} LatestKeptValue(es: seq<Pair>, main: map<string, string>, u: string) returns (k: nat)
    requires u in LatestKept(es, main)
    ensures k < |es| && es[k].url == u && LatestKept(es, main)[u] == es[k].info
    ensures forall j :: k < j < |es| ==> es[j].url != u
  {
    var init := es[..|es| - 1];
    if es[|es| - 1].url == u && MasterKeep(u, main) {
      k := |es| - 1;
    } else {
      // a kept URL passes the filter, so the last entry is not for `u`
      LatestKeptKeys(init, main, u);
      k := LatestKeptValue(init, main, u);
      assert es[k] == init[k];
      forall j | k < j < |es| ensures es[j].url != u {
        if j < |init| {
          assert es[j] == init[j];
        }
      }
    }
  }

  lemma ReadableAt(lines: seq<string>, j: int)
    requires MasterReadable(lines) && PairsAt(lines, j)
    ensures ChannelReadable(Strip(lines[j + 1]))
  {
    assert EntryReadable(lines, j);
  }

  /** `master_channels` after the loop at lines 24-51. */
  function MasterMap(lines: seq<string>, main: map<string, string>): map<string, string>
  {
    LatestKept(Entries(Pairs(lines)), main)
  }

  /**
   * What every added master URL satisfies: it is on neither excluded host; from
   * the filtered host only a `.m3u8` stream whose channel piece holds a popular
   * token and which the main playlist lacks; otherwise one of the three other hosts.
   */
  lemma MasterRules(es: seq<Pair>, main: map<string, string>, u: string)
    requires u in LatestKept(es, main)
    ensures forall h :: h in ExcludedHosts ==> !Contains(u, h)
    ensures Contains(u, Ip) ==> && EndsWith(u, ".m3u8") && '/' in u && u !in main
                                && exists p :: p in Popular && Contains(ChannelOf(u), p)
    ensures !Contains(u, Ip) ==> exists h :: h in OtherHosts && Contains(u, h)
  {
    LatestKeptLastWins(es, main, u);
    KeepRules(u, main);
  }

  /** The filter's decision for one URL, spelled out. */
  lemma KeepRules(u: string, main: map<string, string>)
    requires MasterKeep(u, main)
    ensures forall h :: h in ExcludedHosts ==> !Contains(u, h)
    ensures Contains(u, Ip) ==> && EndsWith(u, ".m3u8") && '/' in u && u !in main
                                && exists p :: p in Popular && Contains(ChannelOf(u), p)
    ensures !Contains(u, Ip) ==> exists h :: h in OtherHosts && Contains(u, h)
  {
    ContainsAnyIff(u, ExcludedHosts);
    ContainsAnyIff(u, OtherHosts);
    if Contains(u, Ip) {
      ContainsAnyIff(ChannelOf(u), Popular);
      PopularNonEmpty();
      NoneInEmpty(Popular);
    }
  }

  /** The three other hosts are added even when the main playlist already has the URL. */
  lemma OtherHostsSkipDuplicateCheck(es: seq<Pair>, main: map<string, string>, k: nat)
    requires k < |es| && !Excluded(es[k].url) && !Contains(es[k].url, Ip) && OtherHost(es[k].url)
    ensures es[k].url in LatestKept(es, main)
  {
    LatestKeptLastWins(es, main, es[k].url);
  }

  /** The filter at lines 32-51 for one master entry with stripped URL `url`. */
  method KeepMaster(url: string, main: map<string, string>) returns (keep: bool)
    requires ChannelReadable(url)
    ensures keep == MasterKeep(url, main)
  {
    keep := false;
    if !Excluded(url) {
      if Contains(url, Ip) {
        var channel := ChannelOf(url);
        keep := IsPopular(channel) && url !in main;
      } else {
        keep := OtherHost(url);
      }
    }
  }

  /** The loop at lines 24-51 over the lines of the master playlist. */
  method ExtractMaster(lines: seq<string>, main: map<string, string>) returns (master: map<string, string>)
    requires MasterReadable(lines)
    ensures master == MasterMap(lines, main)
  {
    master := map[];
    ghost var seen: seq<Pair> := [];
    for i := 0 to |lines|
      invariant seen + PairsFrom(lines, i) == Pairs(lines)
      invariant master == LatestKept(Entries(seen), main)
    {
      PairsAdvance(lines, i, seen);
      if IsInfoLine(lines[i]) && i + 1 < |lines| && IsUrlLine(lines[i + 1]) {
        var url := Strip(lines[i + 1]);
        var info := Strip(lines[i]);
        ReadableAt(lines, i);
        var keep := KeepMaster(url, main);
        if keep {
          master := master[url := info];
        }
        MasterStep(lines, i, seen, main);
        seen := seen + [Pair(lines[i], lines[i + 1])];
      }
    }
    assert seen == Pairs(lines) by {
      assert PairsFrom(lines, |lines|) == [];
    }
  }

  /** One entry read: the dict gains it exactly when the filter keeps it. */
  lemma MasterStep(lines: seq<string>, i: int, seen: seq<Pair>, main: map<string, string>)
    requires PairsAt(lines, i)
    ensures
      var url := Strip(lines[i + 1]);
      var m := LatestKept(Entries(seen), main);
      LatestKept(Entries(seen + [Pair(lines[i], lines[i + 1])]), main)
        == if MasterKeep(url, main) then m[url := Strip(lines[i])] else m
  {
    var e := Pair(lines[i], lines[i + 1]);
    EntriesSnoc(seen, e);
    var es := Entries(seen);
    assert (es + [Pair(Strip(e.info), Strip(e.url))])[..|es|] == es;
  }

  // ---------------------------------------------------------------------
  // Filing the entries under categories (lines 110-151)

  /** Lines 111-119: the category of a main entry, or `None` when it is dropped. */
  function MainCategory(info: string): (c: Option<nat>)
    ensures c.Some? ==> c.value < |Categories|
  {
    if Contains(info, "group-title=") then
      match AttrValue(info, "group-title")
      case Some(g) => Some(if g in Categories then IndexOf(Categories, g) else Specialty)
      case None => None
    else None
  }

  /**
   * A main entry is filed exactly when it has a non-empty `group-title`: under
   * that category when it is one of the fourteen, otherwise under 'Specialty & Others'.
   */
  lemma MainCategorySpec(info: string)
    ensures MainCategory(info).None? <==> AttrValue(info, "group-title").None?
    ensures MainCategory(info).Some? ==>
      var g := AttrValue(info, "group-title").value;
      && (g in Categories ==> Categories[MainCategory(info).value] == g)
      && (g !in Categories ==> MainCategory(info).value == Specialty)
  {
    if !Contains(info, "group-title=") {
      assert "group-title" + "=\"" == "group-title=" + "\"";
      ContainsShorter(info, "group-title=", "\"");
      NoAttrWithoutKey(info, "group-title");
    }
  }

  const PremiumTokens: seq<string> := ["HBO", "STARZ", "CINEMAX"]
  const DocumentaryTokens: seq<string> := ["DISCOVERY", "ANIMAL", "SCIENCE", "HISTORY"]
  const KidsTokens: seq<string> := ["CARTOON", "BOOMERANG", "DISNEY", "NICK"]
  const EntertainmentTokens: seq<string> := ["TNT", "TBS", "USA", "IFC", "PARAMOUNT", "TRUTV"]
  const FoodTokens: seq<string> := ["FOOD"]
  const WomenTokens: seq<string> := ["WE_TV", "OWN", "LMN"]

  /** Lines 132-145: the first token list that matches the channel decides its category. */
  function ChainCategory(channel: string): (c: nat)
    ensures c < |Categories|
  {
    if ContainsAny(channel, PremiumTokens) then MoviesPremium
    else if ContainsAny(channel, DocumentaryTokens) then Educational
    else if ContainsAny(channel, KidsTokens) then KidsFamily
    else if ContainsAny(channel, EntertainmentTokens) then Entertainment
    else if ContainsAny(channel, FoodTokens) then Lifestyle
    else if ContainsAny(channel, WomenTokens) then Lifestyle
    else Specialty
  }

  /** Every channel the table knows is named `USA_…`. */
  lemma LogoKeysAreUsa(channel: string)
    requires channel in LogoMap
    ensures "USA_" <= channel
  {
    if channel in LogosA {
      LogosAKeys(channel);
    } else if channel in LogosB {
      LogosBKeys(channel);
    } else {
      LogosCKeys(channel);
    }
  }

  lemma LogosAKeys(channel: string)
    requires channel in LogosA
    ensures "USA_" <= channel
  {
  }

  lemma LogosBKeys(channel: string)
    requires channel in LogosB
    ensures "USA_" <= channel
  {
  }

  lemma LogosCKeys(channel: string)
    requires channel in LogosC
    ensures "USA_" <= channel
  {
  }

  /**
   * A channel name holding `USA` stops at the fourth test at the latest, so the
   * two 'Lifestyle & Women' branches and the final else are never taken for a
   * channel of the table.
   */
  lemma ChainStopsAtUsa(channel: string)
    requires Contains(channel, "USA")
    ensures ChainCategory(channel) in {MoviesPremium, Educational, KidsFamily, Entertainment}
  {
    ContainsAnyIff(channel, EntertainmentTokens);
    assert "USA" in EntertainmentTokens;
  }

  lemma TableNeverLifestyle(channel: string)
    requires channel in LogoMap
    ensures ChainCategory(channel) != Lifestyle && ChainCategory(channel) != Specialty
  {
    LogoKeysAreUsa(channel);
    ContainsAt(channel, "USA", 0);
    ChainStopsAtUsa(channel);
  }

  /** A `USA` channel that lacks a character of every earlier token is filed under 'Entertainment'. */
  lemma ChainEntertainment(channel: string, premium: string, documentary: string, kids: string)
    requires "USA" <= channel
    requires |premium| == |PremiumTokens| && |documentary| == |DocumentaryTokens| && |kids| == |KidsTokens|
    requires forall i :: 0 <= i < |premium| ==> premium[i] in PremiumTokens[i] && premium[i] !in channel
    requires forall i :: 0 <= i < |documentary| ==> documentary[i] in DocumentaryTokens[i] && documentary[i] !in channel
    requires forall i :: 0 <= i < |kids| ==> kids[i] in KidsTokens[i] && kids[i] !in channel
    ensures ChainCategory(channel) == Entertainment
  {
    MissingCharsNotAny(channel, PremiumTokens, premium);
    MissingCharsNotAny(channel, DocumentaryTokens, documentary);
    MissingCharsNotAny(channel, KidsTokens, kids);
    ContainsAt(channel, "USA", 0);
    ChainStopsAtUsa(channel);
  }

  /** The four channels the Lifestyle tokens were written for are filed under 'Entertainment'. */
  lemma LifestyleChannelsAreEntertainment(channel: string)
    requires channel in ["USA_FOOD_NETWORK", "USA_WE_TV", "USA_OWN", "USA_LMN"]
    ensures ChainCategory(channel) == Entertainment
  {
    if channel == "USA_FOOD_NETWORK" {
      FoodChain();
    } else if channel == "USA_WE_TV" {
      WeTvChain();
    } else {
      OwnLmnChain(channel);
    }
  }

  lemma FoodChain()
    ensures ChainCategory("USA_FOOD_NETWORK") == Entertainment
  {
    ChainEntertainment("USA_FOOD_NETWORK", "HZC", "IIIH", "CBII");
  }

  lemma WeTvChain()
    ensures ChainCategory("USA_WE_TV") == Entertainment
  {
    ChainEntertainment("USA_WE_TV", "HZC", "DNCH", "CBDN");
  }

  lemma OwnLmnChain(channel: string)
    requires channel == "USA_OWN" || channel == "USA_LMN"
    ensures ChainCategory(channel) == Entertainment
  {
    ChainEntertainment(channel, "HTC", "DICH", "CBDI");
  }

  const NewInfoPrefix := InfoTag + ":-1 tvg-id=\""

  /** Line 147: the info line written for a channel of the table. */
  function NewInfo(logo: Logo, cat: nat): string
    requires cat < |Categories|
  {
    NewInfoPrefix + logo.tvgId + "\" tvg-logo=\"" + logo.logo + "\" group-title=\"" + Categories[cat] + "\",USA " + logo.name
  }

  /** Where an entry goes: its category and the pair written for it. */
  datatype Filing = Filing(cat: nat, entry: Pair)

  /** Lines 110-119 for one main entry: filed unchanged, or dropped. */
  function MainFiling(url: string, info: string): (f: Option<Filing>)
    ensures f.Some? ==> f.value.cat < |Categories| && f.value.entry == Pair(info, url)
    ensures f.Some? <==> MainCategory(info).Some?
  {
    match MainCategory(info)
    case Some(c) => Some(Filing(c, Pair(info, url)))
    case None => None
  }

  /**
   * Lines 122-151 for one master entry. A channel of the table on the filtered
   * host is rebuilt and filed by the chain, any other channel of that host is
   * dropped, and an entry from another host goes to 'Specialty & Others'
   * unchanged. A URL of the filtered host that cannot be split is never a key
   * of the master dict (see `MasterKeep`); it is dropped here as well.
   */
  function MasterFiling(url: string, info: string): (f: Option<Filing>)
    ensures f.Some? ==> f.value.cat < |Categories| && f.value.entry.url == url
  {
    if Contains(url, Ip) then
      if ChannelSafe(url) && ChannelOf(url) in LogoMap then
        var channel := ChannelOf(url);
        var cat := ChainCategory(channel);
        Some(Filing(cat, Pair(NewInfo(LogoMap[channel], cat), url)))
      else None
    else Some(Filing(Specialty, Pair(info, url)))
  }

  /** Where the entry for `url` in dict `m` goes, by the rules of the loop it is read in. */
  function Placement(url: string, m: map<string, string>, fromMaster: bool): (f: Option<Filing>)
    ensures f.Some? ==> f.value.cat < |Categories| && f.value.entry.url == url && url in m
  {
    if url !in m then None
    else if fromMaster then MasterFiling(url, m[url])
    else MainFiling(url, m[url])
  }

  /** Where the entries of `urls` in dict `m` go, in order. */
  function Placements(urls: seq<string>, m: map<string, string>, fromMaster: bool): (fs: seq<Option<Filing>>)
    ensures |fs| == |urls|
  {
    if |urls| == 0 then [] else Placements(urls[..|urls| - 1], m, fromMaster) + [Placement(urls[|urls| - 1], m, fromMaster)]
  }

  lemma {:induction false} PlacementsAt(urls: seq<string>, m: map<string, string>, fromMaster: bool, k: nat)
    requires k < |urls|
    ensures Placements(urls, m, fromMaster)[k] == Placement(urls[k], m, fromMaster)
  {
    if k < |urls| - 1 {
      PlacementsAt(urls[..|urls| - 1], m, fromMaster, k);
    }
  }

  lemma PlacementsStep(urls: seq<string>, i: nat, m: map<string, string>, fromMaster: bool)
    requires i < |urls|
    ensures Placements(urls[..i + 1], m, fromMaster) == Placements(urls[..i], m, fromMaster) + [Placement(urls[i], m, fromMaster)]
  {
    assert urls[..i + 1][..i] == urls[..i];
  }

  /** `categories` as declared at lines 92-107: fourteen empty lists. */
  const EmptySections: seq<seq<Pair>> := [[], [], [], [], [], [], [], [], [], [], [], [], [], []]

  /** One placement carried out: the entry is appended to the list of its category (every placement names one of the fourteen). */
  function File(cats: seq<seq<Pair>>, f: Option<Filing>): (r: seq<seq<Pair>>)
    ensures |r| == |cats|
  {
    match f
    case Some(g) => if g.cat < |cats| then cats[g.cat := cats[g.cat] + [g.entry]] else cats
    case None => cats
  }

  /** The lists after the placements `fs` are carried out in order (the loops at lines 110 and 122). */
  function FileAll(start: seq<seq<Pair>>, fs: seq<Option<Filing>>): (r: seq<seq<Pair>>)
    ensures |r| == |start|
  {
    if |fs| == 0 then start else File(FileAll(start, fs[..|fs| - 1]), fs[|fs| - 1])
  }

  lemma FileAllSnoc(start: seq<seq<Pair>>, fs: seq<Option<Filing>>, f: Option<Filing>)
    ensures FileAll(start, fs + [f]) == File(FileAll(start, fs), f)
  {
    assert (fs + [f])[..|fs|] == fs;
  }

  /** Reference definition: the entries of the placements `fs`, in order, that go under category `c`. */
  function Filed(fs: seq<Option<Filing>>, c: nat): seq<Pair>
  {
    if |fs| == 0 then []
    else
      var f := fs[|fs| - 1];
      Filed(fs[..|fs| - 1], c) + (if f.Some? && f.value.cat == c then [f.value.entry] else [])
  }

  /** The list of category `c` after a loop is what it held before, followed by the entries placed under `c`. */
  lemma {:induction false} FileAllAt(start: seq<seq<Pair>>, fs: seq<Option<Filing>>, c: nat)
    requires c < |start|
    ensures FileAll(start, fs)[c] == start[c] + Filed(fs, c)
  {
    if |fs| > 0 {
      var init := fs[..|fs| - 1];
      FileAllAt(start, init, c);
      var f := fs[|fs| - 1];
      var tail := if f.Some? && f.value.cat == c then [f.value.entry] else [];
      assert FileAll(start, fs)[c] == FileAll(start, init)[c] + tail;
      assert start[c] + Filed(init, c) + tail == start[c] + (Filed(init, c) + tail);
    }
  }

  /** An entry is under `c` exactly when some placement puts it there. */
  lemma {:induction false} FiledIff(fs: seq<Option<Filing>>, c: nat, e: Pair)
    ensures e in Filed(fs, c) <==> exists k :: 0 <= k < |fs| && fs[k] == Some(Filing(c, e))
  {
    if |fs| > 0 {
      var init := fs[..|fs| - 1];
      FiledIff(init, c, e);
      if e in Filed(init, c) {
        var k :| 0 <= k < |init| && init[k] == Some(Filing(c, e));
        assert fs[k] == init[k];
      }
      forall k | 0 <= k < |fs| && fs[k] == Some(Filing(c, e)) ensures e in Filed(fs, c) {
        if k < |init| {
          assert fs[k] == init[k];
        }
      }
    }
  }

  /** Entries in strictly increasing URL order. */
  predicate SortedByUrl(ps: seq<Pair>)
  {
    forall i, j :: 0 <= i < j < |ps| ==> Below(ps[i].url, ps[j].url)
  }

  /** Placements whose entries come in strictly increasing URL order. */
  predicate InUrlOrder(fs: seq<Option<Filing>>)
  {
    forall i, j :: 0 <= i < j < |fs| && fs[i].Some? && fs[j].Some? ==> Below(fs[i].value.entry.url, fs[j].value.entry.url)
  }

  /** Keeping the entries of one category keeps their URL order. */
  lemma {:induction false} FiledSorted(fs: seq<Option<Filing>>, c: nat)
    requires InUrlOrder(fs)
    ensures SortedByUrl(Filed(fs, c))
  {
    if |fs| > 0 {
      var init := fs[..|fs| - 1];
      var f := fs[|fs| - 1];
      assert InUrlOrder(init) by {
        forall i, j | 0 <= i < j < |init| && init[i].Some? && init[j].Some?
          ensures Below(init[i].value.entry.url, init[j].value.entry.url)
        {
          assert init[i] == fs[i] && init[j] == fs[j];
        }
      }
      FiledSorted(init, c);
      var before := Filed(init, c);
      if f.Some? && f.value.cat == c {
        forall i | 0 <= i < |before| ensures Below(before[i].url, f.value.entry.url) {
          FiledIff(init, c, before[i]);
          var k :| 0 <= k < |init| && init[k] == Some(Filing(c, before[i]));
          assert fs[k] == init[k];
        }
        var after := before + [f.value.entry];
        forall i, j | 0 <= i < j < |after| ensures Below(after[i].url, after[j].url) {
          assert after[i] == before[i];
          if j < |before| {
            assert after[j] == before[j];
          }
        }
      }
    }
  }

  /** Placements read off sorted URLs come in URL order. */
  lemma PlacementsInOrder(urls: seq<string>, m: map<string, string>, fromMaster: bool)
    requires StrictlySorted(urls)
    ensures InUrlOrder(Placements(urls, m, fromMaster))
  {
    var fs := Placements(urls, m, fromMaster);
    forall i, j | 0 <= i < j < |fs| && fs[i].Some? && fs[j].Some?
      ensures Below(fs[i].value.entry.url, fs[j].value.entry.url)
    {
      PlacementsAt(urls, m, fromMaster, i);
      PlacementsAt(urls, m, fromMaster, j);
    }
  }

  /** Every URL of the filtered host in `m` can be split (line 125 relies on it). */
  predicate Splittable(m: map<string, string>)
  {
    forall u :: u in m && Contains(u, Ip) ==> ChannelSafe(u)
  }

  /** The master dict satisfies what the categorisation loop relies on. */
  lemma MasterMapSplittable(lines: seq<string>, main: map<string, string>)
    ensures Splittable(MasterMap(lines, main))
  {
    var m := MasterMap(lines, main);
    forall u | u in m && Contains(u, Ip) ensures ChannelSafe(u) {
      LatestKeptKeys(Entries(Pairs(lines)), main, u);
    }
  }

  /** The fourteen lists after both loops at lines 110-151. */
  ghost function Sections(main: map<string, string>, master: map<string, string>): (cats: seq<seq<Pair>>)
    ensures |cats| == |Categories|
  {
    FileAll(FileAll(EmptySections, Placements(SortedList(main.Keys), main, false)), Placements(SortedList(master.Keys), master, true))
  }

  /** Each list holds the main entries filed under it and then the master entries filed under it. */
  lemma SectionsAt(main: map<string, string>, master: map<string, string>, c: nat)
    requires c < |Categories|
    ensures Sections(main, master)[c]
      == Filed(Placements(SortedList(main.Keys), main, false), c) + Filed(Placements(SortedList(master.Keys), master, true), c)
  {
    EmptySectionsEmpty(c);
    TwoLoopsAt(EmptySections, Placements(SortedList(main.Keys), main, false), Placements(SortedList(master.Keys), master, true), c);
  }

  lemma EmptySectionsEmpty(c: nat)
    requires c < |EmptySections|
    ensures |EmptySections[c]| == 0
  {
  }

  lemma TwoLoopsAt(start: seq<seq<Pair>>, fs: seq<Option<Filing>>, gs: seq<Option<Filing>>, c: nat)
    requires c < |start| && |start[c]| == 0
    ensures FileAll(FileAll(start, fs), gs)[c] == Filed(fs, c) + Filed(gs, c)
  {
    FileAllAt(start, fs, c);
    FileAllAt(FileAll(start, fs), gs, c);
    assert start[c] + Filed(fs, c) == Filed(fs, c);
  }

  /** Within each list, the main entries come in URL order, and so do the master entries. */
  lemma SectionsSorted(main: map<string, string>, master: map<string, string>, c: nat)
    ensures SortedByUrl(Filed(Placements(SortedList(main.Keys), main, false), c))
    ensures SortedByUrl(Filed(Placements(SortedList(master.Keys), master, true), c))
  {
    PlacementsInOrder(SortedList(main.Keys), main, false);
    PlacementsInOrder(SortedList(master.Keys), master, true);
    FiledSorted(Placements(SortedList(main.Keys), main, false), c);
    FiledSorted(Placements(SortedList(master.Keys), master, true), c);
  }

  /** From one dict, an entry is filed under `c` exactly when its URL is a key whose filing puts it there. */
  lemma PlacedIff(m: map<string, string>, fromMaster: bool, c: nat, e: Pair)
    ensures e in Filed(Placements(SortedList(m.Keys), m, fromMaster), c)
      <==> e.url in m && Placement(e.url, m, fromMaster) == Some(Filing(c, e))
  {
    var urls := SortedList(m.Keys);
    var fs := Placements(urls, m, fromMaster);
    FiledIff(fs, c, e);
    if e in Filed(fs, c) {
      var k :| 0 <= k < |fs| && fs[k] == Some(Filing(c, e));
      PlacementsAt(urls, m, fromMaster, k);
    }
    if e.url in m && Placement(e.url, m, fromMaster) == Some(Filing(c, e)) {
      assert e.url in Elems(urls);
      var k :| 0 <= k < |urls| && urls[k] == e.url;
      PlacementsAt(urls, m, fromMaster, k);
    }
  }

  /**
   * An entry is in the list of category `c` exactly when the main dict files it
   * there (unchanged, under its own `group-title`) or the master dict does
   * (rebuilt from the table, or unchanged under 'Specialty & Others').
   */
  lemma SectionMember(main: map<string, string>, master: map<string, string>, c: nat, e: Pair)
    requires c < |Categories|
    ensures e in Sections(main, master)[c] <==>
      || (e.url in main && MainFiling(e.url, main[e.url]) == Some(Filing(c, e)))
      || (e.url in master && MasterFiling(e.url, master[e.url]) == Some(Filing(c, e)))
  {
    SectionsAt(main, master, c);
    PlacedIff(main, false, c, e);
    PlacedIff(master, true, c, e);
  }

  /** Lines 112-119: one main entry appended to the list of its category, if it has one. */
  method FileMain(cats: seq<seq<Pair>>, url: string, info: string) returns (r: seq<seq<Pair>>)
    requires |cats| == |Categories|
    ensures r == File(cats, MainFiling(url, info))
  {
    r := cats;
    if Contains(info, "group-title=") {
      match AttrValue(info, "group-title")
      case Some(category) =>
        if category in Categories {
          var c := IndexOf(Categories, category);
          r := cats[c := cats[c] + [Pair(info, url)]];
        } else {
          r := cats[Specialty := cats[Specialty] + [Pair(info, url)]];
        }
      case None =>
    }
  }

  /** Lines 123-151: one master entry rebuilt and appended, appended unchanged, or dropped. */
  method FileMaster(cats: seq<seq<Pair>>, url: string, info: string) returns (r: seq<seq<Pair>>)
    requires |cats| == |Categories|
    requires Contains(url, Ip) ==> ChannelSafe(url)
    ensures r == File(cats, MasterFiling(url, info))
  {
    r := cats;
    if Contains(url, Ip) {
      var channel := ChannelOf(url);
      if channel in LogoMap {
        var logo := LogoMap[channel];
        var category := ChainCategory(channel);
        r := cats[category := cats[category] + [Pair(NewInfo(logo, category), url)]];
      }
    } else {
      r := cats[Specialty := cats[Specialty] + [Pair(info, url)]];
    }
  }

  /** The loop at lines 110-119 over the main dict, or the one at lines 122-151 over the master dict, in URL order. */
  method FileEntries(start: seq<seq<Pair>>, m: map<string, string>, fromMaster: bool) returns (cats: seq<seq<Pair>>)
    requires |start| == |Categories|
    requires fromMaster ==> Splittable(m)
    ensures cats == FileAll(start, Placements(SortedList(m.Keys), m, fromMaster))
  {
    cats := start;
    var urls := Sorted(m.Keys);
    for i := 0 to |urls|
      invariant cats == FileAll(start, Placements(urls[..i], m, fromMaster))
    {
      var url := urls[i];
      assert url in Elems(urls);
      PlacementsStep(urls, i, m, fromMaster);
      FileAllSnoc(start, Placements(urls[..i], m, fromMaster), Placement(url, m, fromMaster));
      if fromMaster {
        cats := FileMaster(cats, url, m[url]);
      } else {
        cats := FileMain(cats, url, m[url]);
      }
    }
    assert urls[..|urls|] == urls;
  }

  /** Lines 92-151: the fourteen lists, filled from the main dict and then from the master dict. */
  method Categorize(main: map<string, string>, master: map<string, string>) returns (cats: seq<seq<Pair>>)
    requires Splittable(master)
    ensures cats == Sections(main, master)
  {
    cats := FileEntries(EmptySections, main, false);
    cats := FileEntries(cats, master, true);
  }

  // ---------------------------------------------------------------------
  // Every entry filed is an `#EXTINF` line followed by a URL line

  /** Every key of `m` is a URL line and its value an `#EXTINF` line. */
  predicate MapWellFormed(m: map<string, string>)
  {
    forall u :: u in m ==> WellFormed(Pair(m[u], u))
  }

  /** The `k`-th stripped entry read from `lines` is well formed. */
  lemma EntriesWellFormed(lines: seq<string>, k: nat)
    requires k < |Pairs(lines)|
    ensures WellFormed(Entries(Pairs(lines))[k])
  {
    var ps := Pairs(lines);
    EntriesAt(ps, k);
    PairsLines(lines, ps[k]);
    StripWellFormed(ps[k]);
  }

  /** The main dict maps URL lines to `#EXTINF` lines. */
  lemma MainMapWellFormed(lines: seq<string>)
    ensures MapWellFormed(MainMap(lines))
  {
    var es := Entries(Pairs(lines));
    forall u | u in MainMap(lines) ensures WellFormed(Pair(MainMap(lines)[u], u)) {
      var k := LatestValue(es, u);
      EntriesWellFormed(lines, k);
    }
  }

  /** The master dict maps URL lines to `#EXTINF` lines. */
  lemma MasterMapWellFormed(lines: seq<string>, main: map<string, string>)
    ensures MapWellFormed(MasterMap(lines, main))
  {
    var es := Entries(Pairs(lines));
    forall u | u in MasterMap(lines, main) ensures WellFormed(Pair(MasterMap(lines, main)[u], u)) {
      var k := LatestKeptValue(es, main, u);
      EntriesWellFormed(lines, k);
    }
  }

  /** A master entry filed from a well-formed entry is well formed: a rebuilt info line starts `#EXTINF` too. */
  lemma MasterFilingWellFormed(url: string, info: string)
    requires WellFormed(Pair(info, url))
    ensures MasterFiling(url, info).Some? ==> WellFormed(MasterFiling(url, info).value.entry)
  {
    if Contains(url, Ip) && ChannelSafe(url) && ChannelOf(url) in LogoMap {
      var channel := ChannelOf(url);
      var logo, cat := LogoMap[channel], ChainCategory(channel);
      AppendAssoc(InfoTag, ":-1 tvg-id=\"", logo.tvgId + "\" tvg-logo=\"" + logo.logo + "\" group-title=\"" + Categories[cat] + "\",USA " + logo.name);
    }
  }

  /** Filing well-formed dicts gives well-formed lists only. */
  lemma SectionsWellFormed(main: map<string, string>, master: map<string, string>)
    requires MapWellFormed(main) && MapWellFormed(master)
    ensures AllWellFormed(Sections(main, master))
  {
    var cats := Sections(main, master);
    forall c | 0 <= c < |cats| ensures RunWellFormed(cats[c]) {
      forall k | 0 <= k < |cats[c]| ensures WellFormed(cats[c][k]) {
        var e := cats[c][k];
        SectionMember(main, master, c, e);
        if e.url in master && MasterFiling(e.url, master[e.url]) == Some(Filing(c, e)) {
          MasterFilingWellFormed(e.url, master[e.url]);
        }
      }
    }
  }

  // ---------------------------------------------------------------------
  // No line filed holds a newline

  /** Every key and every value of `m` is a line without a newline. */
  predicate MapNoNewline(m: map<string, string>)
  {
    forall u :: u in m ==> NoNewline(u) && NoNewline(m[u])
  }

  /** No category name holds a newline. */
  lemma CategoriesNoNewline()
    ensures forall c :: 0 <= c < |Categories| ==> NoNewline(Categories[c])
  {
    forall c | 0 <= c < |Categories| ensures NoNewline(Categories[c]) {
      if c < 7 {
        FirstCategoriesNoNewline(c);
      } else {
        LastCategoriesNoNewline(c);
      }
    }
  }

  lemma FirstCategoriesNoNewline(c: nat)
    requires c < 7
    ensures NoNewline(Categories[c])
  {
  }

  lemma LastCategoriesNoNewline(c: nat)
    requires 7 <= c < |Categories|
    ensures NoNewline(Categories[c])
  {
  }

  /** No id, logo URL or name of the table holds a newline. */
  lemma LogoNoNewline(channel: string)
    requires channel in LogoMap
    ensures LogoNoNewlines(LogoMap[channel])
  {
    if channel in LogosC {
      LogosCNoNewline(channel);
    } else if channel in LogosB {
      LogosBNoNewline(channel);
    } else {
      LogosANoNewline(channel);
    }
  }

  /** The directory of the logos holds no newline. */
  lemma LogoBaseNoNewline()
    ensures NoNewline(LogoBase)
  {
  }

  /** Each field of a table entry is a line without a newline. */
  predicate LogoNoNewlines(logo: Logo)
  {
    NoNewline(logo.tvgId) && NoNewline(logo.logo) && NoNewline(logo.name)
  }

  lemma LogosANoNewline(channel: string)
    requires channel in LogosA
    ensures LogoNoNewlines(LogosA[channel])
  {
    if channel == "USA_HBO" {
      HboNoNewline();
    } else if channel == "USA_HBO2" {
      Hbo2NoNewline();
    } else if channel == "USA_HBO_FAMILY" {
      HboFamilyNoNewline();
    } else if channel == "USA_HBO_SIGNATURE" {
      HboSignatureNoNewline();
    } else if channel == "USA_HBO_ZONE" {
      HboZoneNoNewline();
    } else if channel == "USA_HBO_COMEDY" {
      HboComedyNoNewline();
    } else if channel == "USA_CINEMAX" {
      CinemaxNoNewline();
    } else if channel == "USA_STARZ" {
      StarzNoNewline();
    } else if channel == "USA_STARZ_CINEMA" {
      StarzCinemaNoNewline();
    } else {
      StarzComedyNoNewline();
    }
  }

  lemma HboNoNewline()
    ensures LogoNoNewlines(LogosA["USA_HBO"])
  {
    LogoBaseNoNewline();
  }

  lemma Hbo2NoNewline()
    ensures LogoNoNewlines(LogosA["USA_HBO2"])
  {
    LogoBaseNoNewline();
  }

  lemma HboFamilyNoNewline()
    ensures LogoNoNewlines(LogosA["USA_HBO_FAMILY"])
  {
    LogoBaseNoNewline();
  }

  lemma HboSignatureNoNewline()
    ensures LogoNoNewlines(LogosA["USA_HBO_SIGNATURE"])
  {
    LogoBaseNoNewline();
  }

  lemma HboZoneNoNewline()
    ensures LogoNoNewlines(LogosA["USA_HBO_ZONE"])
  {
    LogoBaseNoNewline();
  }

  lemma HboComedyNoNewline()
    ensures LogoNoNewlines(LogosA["USA_HBO_COMEDY"])
  {
    LogoBaseNoNewline();
  }

  lemma CinemaxNoNewline()
    ensures LogoNoNewlines(LogosA["USA_CINEMAX"])
  {
    LogoBaseNoNewline();
  }

  lemma StarzNoNewline()
    ensures LogoNoNewlines(LogosA["USA_STARZ"])
  {
    LogoBaseNoNewline();
  }

  lemma StarzCinemaNoNewline()
    ensures LogoNoNewlines(LogosA["USA_STARZ_CINEMA"])
  {
    LogoBaseNoNewline();
  }

  lemma StarzComedyNoNewline()
    ensures LogoNoNewlines(LogosA["USA_STARZ_COMEDY"])
  {
    LogoBaseNoNewline();
  }

  lemma LogosBNoNewline(channel: string)
    requires channel in LogosB
    ensures LogoNoNewlines(LogosB[channel])
  {
    if channel == "USA_ANIMAL_PLANET" {
      AnimalPlanetNoNewline();
    } else if channel == "USA_BOOMERANG" {
      BoomerangNoNewline();
    } else if channel == "USA_CARTOON_NETWORK" {
      CartoonNetworkNoNewline();
    } else if channel == "USA_DISCOVERY" {
      DiscoveryNoNewline();
    } else if channel == "USA_TLC" {
      TlcNoNewline();
    } else if channel == "USA_HISTORY" {
      HistoryNoNewline();
    } else if channel == "USA_TNT" {
      TntNoNewline();
    } else if channel == "USA_TBS" {
      TbsNoNewline();
    } else if channel == "USA_USA" {
      UsaNoNewline();
    } else {
      FoodNetworkNoNewline();
    }
  }

  lemma AnimalPlanetNoNewline()
    ensures LogoNoNewlines(LogosB["USA_ANIMAL_PLANET"])
  {
    LogoBaseNoNewline();
  }

  lemma BoomerangNoNewline()
    ensures LogoNoNewlines(LogosB["USA_BOOMERANG"])
  {
    LogoBaseNoNewline();
  }

  lemma CartoonNetworkNoNewline()
    ensures LogoNoNewlines(LogosB["USA_CARTOON_NETWORK"])
  {
    LogoBaseNoNewline();
  }

  lemma DiscoveryNoNewline()
    ensures LogoNoNewlines(LogosB["USA_DISCOVERY"])
  {
    LogoBaseNoNewline();
  }

  lemma TlcNoNewline()
    ensures LogoNoNewlines(LogosB["USA_TLC"])
  {
    LogoBaseNoNewline();
  }

  lemma HistoryNoNewline()
    ensures LogoNoNewlines(LogosB["USA_HISTORY"])
  {
    LogoBaseNoNewline();
  }

  lemma TntNoNewline()
    ensures LogoNoNewlines(LogosB["USA_TNT"])
  {
    LogoBaseNoNewline();
  }

  lemma TbsNoNewline()
    ensures LogoNoNewlines(LogosB["USA_TBS"])
  {
    LogoBaseNoNewline();
  }

  lemma UsaNoNewline()
    ensures LogoNoNewlines(LogosB["USA_USA"])
  {
    LogoBaseNoNewline();
  }

  lemma FoodNetworkNoNewline()
    ensures LogoNoNewlines(LogosB["USA_FOOD_NETWORK"])
  {
    LogoBaseNoNewline();
  }

  lemma LogosCNoNewline(channel: string)
    requires channel in LogosC
    ensures LogoNoNewlines(LogosC[channel])
  {
    if channel == "USA_DISNEY_JUNIOR" {
      DisneyJuniorNoNewline();
    } else if channel == "USA_NICK_JR" {
      NickJrNoNewline();
    } else if channel == "USA_SCIENCE" {
      ScienceNoNewline();
    } else if channel == "USA_PARAMOUNT_NETWORK" {
      ParamountNetworkNoNewline();
    } else if channel == "USA_TRUTV" {
      TrutvNoNewline();
    } else if channel == "USA_IFC" {
      IfcNoNewline();
    } else if channel == "USA_WE_TV" {
      WeTvNoNewline();
    } else if channel == "USA_OWN" {
      OwnNoNewline();
    } else {
      LmnNoNewline();
    }
  }

  lemma DisneyJuniorNoNewline()
    ensures LogoNoNewlines(LogosC["USA_DISNEY_JUNIOR"])
  {
    LogoBaseNoNewline();
  }

  lemma NickJrNoNewline()
    ensures LogoNoNewlines(LogosC["USA_NICK_JR"])
  {
    LogoBaseNoNewline();
  }

  lemma ScienceNoNewline()
    ensures LogoNoNewlines(LogosC["USA_SCIENCE"])
  {
    LogoBaseNoNewline();
  }

  lemma ParamountNetworkNoNewline()
    ensures LogoNoNewlines(LogosC["USA_PARAMOUNT_NETWORK"])
  {
    LogoBaseNoNewline();
  }

  lemma TrutvNoNewline()
    ensures LogoNoNewlines(LogosC["USA_TRUTV"])
  {
    LogoBaseNoNewline();
  }

  lemma IfcNoNewline()
    ensures LogoNoNewlines(LogosC["USA_IFC"])
  {
    LogoBaseNoNewline();
  }

  lemma WeTvNoNewline()
    ensures LogoNoNewlines(LogosC["USA_WE_TV"])
  {
    LogoBaseNoNewline();
  }

  lemma OwnNoNewline()
    ensures LogoNoNewlines(LogosC["USA_OWN"])
  {
    LogoBaseNoNewline();
  }

  lemma LmnNoNewline()
    ensures LogoNoNewlines(LogosC["USA_LMN"])
  {
    LogoBaseNoNewline();
  }

  /** The info line rebuilt at line 147 holds no newline. */
  lemma NewInfoNoNewline(channel: string, cat: nat)
    requires channel in LogoMap && cat < |Categories|
    ensures NoNewline(NewInfo(LogoMap[channel], cat))
  {
    LogoNoNewline(channel);
    CategoriesNoNewline();
    NewInfoPiecesNoNewline();
  }

  /** The fixed pieces of the rebuilt info line hold no newline. */
  lemma NewInfoPiecesNoNewline()
    ensures NoNewline(NewInfoPrefix) && NoNewline("\" tvg-logo=\"") && NoNewline("\" group-title=\"") && NoNewline("\",USA ")
  {
  }

  /** The `k`-th stripped entry read from lines without a newline is two lines without one. */
  lemma EntriesNoNewline(lines: seq<string>, k: nat)
    requires forall j :: 0 <= j < |lines| ==> NoNewline(lines[j])
    requires k < |Pairs(lines)|
    ensures NoNewline(Entries(Pairs(lines))[k].info) && NoNewline(Entries(Pairs(lines))[k].url)
  {
    var ps := Pairs(lines);
    EntriesAt(ps, k);
    PairsLines(lines, ps[k]);
    StripNoNewline(ps[k].info);
    StripNoNewline(ps[k].url);
  }

  /** The main dict read from a text cut at its newlines holds no newline. */
  lemma MainMapNoNewline(text: string)
    ensures MapNoNewline(MainMap(Split(text, '\n')))
  {
    var lines := Split(text, '\n');
    var es := Entries(Pairs(lines));
    forall u | u in MainMap(lines) ensures NoNewline(u) && NoNewline(MainMap(lines)[u]) {
      var k := LatestValue(es, u);
      EntriesNoNewline(lines, k);
    }
  }

  /** The master dict read from a text cut at its newlines holds no newline. */
  lemma MasterMapNoNewline(text: string, main: map<string, string>)
    ensures MapNoNewline(MasterMap(Split(text, '\n'), main))
  {
    var lines := Split(text, '\n');
    var es := Entries(Pairs(lines));
    forall u | u in MasterMap(lines, main) ensures NoNewline(u) && NoNewline(MasterMap(lines, main)[u]) {
      var k := LatestKeptValue(es, main, u);
      EntriesNoNewline(lines, k);
    }
  }

  /** Filing newline-free dicts gives newline-free lists only, rebuilt info lines included. */
  lemma SectionsNoNewline(main: map<string, string>, master: map<string, string>)
    requires MapNoNewline(main) && MapNoNewline(master)
    ensures forall c :: 0 <= c < |Categories| ==> RunNoNewline(Sections(main, master)[c])
  {
    var cats := Sections(main, master);
    forall c | 0 <= c < |cats| ensures RunNoNewline(cats[c]) {
      forall k | 0 <= k < |cats[c]| ensures NoNewline(cats[c][k].info) && NoNewline(cats[c][k].url) {
        var e := cats[c][k];
        SectionMember(main, master, c, e);
        if e.url in master && MasterFiling(e.url, master[e.url]) == Some(Filing(c, e)) && Contains(e.url, Ip) {
          NewInfoNoNewline(ChannelOf(e.url), c);
        }
      }
    }
  }

  // ---------------------------------------------------------------------
  // Writing the merged playlist (lines 56 and 153-166)

  /** The lines of the merged playlist: the header, a blank line, then the sections in the order of lines 92-107. */
  function Layout(cats: seq<seq<Pair>>): seq<string>
    requires |cats| == |Categories|
  {
    [EpgHeader, ""] + Body(Categories, cats, |cats|)
  }

  /** The loop at lines 154-160 after the header of line 56. */
  method WriteOutput(cats: seq<seq<Pair>>) returns (output: seq<string>)
    requires |cats| == |Categories|
    ensures output == Layout(cats)
  {
    output := [EpgHeader, ""];
    ghost var head := output;
    for c := 0 to |cats|
      invariant output == head + Body(Categories, cats, c)
    {
      output := WriteSection(output, Categories[c], cats[c]);
      BodyStep(head, Categories, cats, c);
    }
  }

  /**
   * Round trip of the output: the pairing loop of lines 14-19, run on the lines
   * written, finds exactly the filed entries, category by category in the
   * order of lines 92-107, and as many as line 166 reports.
   */
  lemma LayoutPairs(cats: seq<seq<Pair>>)
    requires |cats| == |Categories|
    requires AllWellFormed(cats)
    ensures Pairs(Layout(cats)) == Flatten(cats, |cats|)
    ensures |Pairs(Layout(cats))| == Total(cats, |cats|)
  {
    assert EpgHeader[4] == HeaderTag[4];
    PairsNone([EpgHeader, ""], 0);
    PairsAppend([EpgHeader, ""], Body(Categories, cats, |cats|));
    BodyPairs(Categories, cats, |cats|);
    FlattenLength(cats, |cats|);
  }

  /** Saving joins the lines with newlines; none of them holds one, so splitting the saved text gives the lines back. */
  lemma LayoutSplits(cats: seq<seq<Pair>>)
    requires |cats| == |Categories|
    requires forall c :: 0 <= c < |cats| ==> RunNoNewline(cats[c])
    ensures Split(Join(Layout(cats), '\n'), '\n') == Layout(cats)
  {
    LayoutBodyNoNewline(cats);
    HeaderNoNewline();
    var body := Body(Categories, cats, |cats|);
    var lines := Layout(cats);
    forall k | 0 <= k < |lines| ensures '\n' !in lines[k] {
      if k >= 2 {
        assert lines[k] == body[k - 2];
      }
    }
    SplitJoin(lines, '\n');
  }

  lemma HeaderNoNewline()
    ensures NoNewline(EpgHeader) && NoNewline("")
  {
  }

  /** The sections hold no newline: the category names and the filed entries hold none. */
  lemma LayoutBodyNoNewline(cats: seq<seq<Pair>>)
    requires |cats| == |Categories|
    requires forall c :: 0 <= c < |cats| ==> RunNoNewline(cats[c])
    ensures forall k :: 0 <= k < |Body(Categories, cats, |cats|)| ==> NoNewline(Body(Categories, cats, |cats|)[k])
  {
    CategoriesNoNewline();
    BodyNoNewline(Categories, cats, |cats|);
  }

  // ---------------------------------------------------------------------
  // The whole script

  /**
   * The script from reading to saving: both texts are split into lines, the two
   * dicts are filled, their entries are filed into the fourteen lists, and the
   * output lines, the text saved to `playlist1.m3u` and the total printed at line
   * 166 are produced. Reading and writing the files are left to the caller.
   */
  method MergePlaylists(mainText: string, masterText: string) returns (output: seq<string>, saved: string, total: nat)
    requires MasterReadable(Split(masterText, '\n'))
    ensures var main := MainMap(Split(mainText, '\n'));
      var cats := Sections(main, MasterMap(Split(masterText, '\n'), main));
      && output == Layout(cats)
      && saved == Join(output, '\n')
      && Split(saved, '\n') == output
      && total == Total(cats, |cats|)
  {
    var mainLines := Split(mainText, '\n');
    var main := ExtractMain(mainLines);
    var masterLines := Split(masterText, '\n');
    var master := ExtractMaster(masterLines, main);
    MasterMapSplittable(masterLines, main);
    var cats := Categorize(main, master);
    output := WriteOutput(cats);
    saved := Join(output, '\n');
    total := Total(cats, |cats|);
    MergedPairs(mainText, masterText);
  }

  /**
   * What the merged playlist holds, read back from the saved text by the
   * pairing loop of lines 12-19: the text splits into the lines written, and
   * their pairing gives the filed entries, list after list, exactly as many as
   * the total printed.
   */
  lemma MergedPairs(mainText: string, masterText: string)
    ensures var main := MainMap(Split(mainText, '\n'));
      var cats := Sections(main, MasterMap(Split(masterText, '\n'), main));
      var saved := Join(Layout(cats), '\n');
      && Split(saved, '\n') == Layout(cats)
      && Pairs(Split(saved, '\n')) == Flatten(cats, |cats|)
      && |Pairs(Split(saved, '\n'))| == Total(cats, |cats|)
  {
    var mainLines := Split(mainText, '\n');
    var main := MainMap(mainLines);
    var master := MasterMap(Split(masterText, '\n'), main);
    MainMapWellFormed(mainLines);
    MasterMapWellFormed(Split(masterText, '\n'), main);
    SectionsWellFormed(main, master);
    LayoutPairs(Sections(main, master));
    MainMapNoNewline(mainText);
    MasterMapNoNewline(masterText, main);
    SectionsNoNewline(main, master);
    LayoutSplits(Sections(main, master));
  }
}

=== FILE: output.dfy ===
/**
 * The writing loop of merge_playlists.py (lines 154-160): each non-empty
 * category becomes a banner line, its entries' info and URL lines, and a
 * blank line.
 */
module Output {
  import opened Text
  import opened M3u

  /** The line that opens a section. */
  function Banner(name: string): string
  {
    "# === " + name + " ==="
  }

  /** The lines written for one category: nothing when its list is empty, otherwise the banner, the info/URL lines and a blank line. */
  function Section(name: string, ps: seq<Pair>): (r: seq<string>)
    ensures |ps| == 0 <==> |r| == 0
    ensures |r| == 0 || r[|r| - 1] == ""
  {
    if |ps| == 0 then [] else [Banner(name)] + Render(ps) + [""]
  }

  /** The sections of the first `n` categories, named by `names`, in order. */
  function Body(names: seq<string>, cats: seq<seq<Pair>>, n: nat): (r: seq<string>)
    requires n <= |cats| && n <= |names|
    ensures |r| == 0 || r[|r| - 1] == ""
  {
    if n == 0 then [] else Body(names, cats, n - 1) + Section(names[n - 1], cats[n - 1])
  }

  /** The entries of the first `n` categories, category by category. */
  function Flatten(cats: seq<seq<Pair>>, n: nat): seq<Pair>
    requires n <= |cats|
  {
    if n == 0 then [] else Flatten(cats, n - 1) + cats[n - 1]
  }

  /** Line 166: the sum of the list lengths of the first `n` categories. */
  function Total(cats: seq<seq<Pair>>, n: nat): nat
    requires n <= |cats|
  {
    if n == 0 then 0 else Total(cats, n - 1) + |cats[n - 1]|
  }

  /** Lines 155-160 for one category: its section appended to `output`. */
  method WriteSection(output: seq<string>, name: string, channels: seq<Pair>) returns (r: seq<string>)
    ensures r == output + Section(name, channels)
  {
    r := output;
    if |channels| > 0 {
      r := r + [Banner(name)];
      ghost var top := r;
      for k := 0 to |channels|
        invariant r == top + Render(channels[..k])
      {
        RenderSnoc(channels, k);
        r := r + [channels[k].info];
        r := r + [channels[k].url];
        assert r == top + (Render(channels[..k]) + [channels[k].info, channels[k].url]);
      }
      assert channels[..|channels|] == channels;
      r := r + [""];
      assert r == output + ([Banner(name)] + Render(channels) + [""]);
    }
  }

  lemma BodyStep(head: seq<string>, names: seq<string>, cats: seq<seq<Pair>>, c: nat)
    requires c < |cats| && c < |names|
    ensures head + Body(names, cats, c) + Section(names[c], cats[c]) == head + Body(names, cats, c + 1)
  {
    AppendAssoc(head, Body(names, cats, c), Section(names[c], cats[c]));
  }

  /** Every entry of one category is an `#EXTINF` line followed by a URL line. */
  predicate RunWellFormed(ps: seq<Pair>)
  {
    forall k :: 0 <= k < |ps| ==> WellFormed(ps[k])
  }

  /** Every entry of every category is well formed. */
  predicate AllWellFormed(cats: seq<seq<Pair>>)
  {
    forall c :: 0 <= c < |cats| ==> RunWellFormed(cats[c])
  }

  /** Read back, one section yields its entries. */
  lemma SectionPairs(name: string, ps: seq<Pair>)
    requires RunWellFormed(ps)
    requires !IsInfoLine(Banner(name))
    ensures Pairs(Section(name, ps)) == ps
  {
    if |ps| > 0 {
      RenderLast(ps);
      var last := ps[|ps| - 1].url;
      assert IsUrlLine(last);
      assert last[0] == 'h';
      PairsAppend(Render(ps), [""]);
      PairsAppend([Banner(name)], Render(ps) + [""]);
      PairsRender(ps);
      PairsNone([Banner(name)], 0);
      PairsNone([""], 0);
      assert Section(name, ps) == [Banner(name)] + (Render(ps) + [""]);
    } else {
      PairsNone([], 0);
    }
  }

  lemma BannerNotInfo(name: string)
    ensures !IsInfoLine(Banner(name))
  {
    assert Banner(name)[1] == ' ';
  }

  /** Read back, the sections of the first `n` categories yield their entries in order. */
  lemma {:induction false} BodyPairs(names: seq<string>, cats: seq<seq<Pair>>, n: nat)
    requires n <= |cats| && n <= |names|
    requires AllWellFormed(cats)
    ensures Pairs(Body(names, cats, n)) == Flatten(cats, n)
  {
    if n == 0 {
      PairsNone([], 0);
    } else {
      BodyPairs(names, cats, n - 1);
      SectionAfter(Body(names, cats, n - 1), names[n - 1], cats[n - 1], Flatten(cats, n - 1));
    }
  }

  /** Read back, a section written after a blank line adds its entries. */
  lemma SectionAfter(prev: seq<string>, name: string, ps: seq<Pair>, before: seq<Pair>)
    requires |prev| == 0 || prev[|prev| - 1] == ""
    requires Pairs(prev) == before && RunWellFormed(ps)
    ensures Pairs(prev + Section(name, ps)) == before + ps
  {
    BannerNotInfo(name);
    SectionPairs(name, ps);
    PairsAfterBlank(prev, Section(name, ps));
  }

  /** Pairing splits after a blank line. */
  lemma PairsAfterBlank(prev: seq<string>, last: seq<string>)
    requires |prev| == 0 || prev[|prev| - 1] == ""
    ensures Pairs(prev + last) == Pairs(prev) + Pairs(last)
  {
    PairsAppend(prev, last);
  }

  lemma {:induction false} FlattenLength(cats: seq<seq<Pair>>, n: nat)
    requires n <= |cats|
    ensures |Flatten(cats, n)| == Total(cats, n)
  {
    if n > 0 {
      FlattenLength(cats, n - 1);
    }
  }

  /** Every entry of one category is two lines without a newline. */
  predicate RunNoNewline(ps: seq<Pair>)
  {
    forall k :: 0 <= k < |ps| ==> NoNewline(ps[k].info) && NoNewline(ps[k].url)
  }

  /** Rendering newline-free entries writes newline-free lines only. */
  lemma {:induction false} RenderNoNewline(ps: seq<Pair>)
    requires RunNoNewline(ps)
    ensures forall k :: 0 <= k < |Render(ps)| ==> NoNewline(Render(ps)[k])
  {
    if |ps| > 0 {
      assert RunNoNewline(ps[1..]) by {
        forall k | 0 <= k < |ps| - 1 ensures NoNewline(ps[1..][k].info) && NoNewline(ps[1..][k].url) {
          assert ps[1..][k] == ps[k + 1];
        }
      }
      RenderNoNewline(ps[1..]);
      var r := [ps[0].info, ps[0].url] + Render(ps[1..]);
      forall k | 2 <= k < |r| ensures NoNewline(r[k]) {
        assert r[k] == Render(ps[1..])[k - 2];
      }
    }
  }

  /** The banner of a newline-free name holds no newline. */
  lemma BannerNoNewline(name: string)
    requires NoNewline(name)
    ensures NoNewline(Banner(name))
  {
  }

  /**
   * No line written for the first `n` categories holds a newline when no
   * category name and no entry line does, so `'\n'.join` of them splits back.
   */
  lemma {:induction false} BodyNoNewline(names: seq<string>, cats: seq<seq<Pair>>, n: nat)
    requires n <= |cats| && n <= |names|
    requires forall c :: 0 <= c < n ==> NoNewline(names[c]) && RunNoNewline(cats[c])
    ensures forall k :: 0 <= k < |Body(names, cats, n)| ==> NoNewline(Body(names, cats, n)[k])
  {
    if n > 0 {
      BodyNoNewline(names, cats, n - 1);
      var before := Body(names, cats, n - 1);
      var section := Section(names[n - 1], cats[n - 1]);
      if |cats[n - 1]| > 0 {
        BannerNoNewline(names[n - 1]);
        RenderNoNewline(cats[n - 1]);
        forall k | 0 <= k < |section| ensures NoNewline(section[k]) {
          if 0 < k < |section| - 1 {
            assert section[k] == Render(cats[n - 1])[k - 1];
          }
        }
      }
      forall k | 0 <= k < |before + section| ensures NoNewline((before + section)[k]) {
        if k >= |before| {
          assert (before + section)[k] == section[k - |before|];
        }
      }
    }
  }
}

=== FILE: quicktest.dfy ===
/**
 * quick_test.py: a short smoke test. It reads the playlist's channels, probes
 * the first ten streams (accepting 403 as well), and checks whether a few
 * well-known channel ids occur near the start of the guide.
 */
module QuickTest {
  import opened Wrappers
  import opened Text
  import opened M3u
  import opened ChannelTester

  /** A channel dictionary with `name` and `url`. */
  datatype Listed = Listed(name: string, url: string)

  /** The channel an entry pair gives: name after the comma or "Unknown", stripped URL. */
  function ListedOf(p: Pair): Listed
  {
    Listed(ChannelName(p.info).GetOr("Unknown"), Strip(p.url))
  }

  function Listings(ps: seq<Pair>): seq<Listed>
  {
    seq(|ps|, k requires 0 <= k < |ps| => ListedOf(ps[k]))
  }

  /** quick_test.py reads the same channels as test_channels.py, without their ids. */
  lemma ListingsAgree(ps: seq<Pair>)
    ensures |Listings(ps)| == |Entries(ps)|
    ensures forall k :: 0 <= k < |ps| ==>
      Listings(ps)[k].name == Entries(ps)[k].name && Listings(ps)[k].url == Entries(ps)[k].url
  {
  }

  /** The playlist loop of quick_test.py over the lines read (an empty file gives no channels). */
  method ReadChannels(text: string) returns (channels: seq<Listed>)
    ensures channels == Listings(Pairs(ReadLines(text)))
  {
    var lines := ReadLines(text);
    channels := [];
    ghost var seen: seq<Pair> := [];
    for i := 0 to |lines|
      invariant seen + PairsFrom(lines, i) == Pairs(lines)
      invariant channels == Listings(seen)
    {
      PairsAdvance(lines, i, seen);
      if IsInfoLine(lines[i]) && i + 1 < |lines| && IsUrlLine(lines[i + 1]) {
        var p := Pair(lines[i], lines[i + 1]);
        ListingsSnoc(seen, p);
        channels := channels + [ListedOf(p)];
        seen := seen + [p];
      }
    }
    assert seen == Pairs(lines) by {
      assert PairsFrom(lines, |lines|) == [];
    }
  }

  lemma ListingsSnoc(ps: seq<Pair>, p: Pair)
    ensures Listings(ps + [p]) == Listings(ps) + [ListedOf(p)]
  {
  }

  /** The statuses shown with a check mark. */
  predicate QuickOk(o: HeadOutcome)
  {
    o.Answered? && (o.status == 200 || o.status == 302 || o.status == 301 || o.status == 403)
  }

  /** The quick test also passes a 403 answer, which test_channels.py counts as failed; otherwise they agree. */
  lemma QuickVersusStream(o: HeadOutcome)
    ensures QuickOk(o) <==> TestChannelStream(o).0 || o == Answered(403)
  {
  }

  /** The probing loop over `channels[:10]`: a mark per channel, any exception a cross. */
  method TestFirstTen(channels: seq<Listed>, probe: string -> HeadOutcome) returns (marks: seq<bool>)
    ensures |marks| == (if |channels| < 10 then |channels| else 10)
    ensures forall i :: 0 <= i < |marks| ==> marks[i] == QuickOk(probe(channels[i].url))
  {
    var first := Take(channels, 10);
    marks := [];
    for i := 0 to |first|
      invariant |marks| == i
      invariant forall j :: 0 <= j < i ==> marks[j] == QuickOk(probe(channels[j].url))
    {
      marks := marks + [QuickOk(probe(first[i].url))];
    }
  }

  // ---------------------------------------------------------------------
  // The guide check

  const CommonIds: seq<string> := ["ABC.us", "CBS.us", "NBC.us", "FOX.us", "HBO.us"]

  /** How many characters of the guide are searched. */
  const Window: nat := 50000

  /** `f'id="{id}"'` */
  function IdAttr(id: string): string
  {
    "id=\"" + id + "\""
  }

  /** `[id for id in ids if f'id="{id}"' in text]` */
  function FoundIn(ids: seq<string>, text: string): seq<string>
  {
    if |ids| == 0 then []
    else (if Contains(text, IdAttr(ids[0])) then [ids[0]] else []) + FoundIn(ids[1..], text)
  }

  /** An id is found exactly when it is listed and `id="…"` occurs in the searched text. */
  lemma {:induction false} FoundInIff(ids: seq<string>, text: string, id: string)
    ensures id in FoundIn(ids, text) <==> id in ids && Contains(text, IdAttr(id))
    ensures |FoundIn(ids, text)| <= |ids|
  {
    if |ids| > 0 {
      FoundInIff(ids[1..], text, id);
      assert ids == [ids[0]] + ids[1..];
    }
  }

  /** The ids found keep the order of the list. */
  lemma {:induction false} FoundInOrdered(ids: seq<string>, text: string)
    ensures Subsequence(FoundIn(ids, text), ids)
  {
    if |ids| > 0 {
      var rest := FoundIn(ids[1..], text);
      FoundInOrdered(ids[1..], text);
      if Contains(text, IdAttr(ids[0])) {
        assert FoundIn(ids, text) == [ids[0]] + rest;
        assert ([ids[0]] + rest)[1..] == rest;
      } else {
        assert FoundIn(ids, text) == rest;
      }
    }
  }

  /** How `requests.get(guide_url, timeout=5)` ended. */
  datatype GuideProbe = GuideAnswered(status: nat, text: string) | GuideRaised(message: string)

  /** What the guide check reports. */
  datatype GuideCheck = Accessible(found: seq<string>) | NotAccessible(status: nat) | GuideError(message: string)

  /** The guide check: on a 200 answer, the common ids found in the first 50000 characters. */
  function CheckGuide(probe: GuideProbe): (r: GuideCheck)
    ensures r.Accessible? <==> probe.GuideAnswered? && probe.status == 200
    ensures r.Accessible? ==> r.found == FoundIn(CommonIds, Take(probe.text, Window))
    ensures r.Accessible? ==> forall id :: id in r.found <==> id in CommonIds && Contains(Take(probe.text, Window), IdAttr(id))
    ensures r.NotAccessible? ==> probe.GuideAnswered? && r.status == probe.status
    ensures r.GuideError? <==> probe.GuideRaised?
  {
    match probe
    case GuideAnswered(status, text) =>
      if status == 200 then
        var found := FoundIn(CommonIds, Take(text, Window));
        assert forall id :: id in found <==> id in CommonIds && Contains(Take(text, Window), IdAttr(id)) by {
          forall id ensures id in found <==> id in CommonIds && Contains(Take(text, Window), IdAttr(id)) {
            FoundInIff(CommonIds, Take(text, Window), id);
          }
        }
        Accessible(found)
      else NotAccessible(status)
    case GuideRaised(message) => GuideError(message)
  }

  /** An id that only occurs past the first 50000 characters is not found. */
  lemma OnlyTheWindow(text: string, id: string)
    requires |text| > Window
    requires !Contains(text[..Window], IdAttr(id))
    ensures id !in FoundIn(CommonIds, Take(text, Window))
  {
    FoundInIff(CommonIds, Take(text, Window), id);
  }
}

=== FILE: server.dfy ===
/**
 * The Xtream-Codes style playlist server in Node (server/server.js): the user
 * table, the credential and expiry checks, the session table that `/get.php`
 * fills and cleans, the rewrite of `.m3u8` stream addresses into proxied links,
 * the `/stream/:token/:encodedUrl` redirect and the `/player_api.php` answers.
 * The clock, the random session token and the request's host and address are
 * parameters; the playlist file is its text.
 */
module NodeServer {
  import opened Wrappers
  import opened Text
  import opened UrlMatch
  import Base64
  import Utf8

  /** A user record: the password, when the subscription ends (milliseconds since the epoch) and its connection limits. */
  datatype Account = Account(password: string, expiresMs: int, maxConnections: nat, activeConnections: set<string>)

  /** `new Date('2025-12-31')`: midnight UTC at the start of 31 December 2025, in milliseconds. */
  const Expiry: int := 1767139200000

  /** The two users. Nothing ever adds to `activeConnections`. */
  const Users: map<string, Account> :=
    map["user1" := Account("pass1", Expiry, 1, {}), "user2" := Account("pass2", Expiry, 2, {})]

  /** A query parameter as JavaScript sees it: absent, or a string. */
  predicate Truthy(p: Option<string>)
  {
    p.Some? && |p.value| > 0
  }

  /** `!username || !password || !users[username] || users[username].password !== password` fails. */
  predicate Authorized(username: Option<string>, password: Option<string>)
  {
    Truthy(username) && Truthy(password) && username.value in Users && Users[username.value].password == password.value
  }

  /** Exactly the two user and password pairs get in. */
  lemma AuthorizedIff(username: Option<string>, password: Option<string>)
    ensures Authorized(username, password) <==>
              ((username == Some("user1") && password == Some("pass1"))
               || (username == Some("user2") && password == Some("pass2")))
  {
    assert Users.Keys == {"user1", "user2"};
  }

  /** `user.expires < new Date()`. */
  predicate Expired(name: string, nowMs: int)
    requires name in Users
  {
    Users[name].expiresMs < nowMs
  }

  /** One lower-case hexadecimal digit. */
  function HexDigit(d: int): (c: char)
    requires 0 <= d < 16
    ensures '0' <= c <= '9' || 'a' <= c <= 'f'
  {
    if d < 10 then ('0' as int + d) as char else ('a' as int + d - 10) as char
  }

  /** `buffer.toString('hex')`: two lower-case hexadecimal digits per byte. */
  function Hex(bs: seq<Base64.Byte>): (r: string)
    ensures |r| == 2 * |bs|
    ensures '/' !in r
  {
    if |bs| == 0 then [] else [HexDigit(bs[0] / 16), HexDigit(bs[0] % 16)] + Hex(bs[1..])
  }

  /** A session: who opened it, when (milliseconds since the epoch) and from which address. */
  datatype Session = Session(username: string, created: int, ip: string)

  /** A day in milliseconds, `24 * 60 * 60 * 1000`. */
  const DayMs: int := 24 * 60 * 60 * 1000

  /** The sessions that the cleanup keeps at `nowMs`: those not older than a day. */
  function Young(table: map<string, Session>, nowMs: int): map<string, Session>
  {
    map t | t in table && !(nowMs - table[t].created > DayMs) :: table[t]
  }

  /** The cleanup drops exactly the sessions more than a day old and keeps the others as they were; the one just made survives it. */
  lemma YoungIff(table: map<string, Session>, nowMs: int, token: string, s: Session)
    requires s.created == nowMs
    ensures forall t :: t in Young(table, nowMs) <==> t in table && nowMs - table[t].created <= DayMs
    ensures forall t :: t in Young(table, nowMs) ==> Young(table, nowMs)[t] == table[t]
    ensures token in Young(table[token := s], nowMs) && Young(table[token := s], nowMs)[token] == s
  {
  }

  /** The path of a proxied link. */
  function LinkPath(token: string, encoded: string): string
  {
    "/stream/" + token + "/" + encoded
  }

  /** The path of the proxied link server.js writes: the address as UTF-8 in standard base64 (`toString('base64')`). */
  function EncodedPath(token: string, url: string): string
  {
    LinkPath(token, Base64.Encode(Utf8.Encode(url)))
  }

  /** The whole proxied link: `${serverUrl}/stream/${sessionToken}/${encodedUrl}`. */
  function ProxyLink(serverUrl: string, token: string, url: string): string
  {
    serverUrl + EncodedPath(token, url)
  }

  /** `playlist.replace(/(https?:\/\/[^\s]+\.m3u8)/g, …)`: every stream address becomes its proxied link. */
  function Proxied(playlist: string, serverUrl: string, token: string): string
  {
    Replace(playlist, Matcher(StreamUrls), url => ProxyLink(serverUrl, token, url))
  }

  /**
   * The path with the address in base64url (`toString('base64url')`), whose alphabet has no `/`;
   * Node's `'base64'` decoder reads both alphabets, so `/stream/` needs no change for it.
   */
  function UrlSafePath(token: string, url: string): string
  {
    LinkPath(token, Base64.EncodeUrl(Utf8.Encode(url)))
  }

  /** The path as Express splits it for `/stream/:token/:encodedUrl`: case-insensitive, one optional trailing slash. */
  function Route(path: string): (r: Option<(string, string)>)
    ensures r.Some? ==> r.value.0 != "" && r.value.1 != "" && '/' !in r.value.0 && '/' !in r.value.1
  {
    var parts := Split(path, '/');
    if (|parts| == 4 || (|parts| == 5 && parts[4] == ""))
       && parts[0] == "" && Lower(parts[1]) == "stream" && parts[2] != "" && parts[3] != ""
    then Some((parts[2], parts[3]))
    else None
  }

  /** A link path splits into the empty start, `stream`, the token and the parts of the encoded address. */
  lemma LinkSplit(token: string, encoded: string)
    requires '/' !in token
    ensures Split(LinkPath(token, encoded), '/') == ["", "stream", token] + Split(encoded, '/')
  {
    var tail := token + ['/'] + encoded;
    AppendAssoc("/stream/", token, "/");
    AppendAssoc("/stream/", token + "/", encoded);
    assert LinkPath(token, encoded) == "/stream/" + tail;
    var head := "stream" + ['/'];
    assert "/stream/" == "" + ['/'] + head;
    AppendAssoc("" + ['/'], head, tail);
    SplitThreePieces("", "stream", token, encoded, '/');
  }

  /** The route reads the token and the encoded address back out of a link path. */
  lemma RouteOfLink(token: string, encoded: string)
    requires token != "" && encoded != "" && '/' !in token && '/' !in encoded
    ensures Route(LinkPath(token, encoded)) == Some((token, encoded))
  {
    LinkSplit(token, encoded);
    SplitNoSep(encoded, '/');
    LowerUncapitalised("stream");
  }

  /** A path whose encoded part holds a `/` in its middle has five parts, the last not empty: the route does not match. */
  lemma RouteOfSlashed(token: string, a: string, b: string)
    requires token != "" && '/' !in token && a != "" && b != "" && '/' !in a && '/' !in b
    ensures Route(LinkPath(token, a + "/" + b)).None?
  {
    LinkSplit(token, a + "/" + b);
    SplitAfterPiece(a, b, '/');
    SplitNoSep(b, '/');
  }

  /** The answer to `/stream/…`. */
  datatype StreamReply =
    | NotFound          // no route matches
    | InvalidSession    // 401 `Invalid session`
    | Redirect(location: string)
    | Garbled           // the segment is not base64 of UTF-8; Node would decode it leniently

  /** `/get.php`'s answer. */
  datatype Reply = Failed(status: nat, message: string) | Playlist(body: string)

  /** `process.env.PORT || 8080`. */
  datatype Port = EnvPort(text: string) | DefaultPort(number: nat)

  function ListenPort(env: Option<string>): (p: Port)
    ensures p.DefaultPort? <==> !Truthy(env)
  {
    if Truthy(env) then EnvPort(env.value) else DefaultPort(8080)
  }

  datatype UserInfo = UserInfo(
    username: string, password: string, auth: nat, status: string, expDate: int,
    isTrial: string, activeCons: string, createdAt: int, maxConnections: string)

  datatype ServerInfo = ServerInfo(
    url: string, port: Port, httpsPort: nat, serverProtocol: string, rtmpPort: nat,
    timezone: string, timestampNow: int)

  datatype Category = Category(id: string, name: string, parentId: nat)

  /** `/player_api.php`'s answer; `time_now`, an ISO rendering of the clock, is left out. */
  datatype ApiReply =
    | Unauthorized      // 401 `{user_info: {auth: 0}}`
    | AccountInfo(user: UserInfo, server: ServerInfo)
    | LiveCategories(categories: seq<Category>)
    | UnknownAction     // `{status: 'error', message: 'Unknown action'}`

  /** `Math.floor(new Date('2024-01-01').getTime() / 1000)`. */
  const CreatedAt: int := 1704067200

  const Categories: seq<Category> := [
    Category("1", "Major Networks", 0), Category("2", "News", 0), Category("3", "Sports", 0),
    Category("4", "Movies & Premium", 0), Category("5", "Entertainment", 0)]

  /** `/player_api.php`: the same credential check as `/get.php`, then the answer for `action`. */
  function PlayerApi(username: Option<string>, password: Option<string>, action: Option<string>,
                     host: string, port: Port, nowMs: int): (r: ApiReply)
    ensures r.Unauthorized? <==> !Authorized(username, password)
    ensures r.AccountInfo? <==> Authorized(username, password) && action == Some("get_account_info")
    ensures r.LiveCategories? <==> Authorized(username, password) && action == Some("get_live_categories")
    ensures r.AccountInfo? ==>
      r.user.username == username.value && r.user.password == password.value && r.user.auth == 1
      && r.user.status == "Active" && r.user.isTrial == "0"
      && r.user.expDate == Users[username.value].expiresMs / 1000 && r.user.expDate == 1767139200
      && r.user.activeCons == Decimal(|Users[username.value].activeConnections|) && r.user.activeCons == "0"
      && r.user.createdAt == 1704067200
      && r.user.maxConnections == (if username.value == "user1" then "1" else "2")
    ensures r.AccountInfo? ==>
      r.server == ServerInfo(host, port, 443, "http", 1935, "America/New_York", nowMs / 1000)
    ensures r.LiveCategories? ==> r.categories == Categories && |r.categories| == 5
  {
    if !Authorized(username, password) then Unauthorized
    else
      var name := username.value;
      var account := Users[name];
      if action == Some("get_account_info") then
        AccountInfo(
          UserInfo(name, password.value, 1, "Active", account.expiresMs / 1000, "0",
                   Decimal(|account.activeConnections|), CreatedAt, Decimal(account.maxConnections)),
          ServerInfo(host, port, 443, "http", 1935, "America/New_York", nowMs / 1000))
      else if action == Some("get_live_categories") then LiveCategories(Categories)
      else UnknownAction
  }

  /** The player API never looks at the expiry date: an expired subscription still gets its account information. */
  lemma PlayerApiIgnoresExpiry(username: Option<string>, password: Option<string>, host: string, port: Port, nowMs: int)
    requires Authorized(username, password) && Expired(username.value, nowMs)
    ensures PlayerApi(username, password, Some("get_account_info"), host, port, nowMs).AccountInfo?
  {
  }

  /** The server's state: the session table. */
  class Server {
    var sessions: map<string, Session>

    constructor()
      ensures sessions == map[]
    {
      sessions := map[];
    }

    /**
     * `/get.php`: 401 without valid credentials, 403 once the subscription has run out;
     * otherwise a new session under the hex token of `random`, the cleanup of sessions more
     * than a day old (`nowMs` is the clock for both), and the playlist with its stream
     * addresses proxied through `http://` + `host`.
     */
    method GetPlaylist(username: Option<string>, password: Option<string>, host: string, ip: string,
                       random: seq<Base64.Byte>, nowMs: int, playlist: string) returns (reply: Reply)
      requires |random| == 16
      modifies this
      ensures !Authorized(username, password) ==> reply == Failed(401, "Invalid credentials") && sessions == old(sessions)
      ensures Authorized(username, password) && Expired(username.value, nowMs) ==>
        reply == Failed(403, "Subscription expired") && sessions == old(sessions)
      ensures Authorized(username, password) && !Expired(username.value, nowMs) ==>
        reply == Playlist(Proxied(playlist, "http://" + host, Hex(random)))
        && sessions == Young(old(sessions)[Hex(random) := Session(username.value, nowMs, ip)], nowMs)
    {
      if !Authorized(username, password) {
        return Failed(401, "Invalid credentials");
      }
      var name := username.value;
      if Users[name].expiresMs < nowMs {
        return Failed(403, "Subscription expired");
      }
      var token := Hex(random);
      sessions := sessions[token := Session(name, nowMs, ip)];
      ghost var start := sessions;
      var pending := sessions.Keys;
      while pending != {}
        invariant pending <= start.Keys
        invariant forall t :: t in sessions <==> t in start && (t in pending || nowMs - start[t].created <= DayMs)
        invariant forall t :: t in sessions ==> sessions[t] == start[t]
        decreases pending
      {
        var t :| t in pending;
        if nowMs - sessions[t].created > DayMs {
          sessions := sessions - {t};
        }
        pending := pending - {t};
      }
      reply := Playlist(Proxied(playlist, "http://" + host, token));
    }

    /** `/stream/:token/:encodedUrl`: the session must exist; then a redirect to the decoded address. */
    function Stream(path: string): StreamReply
      reads this
    {
      match Route(path)
      case None => NotFound
      case Some((token, encoded)) =>
        if token !in sessions then InvalidSession
        else match Base64.Decode(encoded)
          case None => Garbled
          case Some(bytes) =>
            match Utf8.Decode(bytes)
            case None => Garbled
            case Some(url) => Redirect(url)
    }
  }

  /** A link in base64url leads back to its address while its session lasts. */
  lemma LinkRedirects(server: Server, random: seq<Base64.Byte>, url: string)
    requires |random| == 16 && Hex(random) in server.sessions && url != ""
    ensures server.Stream(UrlSafePath(Hex(random), url)) == Redirect(url)
  {
    var encoded := Base64.EncodeUrl(Utf8.Encode(url));
    Base64.DecodeEncode(Utf8.Encode(url));
    Utf8.DecodeEncode(url);
    Base64.EncodeUrlNoSlash(Utf8.Encode(url));
    assert |Utf8.Encode(url)| > 0;
    RouteOfLink(Hex(random), encoded);
  }

  /** A link as server.js writes it leads back to its address when its base64 happens to hold no `/`. */
  lemma EncodedPathRedirects(server: Server, random: seq<Base64.Byte>, url: string)
    requires |random| == 16 && Hex(random) in server.sessions && url != ""
    requires '/' !in Base64.Encode(Utf8.Encode(url))
    ensures server.Stream(EncodedPath(Hex(random), url)) == Redirect(url)
  {
    var encoded := Base64.Encode(Utf8.Encode(url));
    Base64.DecodeEncode(Utf8.Encode(url));
    Utf8.DecodeEncode(url);
    assert |Utf8.Encode(url)| > 0;
    RouteOfLink(Hex(random), encoded);
  }

  /** The rewrite goes line by line, and more generally space by space: no address reaches across a space. */
  lemma ProxiedPieces(x: string, c: char, y: string, serverUrl: string, token: string)
    requires Space(StreamUrls, c)
    ensures Proxied(x + [c] + y, serverUrl, token) == Proxied(x, serverUrl, token) + [c] + Proxied(y, serverUrl, token)
  {
    MatcherSane(StreamUrls);
    MatcherStops(StreamUrls, c);
    ReplaceCut(x, c, y, Matcher(StreamUrls), url => ProxyLink(serverUrl, token, url));
  }

  /** Text without `http` passes through unchanged. */
  lemma ProxiedPlain(text: string, serverUrl: string, token: string)
    requires !Contains(text, "http")
    ensures Proxied(text, serverUrl, token) == text
  {
    PlainUnchanged(StreamUrls, text, url => ProxyLink(serverUrl, token, url));
  }

  /** A piece that is one stream address, `https?://` then non-spaces ending in `.m3u8`, becomes its proxied link. */
  lemma ProxiedAddress(url: string, serverUrl: string, token: string)
    requires Candidate(StreamUrls, url, |url|)
    ensures Proxied(url, serverUrl, token) == ProxyLink(serverUrl, token, url)
  {
    LinkReplaced(StreamUrls, url, u => ProxyLink(serverUrl, token, u));
  }

  /** A stream address whose UTF-8 form has `?` (0x3F) at an offset of 2 modulo 3. */
  const SlashyUrl: string := "http://a?.m3u8"

  /** The UTF-8 bytes of `SlashyUrl`. */
  const SlashyBytes: seq<Base64.Byte> := [104, 116, 116, 112, 58, 47, 47, 97, 63, 46, 109, 51, 117, 56]

  /** ASCII text is its own UTF-8 form. */
  lemma SlashyUtf8()
    ensures Utf8.Encode(SlashyUrl) == SlashyBytes
  {
    Utf8.EncodeAscii(SlashyUrl, SlashyBytes);
  }

  /** Three bytes in front of more are encoded as four characters in front of the rest. */
  lemma BodyGroup(b0: Base64.Byte, b1: Base64.Byte, b2: Base64.Byte, rest: seq<Base64.Byte>, code: string)
    requires code == Base64.Quad(b0, b1, b2, false)
    ensures Base64.Body([b0, b1, b2] + rest, false) == code + Base64.Body(rest, false)
  {
    assert ([b0, b1, b2] + rest)[3..] == rest;
  }

  /** The four groups of `SlashyBytes`, one symbol quadruple at a time. */
  lemma SlashyQuads()
    ensures Base64.Quad(104, 116, 116, false) == "aHR0"
    ensures Base64.Quad(112, 58, 47, false) == "cDov"
    ensures Base64.Quad(47, 97, 63, false) == "L2E/"
    ensures Base64.Quad(46, 109, 51, false) == "Lm0z"
  {
  }

  /** The standard base64 of `SlashyBytes`, group by group. */
  lemma SlashyBody()
    ensures Base64.Body(SlashyBytes, false) == "aHR0" + ("cDov" + ("L2E/" + ("Lm0z" + "dTg")))
  {
    var tail: seq<Base64.Byte> := [117, 56];
    assert Base64.Body(tail, false) == "dTg";
    SlashyQuads();
    BodyGroup(46, 109, 51, tail, "Lm0z");
    BodyGroup(47, 97, 63, [46, 109, 51] + tail, "L2E/");
    BodyGroup(112, 58, 47, [47, 97, 63] + ([46, 109, 51] + tail), "cDov");
    BodyGroup(104, 116, 116, [112, 58, 47] + ([47, 97, 63] + ([46, 109, 51] + tail)), "aHR0");
    assert SlashyBytes == [104, 116, 116] + ([112, 58, 47] + ([47, 97, 63] + ([46, 109, 51] + tail)));
  }

  /** The parts of that encoding before and after its `/`. */
  const SlashyFront: string := "aHR0" + "cDov" + "L2E"
  const SlashyBack: string := "Lm0z" + "dTg" + "="

  /** Moving the brackets of a six-piece concatenation with a separator inside the third piece. */
  lemma Regroup6(p: string, q: string, r: string, s: string, t: string, u: string, c: char)
    ensures p + (q + ((r + [c]) + (s + t))) + u == (p + q + r) + [c] + (s + t + u)
  {
  }

  /** Neither part is empty or holds a `/`. */
  lemma SlashyParts()
    ensures SlashyFront != "" && '/' !in SlashyFront
    ensures SlashyBack != "" && '/' !in SlashyBack
  {
    assert SlashyFront == "aHR0cDovL2E";
    assert SlashyBack == "Lm0zdTg=";
  }

  /** Its standard base64, `aHR0cDovL2E/Lm0zdTg=`, holds a `/`. */
  lemma SlashyEncoding()
    ensures Base64.Encode(Utf8.Encode(SlashyUrl)) == SlashyFront + "/" + SlashyBack
  {
    var body := Base64.Body(SlashyBytes, false);
    assert Base64.Encode(SlashyBytes) == body + "=" by {
      assert |SlashyBytes| == 14;
    }
    assert body + "=" == SlashyFront + "/" + SlashyBack by {
      SlashyBody();
      assert "L2E/" == "L2E" + ['/'];
      Regroup6("aHR0", "cDov", "L2E", "Lm0z", "dTg", "=", '/');
    }
    SlashyUtf8();
  }

  /** `http://a?.m3u8` is a whole stream address for the pattern. */
  lemma SlashyIsAddress()
    ensures Candidate(StreamUrls, SlashyUrl, |SlashyUrl|)
  {
    assert Scheme(SlashyUrl, 7);
    assert Unbroken(StreamUrls, SlashyUrl, 7, 14);
  }

  /**
   * As written, with standard base64: the link for `http://a?.m3u8` has a third `/` after the
   * token, so `/stream/:token/:encodedUrl` does not match it and the player gets no stream.
   */
  lemma AsWrittenLinkBreaks(server: Server, random: seq<Base64.Byte>, serverUrl: string)
    requires |random| == 16
    ensures Candidate(StreamUrls, SlashyUrl, |SlashyUrl|)
    ensures Proxied(SlashyUrl, serverUrl, Hex(random)) == serverUrl + EncodedPath(Hex(random), SlashyUrl)
    ensures server.Stream(EncodedPath(Hex(random), SlashyUrl)) == NotFound
  {
    SlashyIsAddress();
    ProxiedAddress(SlashyUrl, serverUrl, Hex(random));
    SlashyEncoding();
    SlashyParts();
    RouteOfSlashed(Hex(random), SlashyFront, SlashyBack);
  }
}

=== FILE: text.dfy ===
/**
 * The Python `str` operations the playlist scripts rely on, over Dafny strings
 * (sequences of Unicode scalar values): whitespace, `strip`, `split`, `join`,
 * `in` on strings, `startswith`/`endswith`, slicing, case mapping and the
 * ordering `sorted` uses.
 */
module Text {

  /**
   * The characters Python's `str.isspace()` accepts, which are also the `\s`
   * class of `re` on str patterns: the ASCII controls tab to carriage return,
   * the four information separators, space, NEL, no-break space, and the
   * Unicode space separators and line/paragraph separators.
   */
  const Whitespace: string :=
    "\t\n\U{b}\U{c}\r\U{1c}\U{1d}\U{1e}\U{1f} \U{85}\U{a0}\U{1680}"
    + "\U{2000}\U{2001}\U{2002}\U{2003}\U{2004}\U{2005}\U{2006}\U{2007}\U{2008}\U{2009}\U{200a}"
    + "\U{2028}\U{2029}\U{202f}\U{205f}\U{3000}"

  predicate IsSpace(c: char)
  {
    c in Whitespace
  }

  /** `\w`, restricted to ASCII: letters, digits and the underscore. */
  predicate IsWordChar(c: char)
  {
    ('a' <= c <= 'z') || ('A' <= c <= 'Z') || ('0' <= c <= '9') || c == '_'
  }

  predicate NoSpace(s: string)
  {
    forall k :: 0 <= k < |s| ==> !IsSpace(s[k])
  }

  /** Printable ASCII other than the space: every character of the tags the scripts look for. */
  predicate Visible(s: string)
  {
    forall k :: 0 <= k < |s| ==> '!' <= s[k] <= '~'
  }

  lemma VisibleNoSpace(s: string)
    requires Visible(s)
    ensures NoSpace(s)
  {
    forall k | 0 <= k < |s| ensures !IsSpace(s[k]) {
      VisibleCharNotSpace(s[k]);
    }
  }

  lemma VisibleCharNotSpace(c: char)
    requires '!' <= c <= '~'
    ensures !IsSpace(c)
  {
  }

  /** `s.startswith(p)` */
  predicate StartsWith(s: string, p: string)
  {
    p <= s
  }

  /** `s.endswith(p)` */
  predicate EndsWith(s: string, p: string)
  {
    |p| <= |s| && s[|s| - |p|..] == p
  }

  /** `sub in s` */
  predicate Contains(s: string, sub: string)
  {
    sub <= s || (|s| > 0 && Contains(s[1..], sub))
  }

  /** `sub in s` holds exactly when `sub` occurs at some position of `s`. */
  lemma {:induction false} ContainsIff(s: string, sub: string)
    ensures Contains(s, sub) <==> exists i :: 0 <= i <= |s| && sub <= s[i..]
  {
    assert s[0..] == s;
    if |s| > 0 {
      ContainsIff(s[1..], sub);
      forall i | 1 <= i <= |s| ensures s[1..][i - 1..] == s[i..] {}
    }
  }

  lemma ContainsAt(s: string, sub: string, i: nat)
    requires i <= |s| && sub <= s[i..]
    ensures Contains(s, sub)
  {
    ContainsIff(s, sub);
  }

  /** Only the empty string occurs in the empty string. */
  lemma ContainsInEmpty(sub: string)
    ensures Contains("", sub) ==> sub == ""
  {
  }

  /** No candidate but the empty one occurs in the empty string. */
  lemma {:induction false} NoneInEmpty(subs: seq<string>)
    requires "" !in subs
    ensures !ContainsAny("", subs)
  {
    if |subs| > 0 {
      assert subs[0] in subs;
      assert forall p :: p in subs[1..] ==> p in subs;
      NoneInEmpty(subs[1..]);
    }
  }

  /** `any(p in s for p in subs)` */
  predicate ContainsAny(s: string, subs: seq<string>)
  {
    |subs| > 0 && (Contains(s, subs[0]) || ContainsAny(s, subs[1..]))
  }

  /** `any(...)` holds exactly when one of the candidates occurs in `s`. */
  lemma {:induction false} ContainsAnyIff(s: string, subs: seq<string>)
    ensures ContainsAny(s, subs) <==> exists p :: p in subs && Contains(s, p)
  {
    if |subs| > 0 {
      ContainsAnyIff(s, subs[1..]);
      if Contains(s, subs[0]) {
        assert subs[0] in subs;
      } else if ContainsAny(s, subs[1..]) {
        var p :| p in subs[1..] && Contains(s, p);
        assert p in subs;
      }
      forall p | p in subs && Contains(s, p) ensures ContainsAny(s, subs) {
        if p != subs[0] {
          assert p in subs[1..];
        }
      }
    }
  }

  /** A string that lacks one of the characters of `sub` cannot contain `sub`. */
  lemma {:induction false} MissingCharNotContained(s: string, sub: string, c: char)
    requires c in sub && c !in s
    ensures !Contains(s, sub)
  {
    if |s| > 0 {
      var k :| 0 <= k < |sub| && sub[k] == c;
      assert k < |s| ==> s[k] != c;
      assert forall x :: x in s[1..] ==> x in s;
      MissingCharNotContained(s[1..], sub, c);
    }
  }

  /** A text that contains `a + b` contains `a`. */
  lemma ContainsShorter(s: string, a: string, b: string)
    ensures Contains(s, a + b) ==> Contains(s, a)
  {
    if Contains(s, a + b) {
      ContainsIff(s, a + b);
      var i :| 0 <= i <= |s| && a + b <= s[i..];
      assert (a + b)[..|a|] == a;
      ContainsAt(s, a, i);
    }
  }

  /** No candidate occurs in `s` when each one has a character (`picks[i]`) that `s` lacks. */
  lemma {:induction false} MissingCharsNotAny(s: string, subs: seq<string>, picks: seq<char>)
    requires |picks| == |subs|
    requires forall i :: 0 <= i < |subs| ==> picks[i] in subs[i] && picks[i] !in s
    ensures !ContainsAny(s, subs)
  {
    if |subs| > 0 {
      MissingCharNotContained(s, subs[0], picks[0]);
      MissingCharsNotAny(s, subs[1..], picks[1..]);
    }
  }

  /** `s.lstrip()` */
  function LStrip(s: string): (r: string)
    ensures |r| <= |s|
  {
    if |s| > 0 && IsSpace(s[0]) then LStrip(s[1..]) else s
  }

  /** `lstrip` drops exactly the leading whitespace: what is left is a suffix that starts with a non-space. */
  lemma {:induction false} LStripSpec(s: string)
    ensures LStrip(s) == s[|s| - |LStrip(s)|..]
    ensures forall k :: 0 <= k < |s| - |LStrip(s)| ==> IsSpace(s[k])
    ensures LStrip(s) == [] || !IsSpace(LStrip(s)[0])
  {
    if |s| > 0 && IsSpace(s[0]) {
      LStripSpec(s[1..]);
      assert forall k :: 1 <= k < |s| - |LStrip(s)| ==> s[k] == s[1..][k - 1];
    }
  }

  /** `s.rstrip()` */
  function RStrip(s: string): (r: string)
    ensures |r| <= |s|
  {
    if |s| > 0 && IsSpace(s[|s| - 1]) then RStrip(s[..|s| - 1]) else s
  }

  /** `rstrip` drops exactly the trailing whitespace: what is left is a prefix that ends in a non-space. */
  lemma {:induction false} RStripSpec(s: string)
    ensures RStrip(s) == s[..|RStrip(s)|]
    ensures forall k :: |RStrip(s)| <= k < |s| ==> IsSpace(s[k])
    ensures RStrip(s) == [] || !IsSpace(RStrip(s)[|RStrip(s)| - 1])
  {
    RStripPrefix(s);
    RStripDropsSpaces(s);
    RStripLast(s);
  }

  lemma {:induction false} RStripPrefix(s: string)
    ensures RStrip(s) == s[..|RStrip(s)|]
  {
    if |s| > 0 && IsSpace(s[|s| - 1]) {
      var t := s[..|s| - 1];
      RStripPrefix(t);
      assert t[..|RStrip(t)|] == s[..|RStrip(t)|];
    }
  }

  lemma {:induction false} RStripDropsSpaces(s: string)
    ensures forall k :: |RStrip(s)| <= k < |s| ==> IsSpace(s[k])
  {
    if |s| > 0 && IsSpace(s[|s| - 1]) {
      var t := s[..|s| - 1];
      RStripDropsSpaces(t);
      assert forall k :: 0 <= k < |t| ==> t[k] == s[k];
    }
  }

  lemma {:induction false} RStripLast(s: string)
    ensures RStrip(s) == [] || !IsSpace(RStrip(s)[|RStrip(s)| - 1])
  {
    if |s| > 0 && IsSpace(s[|s| - 1]) {
      RStripLast(s[..|s| - 1]);
    }
  }

  /** `s.strip()`: `s` without its leading and trailing whitespace. */
  function Strip(s: string): (r: string)
  {
    RStrip(LStrip(s))
  }

  /** `strip` keeps a whitespace-free prefix: a line that starts with `#EXTINF` or `http` still does. */
  lemma StripKeepsPrefix(s: string, p: string)
    requires p <= s && |p| > 0 && NoSpace(p)
    ensures p <= Strip(s)
  {
    assert !IsSpace(s[0]);
    assert LStrip(s) == s;
    RStripKeepsPrefix(s, p);
  }

  lemma {:induction false} RStripKeepsPrefix(s: string, p: string)
    requires p <= s && NoSpace(p)
    ensures p <= RStrip(s)
    decreases |s|
  {
    if |s| > 0 && IsSpace(s[|s| - 1]) {
      if |p| > 0 { assert s[|p| - 1] == p[|p| - 1]; }
      RStripKeepsPrefix(s[..|s| - 1], p);
    }
  }

  /** `s.split(sep)` for a one-character separator: always at least one piece. */
  function Split(s: string, sep: char): (r: seq<string>)
    ensures |r| >= 1
    ensures forall k :: 0 <= k < |r| ==> sep !in r[k]
    ensures sep in s <==> |r| >= 2
  {
    if |s| == 0 then [""]
    else
      var rest := Split(s[1..], sep);
      if s[0] == sep then [""] + rest else [[s[0]] + rest[0]] + rest[1..]
  }

  /** `sep.join(parts)` */
  function Join(parts: seq<string>, sep: char): string
  {
    if |parts| == 0 then ""
    else if |parts| == 1 then parts[0]
    else parts[0] + [sep] + Join(parts[1..], sep)
  }

  /** Joining the pieces of a split gives the original text back. */
  lemma {:induction false} JoinSplit(s: string, sep: char)
    ensures Join(Split(s, sep), sep) == s
  {
    if |s| > 0 {
      var rest := Split(s[1..], sep);
      JoinSplit(s[1..], sep);
      if s[0] == sep {
        JoinCons("", rest, sep);
      } else {
        JoinHead(s[0], rest, sep);
      }
      assert s == [s[0]] + s[1..];
    }
  }

  lemma JoinCons(p: string, rest: seq<string>, sep: char)
    requires |rest| >= 1
    ensures Join([p] + rest, sep) == p + [sep] + Join(rest, sep)
  {
    assert ([p] + rest)[1..] == rest;
  }

  /** Putting a character in front of the first piece puts it in front of the joined text. */
  lemma JoinHead(c: char, rest: seq<string>, sep: char)
    requires |rest| >= 1
    ensures Join([[c] + rest[0]] + rest[1..], sep) == [c] + Join(rest, sep)
  {
    if |rest| >= 2 {
      JoinCons([c] + rest[0], rest[1..], sep);
      assert rest == [rest[0]] + rest[1..];
      JoinCons(rest[0], rest[1..], sep);
    }
  }


  lemma {:induction false} SplitNoSep(a: string, sep: char)
    requires sep !in a
    ensures Split(a, sep) == [a]
  {
    if |a| > 0 {
      SplitNoSep(a[1..], sep);
      assert a == [a[0]] + a[1..];
    }
  }

  lemma {:induction false} SplitAfterPiece(a: string, b: string, sep: char)
    requires sep !in a
    ensures Split(a + [sep] + b, sep) == [a] + Split(b, sep)
  {
    if |a| == 0 {
      assert a + [sep] + b == [sep] + b;
      assert ([sep] + b)[1..] == b;
    } else {
      assert (a + [sep] + b)[1..] == a[1..] + [sep] + b;
      SplitAfterPiece(a[1..], b, sep);
      assert [a[0]] + a[1..] == a;
    }
  }

  /** Three separator-free pieces in front of the rest split off one by one. */
  lemma SplitThreePieces(a: string, b: string, c: string, rest: string, sep: char)
    requires sep !in a && sep !in b && sep !in c
    ensures Split(a + [sep] + (b + [sep] + (c + [sep] + rest)), sep) == [a, b, c] + Split(rest, sep)
  {
    SplitAfterPiece(c, rest, sep);
    SplitAfterPiece(b, c + [sep] + rest, sep);
    SplitAfterPiece(a, b + [sep] + (c + [sep] + rest), sep);
    var parts := Split(rest, sep);
    assert [a] + ([b] + ([c] + parts)) == [a, b, c] + parts;
  }

  /** Splitting text that was joined from separator-free pieces gives the pieces back. */
  lemma {:induction false} SplitJoin(parts: seq<string>, sep: char)
    requires |parts| >= 1
    requires forall k :: 0 <= k < |parts| ==> sep !in parts[k]
    ensures Split(Join(parts, sep), sep) == parts
  {
    if |parts| == 1 {
      SplitNoSep(parts[0], sep);
    } else {
      SplitJoin(parts[1..], sep);
      SplitAfterPiece(parts[0], Join(parts[1..], sep), sep);
      assert [parts[0]] + parts[1..] == parts;
    }
  }

  /** `s.lower()`, restricted to ASCII letters. */
  function Lower(s: string): (r: string)
    ensures |r| == |s|
  {
    seq(|s|, k requires 0 <= k < |s| => if 'A' <= s[k] <= 'Z' then (s[k] as int + 32) as char else s[k])
  }

  /** Text without capitals is its own lower case. */
  lemma LowerUncapitalised(s: string)
    requires forall k :: 0 <= k < |s| ==> !('A' <= s[k] <= 'Z')
    ensures Lower(s) == s
  {
  }

  /** `s.upper()`, restricted to ASCII letters. */
  function Upper(s: string): (r: string)
    ensures |r| == |s|
  {
    seq(|s|, k requires 0 <= k < |s| => if 'a' <= s[k] <= 'z' then (s[k] as int - 32) as char else s[k])
  }

  /** Lower-casing maps whitespace to itself, so it keeps where words start and end. */
  lemma LowerKeepsSpaces(s: string)
    ensures forall k :: 0 <= k < |s| ==> (IsSpace(Lower(s)[k]) <==> IsSpace(s[k]))
  {
  }

  /** `c * n`: the character repeated `n` times (the report rulers). */
  function Repeat(c: char, n: nat): (r: string)
    ensures |r| == n && forall k :: 0 <= k < n ==> r[k] == c
  {
    if n == 0 then [] else Repeat(c, n - 1) + [c]
  }

  /** A string that is empty or all white space: `s.split()` is then `[]`. */
  predicate Blank(s: string)
  {
    forall k :: 0 <= k < |s| ==> IsSpace(s[k])
  }

  /** The longest prefix of `s` without white space. */
  function WordPrefix(s: string): (r: string)
    ensures r <= s && NoSpace(r)
    ensures |r| == |s| || IsSpace(s[|r|])
  {
    if |s| == 0 || IsSpace(s[0]) then [] else [s[0]] + WordPrefix(s[1..])
  }

  /** `s.split()[0]`: the first maximal run of non-space characters; `s` must hold one. */
  function FirstWord(s: string): (r: string)
    requires !Blank(s)
    ensures |r| > 0 && NoSpace(r) && Contains(s, r)
    ensures r <= LStrip(s) && (|r| == |LStrip(s)| || IsSpace(LStrip(s)[|r|]))
  {
    LStripSpec(s);
    var t := LStrip(s);
    var i := |s| - |t|;
    assert i < |s| && !IsSpace(t[0]);
    ContainsAt(s, WordPrefix(t), i);
    WordPrefix(t)
  }

  /** The decimal digit `d`. */
  function Digit(d: nat): (c: char)
    requires d < 10
    ensures '0' <= c <= '9'
  {
    ('0' as int + d) as char
  }

  predicate AllDigits(s: string)
  {
    forall k :: 0 <= k < |s| ==> '0' <= s[k] <= '9'
  }

  /** `str(n)`: decimal digits, most significant first, without leading zeros. */
  function Decimal(n: nat): (r: string)
    ensures |r| > 0 && AllDigits(r)
    ensures |r| == 1 || r[0] != '0'
  {
    if n < 10 then [Digit(n)] else Decimal(n / 10) + [Digit(n % 10)]
  }

  /** `int(s)` on a string of decimal digits. */
  function DecimalValue(s: string): nat
    requires AllDigits(s)
  {
    if |s| == 0 then 0 else DecimalValue(s[..|s| - 1]) * 10 + (s[|s| - 1] as int - '0' as int)
  }

  /** Reading back a number written in decimal gives the number. */
  lemma {:induction false} DecimalRoundTrip(n: nat)
    ensures DecimalValue(Decimal(n)) == n
  {
    if n >= 10 {
      DecimalRoundTrip(n / 10);
      var r := Decimal(n);
      assert r[..|r| - 1] == Decimal(n / 10);
    }
  }

  /** Python's `xs[:n]` */
  function Take<T>(xs: seq<T>, n: nat): (r: seq<T>)
    ensures |r| == (if n < |xs| then n else |xs|) && r <= xs
  {
    if n < |xs| then xs[..n] else xs
  }

  /** `xs.index(x)`: the position of the first occurrence of `x`. */
  function IndexOf<T(==)>(xs: seq<T>, x: T): (i: nat)
    requires x in xs
    ensures i < |xs| && xs[i] == x && x !in xs[..i]
  {
    if xs[0] == x then 0
    else
      var i := 1 + IndexOf(xs[1..], x);
      assert xs[..i] == [xs[0]] + xs[1..][..i - 1];
      i
  }

  /** The elements of a sequence as a set. */
  function Elems<T>(xs: seq<T>): set<T>
  {
    set x | x in xs
  }

  /** Python's `a < b` on str: lexicographic comparison of code points. */
  predicate Below(a: string, b: string)
  {
    if |a| == 0 then |b| > 0
    else |b| > 0 && (a[0] < b[0] || (a[0] == b[0] && Below(a[1..], b[1..])))
  }

  lemma {:induction false} BelowIrreflexive(a: string)
    ensures !Below(a, a)
  {
    if |a| > 0 { BelowIrreflexive(a[1..]); }
  }

  lemma {:induction false} BelowTransitive(a: string, b: string, c: string)
    requires Below(a, b) && Below(b, c)
    ensures Below(a, c)
  {
    if |a| > 0 && a[0] == b[0] && b[0] == c[0] {
      BelowTransitive(a[1..], b[1..], c[1..]);
    }
  }

  lemma {:induction false} BelowTotal(a: string, b: string)
    requires a != b
    ensures Below(a, b) || Below(b, a)
  {
    if |a| > 0 && |b| > 0 && a[0] == b[0] {
      assert a == [a[0]] + a[1..] && b == [b[0]] + b[1..];
      BelowTotal(a[1..], b[1..]);
    }
  }

  /** In strictly increasing order: what `sorted` yields for distinct keys. */
  predicate StrictlySorted(xs: seq<string>)
  {
    forall i, j :: 0 <= i < j < |xs| ==> Below(xs[i], xs[j])
  }

  function Insert(xs: seq<string>, x: string): (r: seq<string>)
    requires StrictlySorted(xs) && x !in xs
    ensures StrictlySorted(r) && Elems(r) == Elems(xs) + {x} && |r| == |xs| + 1
  {
    if |xs| == 0 then [x]
    else if Below(x, xs[0]) then
      assert forall j :: 0 < j < |xs| ==> Below(x, xs[j]) by {
        forall j | 0 < j < |xs| ensures Below(x, xs[j]) { BelowTransitive(x, xs[0], xs[j]); }
      }
      [x] + xs
    else
      var rest := Insert(xs[1..], x);
      BelowTotal(x, xs[0]);
      assert Elems(xs) == {xs[0]} + Elems(xs[1..]);
      assert forall j :: 0 <= j < |rest| ==> Below(xs[0], rest[j]) by {
        forall j | 0 <= j < |rest| ensures Below(xs[0], rest[j]) {
          assert rest[j] in Elems(rest);
        }
      }
      [xs[0]] + rest
  }

  /** Every finite set of strings can be listed in strictly increasing order. */
  lemma {:induction false} SortedExists(keys: set<string>)
    ensures exists xs :: StrictlySorted(xs) && Elems(xs) == keys
    decreases |keys|
  {
    if keys == {} {
      assert StrictlySorted([]) && Elems<string>([]) == keys;
    } else {
      var x :| x in keys;
      SortedExists(keys - {x});
      var xs :| StrictlySorted(xs) && Elems(xs) == keys - {x};
      var r := Insert(xs, x);
      assert Elems(r) == keys;
    }
  }

  /** The strictly increasing listing of `keys`: what `sorted` returns for them. */
  ghost function SortedList(keys: set<string>): (xs: seq<string>)
    ensures StrictlySorted(xs) && Elems(xs) == keys
  {
    SortedExists(keys);
    var xs :| StrictlySorted(xs) && Elems(xs) == keys; xs
  }

  /** `sorted(keys)` for distinct string keys: the strictly increasing listing. */
  method Sorted(keys: set<string>) returns (xs: seq<string>)
    ensures xs == SortedList(keys)
  {
    xs := [];
    var rest := keys;
    while rest != {}
      invariant rest <= keys
      invariant StrictlySorted(xs) && Elems(xs) == keys - rest
      decreases |rest|
    {
      var x :| x in rest;
      xs := Insert(xs, x);
      rest := rest - {x};
    }
    SortedUnique(xs, SortedList(keys));
  }

  lemma AppendAssoc<T>(a: seq<T>, b: seq<T>, c: seq<T>)
    ensures a + b + c == a + (b + c)
  {
  }

  /** Only the empty sequence has no elements. */
  lemma NonEmptyHasElem<T>(ys: seq<T>)
    ensures Elems(ys) == {} ==> ys == []
  {
    if |ys| > 0 {
      assert ys[0] in Elems(ys);
    }
  }

  /** A set of strings has only one strictly increasing listing. */
  lemma {:induction false} SortedUnique(xs: seq<string>, ys: seq<string>)
    requires StrictlySorted(xs) && StrictlySorted(ys) && Elems(xs) == Elems(ys)
    ensures xs == ys
    decreases |xs|
  {
    if |xs| > 0 {
      assert xs[0] in Elems(ys);
      assert ys != [];
      assert ys[0] in Elems(xs);
      assert xs[0] == ys[0] by {
        var j :| 0 <= j < |xs| && xs[j] == ys[0];
        var i :| 0 <= i < |ys| && ys[i] == xs[0];
        if j > 0 && i > 0 {
          BelowTransitive(xs[0], ys[0], xs[0]);
          BelowIrreflexive(xs[0]);
          assert false;
        }
      }
      assert Elems(xs[1..]) == Elems(ys[1..]) by {
        forall e | e in Elems(xs[1..]) ensures e in Elems(ys[1..]) {
          var k :| 0 <= k < |xs[1..]| && xs[1..][k] == e;
          assert Below(xs[0], xs[k + 1]);
          BelowIrreflexive(xs[0]);
          assert e in Elems(ys);
          var m :| 0 <= m < |ys| && ys[m] == e;
          assert m != 0;
          assert ys[1..][m - 1] == e;
        }
        forall e | e in Elems(ys[1..]) ensures e in Elems(xs[1..]) {
          var k :| 0 <= k < |ys[1..]| && ys[1..][k] == e;
          assert Below(ys[0], ys[k + 1]);
          BelowIrreflexive(ys[0]);
          assert e in Elems(xs);
          var m :| 0 <= m < |xs| && xs[m] == e;
          assert m != 0;
          assert xs[1..][m - 1] == e;
        }
      }
      SortedUnique(xs[1..], ys[1..]);
      assert xs == [xs[0]] + xs[1..] && ys == [ys[0]] + ys[1..];
    } else {
      NonEmptyHasElem(ys);
    }
  }

  // ---------------------------------------------------------------------
  // `f.readlines()` and `f.writelines(lines)`

  /** A line that may only end in a newline: one read by `readlines` or cut by `split('\n')`. */
  predicate SingleLine(line: string)
  {
    forall k :: 0 <= k < |line| - 1 ==> line[k] != '\n'
  }

  /** A line that holds no newline at all: one cut by `split('\n')`, or one `'\n'.join` can write and split back. */
  predicate NoNewline(line: string)
  {
    '\n' !in line
  }

  /** `strip` only drops characters, so a line without a newline stays without one. */
  lemma StripNoNewline(s: string)
    requires NoNewline(s)
    ensures NoNewline(Strip(s))
  {
    LStripSpec(s);
    var l := LStrip(s);
    assert forall k :: 0 <= k < |l| ==> l[k] == s[|s| - |l| + k];
    RStripSpec(l);
    var r := RStrip(l);
    assert forall k :: 0 <= k < |r| ==> r[k] == l[k];
  }

  /**
   * `f.readlines()` on the file's text: the text cut after every newline, each
   * line keeping its newline; every line but the last ends in one, none is empty.
   */
  function ReadLines(s: string): (r: seq<string>)
    ensures forall k :: 0 <= k < |r| ==> |r[k]| > 0 && SingleLine(r[k])
    ensures forall k :: 0 <= k < |r| - 1 ==> r[k][|r[k]| - 1] == '\n'
    ensures |r| == 0 <==> |s| == 0
  {
    if |s| == 0 then []
    else
      var rest := ReadLines(s[1..]);
      if s[0] == '\n' || |rest| == 0 then [[s[0]]] + rest
      else [[s[0]] + rest[0]] + rest[1..]
  }

  /** `''.join(lines)`: what `f.writelines(lines)` writes. */
  function Concat(lines: seq<string>): string
  {
    if |lines| == 0 then "" else lines[0] + Concat(lines[1..])
  }

  /** Writing back the lines that were read gives the text back. */
  lemma {:induction false} ConcatReadLines(s: string)
    ensures Concat(ReadLines(s)) == s
  {
    if |s| > 0 {
      ConcatReadLines(s[1..]);
      var rest := ReadLines(s[1..]);
      if s[0] == '\n' || |rest| == 0 {
        assert ([[s[0]]] + rest)[1..] == rest;
      } else {
        assert ([[s[0]] + rest[0]] + rest[1..])[1..] == rest[1..];
        AppendAssoc([s[0]], rest[0], Concat(rest[1..]));
      }
      assert s == [s[0]] + s[1..];
    }
  }

  /** The first line read is the text up to and including its first newline (all of it when there is none). */
  lemma {:induction false} FirstLine(s: string)
    requires |s| > 0
    ensures var first := ReadLines(s)[0];
      && first <= s
      && (if '\n' in s then |first| == IndexOf(s, '\n') + 1 else first == s)
      && Concat(ReadLines(s)[1..]) == s[|first|..]
  {
    var rest := ReadLines(s[1..]);
    ConcatReadLines(s);
    if s[0] == '\n' || |rest| == 0 {
      if |rest| == 0 {
        assert |s[1..]| == 0;
      }
    } else {
      FirstLine(s[1..]);
      assert '\n' in s <==> '\n' in s[1..] by {
        assert s == [s[0]] + s[1..];
      }
      if '\n' in s {
        assert IndexOf(s, '\n') == 1 + IndexOf(s[1..], '\n');
      }
    }
  }

  /** A whole line in front of the text is read as a line of its own. */
  lemma {:induction false} ReadLinesAppend(a: string, b: string)
    requires |a| > 0 && a[|a| - 1] == '\n' && SingleLine(a)
    ensures ReadLines(a + b) == [a] + ReadLines(b)
  {
    var s := a + b;
    assert s[0] == a[0];
    if |a| == 1 {
      assert a == [s[0]];
      assert s[1..] == b;
    } else {
      assert s[1..] == a[1..] + b;
      ReadLinesAppend(a[1..], b);
      assert a[0] != '\n';
      assert [a[0]] + a[1..] == a;
    }
  }

  /** `a` can be read off `b` in order, skipping some of `b`'s elements. */
  predicate Subsequence<T(==)>(a: seq<T>, b: seq<T>)
    decreases |b|
  {
    |a| == 0 || (|b| > 0 && ((a[0] == b[0] && Subsequence(a[1..], b[1..])) || Subsequence(a, b[1..])))
  }

  /** Elements put in front keep a subsequence one. */
  lemma {:induction false} SubsequenceSkip<T>(a: seq<T>, c: seq<T>, b: seq<T>)
    requires Subsequence(a, b)
    ensures Subsequence(a, c + b)
    decreases |c|
  {
    if |c| > 0 {
      SubsequenceSkip(a, c[1..], b);
      assert (c + b)[1..] == c[1..] + b;
    } else {
      assert c + b == b;
    }
  }

  /** A common prefix, then elements inserted on the right: still a subsequence. */
  lemma {:induction false} SubsequenceInsert<T>(p: seq<T>, a: seq<T>, c: seq<T>, b: seq<T>)
    requires Subsequence(a, b)
    ensures Subsequence(p + a, p + c + b)
    decreases |p|
  {
    if |p| == 0 {
      SubsequenceSkip(a, c, b);
      assert p + a == a && p + c + b == c + b;
    } else {
      SubsequenceInsert(p[1..], a, c, b);
      assert (p + a)[1..] == p[1..] + a;
      assert (p + c + b)[1..] == p[1..] + c + b;
    }
  }
}

=== FILE: urlmatch.dfy ===
/**
 * The two URL regular expressions of the servers, as leftmost, greedy,
 * global search-and-replace:
 *   `/(https?:\/\/[^\s]+\.m3u8)/g` with `String.prototype.replace` in JavaScript,
 *   `/(https?:\/\/[^\s]+)/` with `preg_replace_callback` in PHP (PCRE).
 * Neither pattern has an anchor or a look-behind, so whether a match starts at
 * a position depends only on the text from there on.
 */
module UrlMatch {
  import opened Wrappers
  import opened Text

  /** Which of the two patterns: they differ in their `\s` and in the `.m3u8` ending. */
  datatype Regex = StreamUrls | AllUrls

  /**
   * `\s`: in JavaScript the ECMAScript white space and line terminators (U+0009 to U+000D, space,
   * U+00A0, U+1680, U+2000 to U+200A, U+2028, U+2029, U+202F, U+205F, U+3000, U+FEFF);
   * in PCRE without the `u` flag the ASCII ones only.
   */
  predicate Space(r: Regex, c: char)
  {
    c == ' ' || '\t' <= c <= '\r'
    || (r.StreamUrls? &&
        (c == '\U{a0}' || c == '\U{1680}' || '\U{2000}' <= c <= '\U{200a}' || c == '\U{2028}' || c == '\U{2029}'
         || c == '\U{202f}' || c == '\U{205f}' || c == '\U{3000}' || c == '\U{feff}'))
  }

  /** `s[lo..hi]` is a run of `[^\s]`. */
  predicate Unbroken(r: Regex, s: string, lo: nat, hi: nat)
    requires lo <= hi <= |s|
  {
    forall k :: lo <= k < hi ==> !Space(r, s[k])
  }

  /** `s` starts with `http://` (`p` = 7) or `https://` (`p` = 8). */
  predicate Scheme(s: string, p: nat)
  {
    (p == 7 || p == 8) && |s| >= p
    && s[0] == 'h' && s[1] == 't' && s[2] == 't' && s[3] == 'p'
    && (if p == 8 then s[4] == 's' && s[5] == ':' && s[6] == '/' && s[7] == '/'
        else s[4] == ':' && s[5] == '/' && s[6] == '/')
  }

  /** The length of the `https?://` at the front of `s`, or 0 when there is none (`s?` is greedy). */
  function SchemeLen(s: string): (p: nat)
    ensures p == 0 || Scheme(s, p)
  {
    if Scheme(s, 8) then 8 else if Scheme(s, 7) then 7 else 0
  }

  /** Where the run of non-space characters from `i` ends: what greedy `[^\s]+` first takes. */
  function RunEnd(r: Regex, s: string, i: nat): (e: nat)
    requires i <= |s|
    ensures i <= e <= |s|
    ensures e == |s| || Space(r, s[e])
    decreases |s| - i
  {
    if i == |s| || Space(r, s[i]) then i else RunEnd(r, s, i + 1)
  }

  /** The run holds no space, and no longer stretch without one starts where it does. */
  lemma {:induction false} RunEndSpec(r: Regex, s: string, i: nat)
    requires i <= |s|
    ensures Unbroken(r, s, i, RunEnd(r, s, i))
    ensures forall m :: RunEnd(r, s, i) < m <= |s| ==> !Unbroken(r, s, i, m)
    decreases |s| - i
  {
    if i < |s| && !Space(r, s[i]) {
      RunEndSpec(r, s, i + 1);
    }
  }

  /** `.m3u8` ends at offset `e` of `s`. */
  predicate EndsM3u8(s: string, e: int)
  {
    5 <= e <= |s| && s[e - 5] == '.' && s[e - 4] == 'm' && s[e - 3] == '3' && s[e - 2] == 'u' && s[e - 1] == '8'
  }

  /**
   * The last offset up to `hi` at which `.m3u8` ends with at least one character between
   * `lo` and it: where backtracking from the whole run stops.
   */
  function LastM3u8(s: string, lo: nat, hi: nat): (e: Option<nat>)
    requires hi <= |s|
    ensures e.Some? ==> lo + 6 <= e.value <= hi && EndsM3u8(s, e.value)
    decreases hi
  {
    if hi < lo + 6 then None
    else if EndsM3u8(s, hi) then Some(hi)
    else LastM3u8(s, lo, hi - 1)
  }

  /** No `.m3u8` ends after the one found, and none at all when none is found. */
  lemma {:induction false} LastM3u8Last(s: string, lo: nat, hi: nat)
    requires hi <= |s|
    ensures LastM3u8(s, lo, hi).Some? ==> forall e :: LastM3u8(s, lo, hi).value < e <= hi ==> !EndsM3u8(s, e)
    ensures LastM3u8(s, lo, hi).None? ==> forall e :: lo + 6 <= e <= hi ==> !EndsM3u8(s, e)
    decreases hi
  {
    if hi >= lo + 6 && !EndsM3u8(s, hi) {
      LastM3u8Last(s, lo, hi - 1);
    }
  }

  /** The length of the match of the pattern at the very front of `s`, if one starts there. */
  function Match(r: Regex, s: string): (n: Option<nat>)
    ensures n.Some? ==> 0 < n.value <= |s|
  {
    var p := SchemeLen(s);
    if p == 0 then None
    else
      var e := RunEnd(r, s, p);
      if r.AllUrls? then
        if e > p then Some(e) else None
      else
        LastM3u8(s, p, e)
  }

  /** After a scheme of length `p`, the pattern matches up to `n`: at least one non-space, and for `StreamUrls` the `.m3u8` ending. */
  predicate MatchesAfter(r: Regex, s: string, p: nat, n: int)
  {
    p < n <= |s| && Unbroken(r, s, p, n) && (r.StreamUrls? ==> p + 6 <= n && EndsM3u8(s, n))
  }

  /** The pattern, read as a regular expression, matches the first `n` characters of `s`. */
  predicate Candidate(r: Regex, s: string, n: int)
  {
    (Scheme(s, 8) && MatchesAfter(r, s, 8, n)) || (Scheme(s, 7) && MatchesAfter(r, s, 7, n))
  }

  /** Only one of the two schemes can be at the front of a text. */
  lemma OneScheme(r: Regex, s: string, n: int)
    ensures Candidate(r, s, n) <==> SchemeLen(s) > 0 && MatchesAfter(r, s, SchemeLen(s), n)
  {
  }

  /** The match taken is a match of the pattern, and the longest one at the front of the text: greedy `[^\s]+` backtracks from the whole run. */
  lemma MatchLongest(r: Regex, s: string)
    ensures Match(r, s).Some? ==> Candidate(r, s, Match(r, s).value)
    ensures Match(r, s).Some? ==> forall m :: Match(r, s).value < m <= |s| ==> !Candidate(r, s, m)
    ensures Match(r, s).None? ==> forall m :: !Candidate(r, s, m)
  {
    var p := SchemeLen(s);
    forall m ensures Candidate(r, s, m) <==> SchemeLen(s) > 0 && MatchesAfter(r, s, SchemeLen(s), m) {
      OneScheme(r, s, m);
    }
    if p > 0 {
      RunEndSpec(r, s, p);
      if r.StreamUrls? {
        LastM3u8Last(s, p, RunEnd(r, s, p));
        CandidatesInRun(r, s, p);
      }
    }
  }

  /** Every stretch from `p` that ends inside the run holds no space. */
  lemma CandidatesInRun(r: Regex, s: string, p: nat)
    requires p <= |s|
    ensures forall m :: p <= m <= RunEnd(r, s, p) ==> Unbroken(r, s, p, m)
  {
    RunEndSpec(r, s, p);
  }

  /** The matcher of pattern `r` as a function value: the length of the match at the front of a text, if any. */
  function Matcher(r: Regex): string -> Option<nat>
  {
    t => Match(r, t)
  }

  /** A matcher whose matches are never empty and never run past the text. */
  ghost predicate Sane(matcher: string -> Option<nat>)
  {
    forall t :: matcher(t).Some? ==> 0 < matcher(t).value <= |t|
  }

  /** A character no match reaches across: what follows it never changes the match in front of it. */
  ghost predicate Stops(matcher: string -> Option<nat>, c: char)
  {
    forall t, u :: matcher(t + [c] + u) == matcher(t)
  }

  /** Both patterns give sane matchers. */
  lemma MatcherSane(r: Regex)
    ensures Sane(Matcher(r))
  {
  }

  /**
   * `replace(pattern, callback)` over the whole text: each match, leftmost first, is
   * replaced by what `replace` makes of it, and the search goes on after it. (A match
   * that is empty or runs past the text is read as no match; neither pattern makes one.)
   */
  function Replace(s: string, matcher: string -> Option<nat>, replace: string -> string): string
    decreases |s|
  {
    if |s| == 0 then []
    else
      var m := matcher(s);
      if m.Some? && 0 < m.value <= |s| then replace(s[..m.value]) + Replace(s[m.value..], matcher, replace)
      else [s[0]] + Replace(s[1..], matcher, replace)
  }

  /** Replacing past a match at the front. */
  lemma ReplaceMatchStep(s: string, matcher: string -> Option<nat>, replace: string -> string, n: nat)
    requires 0 < n <= |s| && matcher(s) == Some(n)
    ensures Replace(s, matcher, replace) == replace(s[..n]) + Replace(s[n..], matcher, replace)
  {
  }

  /** Replacing past a character where no match starts. */
  lemma ReplaceSkipStep(s: string, matcher: string -> Option<nat>, replace: string -> string)
    requires |s| > 0 && matcher(s).None?
    ensures Replace(s, matcher, replace) == [s[0]] + Replace(s[1..], matcher, replace)
  {
  }

  /** Text without `http` comes out unchanged. */
  lemma {:induction false} PlainUnchanged(r: Regex, s: string, replace: string -> string)
    requires !Contains(s, "http")
    ensures Replace(s, Matcher(r), replace) == s
    decreases |s|
  {
    if |s| > 0 {
      NoSchemeWithoutHttp(r, s);
      PlainUnchanged(r, s[1..], replace);
      ReplaceSkipStep(s, Matcher(r), replace);
    }
  }

  /** No match starts where `http` does not. */
  lemma NoSchemeWithoutHttp(r: Regex, s: string)
    requires !Contains(s, "http")
    ensures Matcher(r)(s).None?
  {
  }

  /** A space cannot be part of a scheme. */
  lemma SchemeCut(r: Regex, x: string, c: char, y: string, p: nat)
    requires Space(r, c)
    ensures Scheme(x + [c] + y, p) <==> Scheme(x, p)
  {
    var s := x + [c] + y;
    if |x| < 8 && (p == 7 || p == 8) {
      assert s[|x|] == c;
    }
  }

  /** The run from inside `x` stops at the space after it. */
  lemma {:induction false} RunCut(r: Regex, x: string, c: char, y: string, i: nat)
    requires Space(r, c) && i <= |x|
    ensures RunEnd(r, x + [c] + y, i) == RunEnd(r, x, i)
    decreases |x| - i
  {
    var s := x + [c] + y;
    assert s[i] == (if i < |x| then x[i] else c);
    if i < |x| && !Space(r, x[i]) {
      RunCut(r, x, c, y, i + 1);
    }
  }

  /** `.m3u8` endings within `x` do not depend on what follows it. */
  lemma {:induction false} LastM3u8Cut(x: string, t: string, lo: nat, hi: nat)
    requires hi <= |x|
    ensures LastM3u8(x + t, lo, hi) == LastM3u8(x, lo, hi)
    decreases hi
  {
    if hi >= lo + 6 {
      var s := x + t;
      assert s[hi - 5] == x[hi - 5] && s[hi - 4] == x[hi - 4] && s[hi - 3] == x[hi - 3];
      assert s[hi - 2] == x[hi - 2] && s[hi - 1] == x[hi - 1];
      LastM3u8Cut(x, t, lo, hi - 1);
    }
  }

  /** A space ends every match: what follows it does not change the match at the front. */
  lemma MatchCut(r: Regex, x: string, c: char, y: string)
    requires Space(r, c)
    ensures Match(r, x + [c] + y) == Match(r, x)
  {
    var s := x + [c] + y;
    SchemeCut(r, x, c, y, 8);
    SchemeCut(r, x, c, y, 7);
    var p := SchemeLen(s);
    if p > 0 {
      RunCut(r, x, c, y, p);
      assert s == x + ([c] + y);
      LastM3u8Cut(x, [c] + y, p, RunEnd(r, x, p));
    }
  }

  /** A space stops every match of either pattern. */
  lemma MatcherStops(r: Regex, c: char)
    requires Space(r, c)
    ensures Stops(Matcher(r), c)
  {
    forall t, u ensures Matcher(r)(t + [c] + u) == Matcher(r)(t) {
      MatchCut(r, t, c, u);
    }
  }

  /** The rewrite goes piece by piece between stopping characters: such a character is kept and no match reaches across it. */
  lemma {:induction false} ReplaceCut(x: string, c: char, y: string, matcher: string -> Option<nat>, replace: string -> string)
    requires Sane(matcher) && Stops(matcher, c)
    ensures Replace(x + [c] + y, matcher, replace) == Replace(x, matcher, replace) + [c] + Replace(y, matcher, replace)
    decreases |x|
  {
    var s := x + [c] + y;
    assert matcher(s) == matcher(x);
    if |x| == 0 {
      assert s[0] == c && s[1..] == y;
      ReplaceSkipStep(s, matcher, replace);
    } else if matcher(x).Some? {
      var n := matcher(x).value;
      ReplaceCut(x[n..], c, y, matcher, replace);
      CutAfterMatch(x, c, y, matcher, replace, n);
    } else {
      ReplaceCut(x[1..], c, y, matcher, replace);
      CutAfterChar(x, c, y, matcher, replace);
    }
  }

  /** One step of `ReplaceCut` past a match at the front of `x`. */
  lemma CutAfterMatch(x: string, c: char, y: string, matcher: string -> Option<nat>, replace: string -> string, n: nat)
    requires 0 < n <= |x| && matcher(x) == Some(n) && matcher(x + [c] + y) == Some(n)
    requires Replace(x[n..] + [c] + y, matcher, replace) == Replace(x[n..], matcher, replace) + [c] + Replace(y, matcher, replace)
    ensures Replace(x + [c] + y, matcher, replace) == Replace(x, matcher, replace) + [c] + Replace(y, matcher, replace)
  {
    var s := x + [c] + y;
    ReplaceMatchStep(s, matcher, replace, n);
    ReplaceMatchStep(x, matcher, replace, n);
    assert s[..n] == x[..n];
    assert s[n..] == x[n..] + [c] + y;
    Regroup(replace(x[..n]), Replace(x[n..], matcher, replace), c, Replace(y, matcher, replace));
  }

  /** One step of `ReplaceCut` past a character at the front of `x` where no match starts. */
  lemma CutAfterChar(x: string, c: char, y: string, matcher: string -> Option<nat>, replace: string -> string)
    requires |x| > 0 && matcher(x).None? && matcher(x + [c] + y).None?
    requires Replace(x[1..] + [c] + y, matcher, replace) == Replace(x[1..], matcher, replace) + [c] + Replace(y, matcher, replace)
    ensures Replace(x + [c] + y, matcher, replace) == Replace(x, matcher, replace) + [c] + Replace(y, matcher, replace)
  {
    var s := x + [c] + y;
    ReplaceSkipStep(s, matcher, replace);
    ReplaceSkipStep(x, matcher, replace);
    assert s[0] == x[0] && s[1..] == x[1..] + [c] + y;
    Regroup([x[0]], Replace(x[1..], matcher, replace), c, Replace(y, matcher, replace));
  }

  /** Regrouping the pieces around a kept character. */
  lemma Regroup(head: string, rest: string, c: char, tail: string)
    ensures head + (rest + [c] + tail) == (head + rest) + [c] + tail
  {
  }

  /** A piece that is wholly one match of the pattern is replaced as a whole. */
  lemma LinkReplaced(r: Regex, u: string, replace: string -> string)
    requires Candidate(r, u, |u|)
    ensures Replace(u, Matcher(r), replace) == replace(u)
  {
    MatchLongest(r, u);
    assert Matcher(r)(u) == Some(|u|);
    ReplaceMatchStep(u, Matcher(r), replace, |u|);
    assert u[..|u|] == u && |u[|u|..]| == 0;
  }
}

=== FILE: utf8.dfy ===
/**
 * UTF-8 (RFC 3629, section 3), the byte form in which both servers hand text
 * to base64: Node's `Buffer.from(string)` and PHP strings, which are UTF-8
 * bytes already. A `char` here is a Unicode scalar value.
 */
module Utf8 {
  import opened Wrappers
  import opened Base64

  /** A continuation byte, `10xxxxxx`. */
  predicate Continuation(b: Byte)
  {
    0x80 <= b < 0xC0
  }

  /** The one to four bytes of a code point, its bits spread over a lead byte and continuation bytes. */
  function EncodeChar(c: char): (bs: seq<Byte>)
    ensures 1 <= |bs| <= 4
    ensures |bs| == 1 <==> (c as int) < 0x80
  {
    var cp := c as int;
    if cp < 0x80 then [cp]
    else if cp < 0x800 then [0xC0 + cp / 64, 0x80 + cp % 64]
    else if cp < 0x10000 then [0xE0 + cp / 4096, 0x80 + (cp / 64) % 64, 0x80 + cp % 64]
    else [0xF0 + cp / 262144, 0x80 + (cp / 4096) % 64, 0x80 + (cp / 64) % 64, 0x80 + cp % 64]
  }

  /** The bytes of a text, character by character. */
  function Encode(s: string): seq<Byte>
  {
    if |s| == 0 then [] else EncodeChar(s[0]) + Encode(s[1..])
  }

  /** The first character of well-formed bytes and how many bytes it took; overlong forms, surrogates and values past U+10FFFF are errors. */
  function DecodeFirst(bs: seq<Byte>): (r: Option<(char, nat)>)
    requires |bs| > 0
    ensures r.Some? ==> 1 <= r.value.1 <= |bs|
  {
    var b0, b1, b2, b3: int := bs[0], if |bs| > 1 then bs[1] else 0, if |bs| > 2 then bs[2] else 0, if |bs| > 3 then bs[3] else 0;
    if b0 < 0x80 then Some((b0 as char, 1))
    else if 0xC2 <= b0 < 0xE0 && |bs| >= 2 && Continuation(bs[1]) then
      Some((((b0 - 0xC0) * 64 + (b1 - 0x80)) as char, 2))
    else if 0xE0 <= b0 < 0xF0 && |bs| >= 3 && Continuation(bs[1]) && Continuation(bs[2]) then
      var cp := (b0 - 0xE0) * 4096 + (b1 - 0x80) * 64 + (b2 - 0x80);
      if 0x800 <= cp && !(0xD800 <= cp < 0xE000) then Some((cp as char, 3)) else None
    else if 0xF0 <= b0 < 0xF5 && |bs| >= 4 && Continuation(bs[1]) && Continuation(bs[2]) && Continuation(bs[3]) then
      var cp := (b0 - 0xF0) * 262144 + (b1 - 0x80) * 4096 + (b2 - 0x80) * 64 + (b3 - 0x80);
      if 0x10000 <= cp < 0x110000 then Some((cp as char, 4)) else None
    else None
  }

  /** The text of well-formed UTF-8 bytes. */
  function Decode(bs: seq<Byte>): Option<string>
    decreases |bs|
  {
    if |bs| == 0 then Some([])
    else match DecodeFirst(bs)
      case None => None
      case Some((c, n)) =>
        match Decode(bs[n..])
        case None => None
        case Some(rest) => Some([c] + rest)
  }

  /** The two-byte form reads back as its code point. */
  lemma TwoBytes(cp: int)
    requires 0x80 <= cp < 0x800
    ensures (0xC0 + cp / 64 - 0xC0) * 64 + (0x80 + cp % 64 - 0x80) == cp
    ensures 0xC2 <= 0xC0 + cp / 64 < 0xE0
  {
  }

  /** The three-byte form reads back as its code point. */
  lemma ThreeBytes(cp: int)
    requires 0x800 <= cp < 0x10000
    ensures (cp / 4096) * 4096 + ((cp / 64) % 64) * 64 + cp % 64 == cp
  {
    var q := cp / 64;
    assert cp == q * 64 + cp % 64;
    assert q == (q / 64) * 64 + q % 64;
    assert q / 64 == cp / 4096;
  }

  /** The four-byte form reads back as its code point. */
  lemma FourBytes(cp: int)
    requires 0x10000 <= cp < 0x110000
    ensures (cp / 262144) * 262144 + ((cp / 4096) % 64) * 4096 + ((cp / 64) % 64) * 64 + cp % 64 == cp
    ensures cp / 262144 < 5
  {
    var q := cp / 64;
    var r := q / 64;
    assert cp == q * 64 + cp % 64;
    assert q == r * 64 + q % 64;
    assert r == (r / 64) * 64 + r % 64;
    assert r == cp / 4096;
    assert r / 64 == cp / 262144;
  }

  /** Decoding the first character of an encoded character followed by anything. */
  lemma DecodeFirstChar(c: char, rest: seq<Byte>)
    ensures DecodeFirst(EncodeChar(c) + rest) == Some((c, |EncodeChar(c)|))
  {
    var cp := c as int;
    var bs := EncodeChar(c) + rest;
    if cp < 0x80 {
    } else if cp < 0x800 {
      TwoBytes(cp);
    } else if cp < 0x10000 {
      ThreeBytes(cp);
      assert bs[0] == 0xE0 + cp / 4096 && bs[1] == 0x80 + (cp / 64) % 64 && bs[2] == 0x80 + cp % 64;
    } else {
      FourBytes(cp);
      assert bs[0] == 0xF0 + cp / 262144 && bs[1] == 0x80 + (cp / 4096) % 64;
      assert bs[2] == 0x80 + (cp / 64) % 64 && bs[3] == 0x80 + cp % 64;
    }
  }

  /** Decoding the UTF-8 form of a text gives the text back. */
  lemma {:induction false} DecodeEncode(s: string)
    ensures Decode(Encode(s)) == Some(s)
    decreases |s|
  {
    if |s| > 0 {
      var first := EncodeChar(s[0]);
      var bs := Encode(s);
      DecodeFirstChar(s[0], Encode(s[1..]));
      assert bs[|first|..] == Encode(s[1..]);
      DecodeEncode(s[1..]);
      assert s == [s[0]] + s[1..];
    }
  }

  /** ASCII text is its own UTF-8 form, one byte per character. */
  lemma {:induction false} EncodeAscii(s: string, bs: seq<Byte>)
    requires |s| == |bs|
    requires forall i :: 0 <= i < |s| ==> (s[i] as int) < 0x80 && s[i] as int == bs[i]
    ensures Encode(s) == bs
    decreases |s|
  {
    if |s| > 0 {
      EncodeAscii(s[1..], bs[1..]);
      assert bs == [bs[0]] + bs[1..];
    }
  }
}

=== FILE: wrappers.dfy ===
/** An optional value: Python's `None` / a value, a regex that did or did not match. */
module Wrappers {

  datatype Option<+T> = None | Some(value: T) {

    /** The value, or `default` when there is none (Python's `x if x else default`). */
    function GetOr(default: T): T
    {
      match this
      case Some(v) => v
      case None => default
    }
  }
}
